=== FILE: README.md ===
# pygnucash core in Dafny

A model of the core of pygnucash. pygnucash is a set of Python scripts that read a
GnuCash SQLite book into memory and report on it. The model covers five parts:

- **Book loading** (`gnucash/__init__.py`). `read_data` reads the commodity,
  account, transaction, split and price rows into one in-memory book. It goes
  through the get-or-create object cache. It links splits to their
  transactions and accounts, and accounts to their parents. Last, it sorts
  each commodity's price list by date. The model is modules `Book` (entities,
  tables, the cache, guid equality) and `Loader` (`read_data` over row
  sequences).
- **Stock report** (`stockreport.py`), module `StockReport`. It totals dividends,
  buys and sells per stock or mutual-fund account and values the open
  position at the last price. It then rolls up realized gain, unrealized
  gain, fees and dividends. As written, the loop aborts at the first such
  account (see Findings); `Report` models the loop as evidently intended and
  `ReportOverAsWritten` the loop as written.
- **Quote refresh** (`get_quotes.py`), module `Quotes`. It decides which
  commodities get a quote, which are fresh enough to skip, and whether a
  fetched quote is stored.
- **Account names** (`gnucashutil.py`, and the variants in `stockreport.py` and
  `gnucash2ledger.py`), module `AccountNames`. These are the three
  `full_acc_name` functions over an account's ancestor chain.
- **Ledger export** (`gnucash2ledger.py`), module `LedgerExport`. It covers:
  - commodity directives;
  - account declarations;
  - `P` price lines;
  - transactions with postings.

  Prices and transactions are each stably sorted by date.

The modelling choices:

- Amounts are exact rationals (`real`), computed as num/denom.
- Dates are integer seconds in UTC. A calendar day is the date divided by 86400.
- A Python `dict` is a `Table`: a map from guid to object, plus the insertion
  order that `values()` iterates in.
- Object identity and `==` between entities are guid equality. The cache
  keeps one object per guid.
- Every Python `assert`, and every `None` attribute access that would raise,
  is an `Err` of `Outcomes.Error`.
- `Seqs` holds the stable insertion sort that stands for Python's `sort`.

## Model

| member | source | states |
|---|---|---|
| Book.GetOrCreate | gnucash/__init__.py:155-163 | a known guid returns the stored object and leaves the table unchanged; a new guid stores exactly the given fresh object under it, appends it to the iteration order and keeps every other entry |
| Book.GetOrCreateIdempotent | gnucash/__init__.py:155-163 | asking the cache twice for the same guid changes nothing the second time |
| Book.GuidEq | gnucash/__init__.py:24-27 | comparing with something without a guid fails; otherwise the result is true exactly when the guids agree |
| Book.EntityEquality | gnucash/__init__.py:20-27 | two stored accounts compare equal exactly when they are stored under the same key |
| Book.GetAccount | gnucash/__init__.py:166-168 | the account accessor returns the stored or fresh account, stores it, and changes no other account and no other table |
| Book.Values | gnucash/__init__.py:307 | `values()` lists the stored objects in insertion order |
| Book.Day | get_quotes.py:74 | the calendar day of a time is the day whose 86400 seconds contain it |
| Loader.Precision | gnucash/__init__.py:216 | the precision exists exactly for a positive fraction and is the k with 10^k <= fraction < 10^(k+1) |
| Loader.PrecisionOfPowerOfTen | gnucash/__init__.py:216 | a fraction of 10^k has precision k |
| Loader.Log10FloorUnique | gnucash/__init__.py:216 | the integer logarithm is the only k with 10^k <= n < 10^(k+1) |
| Loader.PriceValue | gnucash/__init__.py:299-304 | a price's value is 0 for a zero denominator, otherwise the number that times the denominator gives the numerator |
| Loader.LoadCommoditiesFacts | gnucash/__init__.py:204-216 | the commodity rows load exactly when every fraction is positive, and each commodity then carries its last row's fields |
| Loader.LoadAccountsFacts | gnucash/__init__.py:218-249 | each account carries its last row's fields; the parent is set, and the account is appended to the parent's children, exactly when the parent guid is non-empty |
| Loader.LoadTransactionsFacts | gnucash/__init__.py:251-259 | each transaction carries its last row's currency, number, post date and description |
| Loader.LoadSplitsFacts | gnucash/__init__.py:261-287 | the split rows load exactly when no denominator is zero; each split is appended to its transaction's and its account's split lists in row order, with both back references |
| Loader.LoadPricesFacts | gnucash/__init__.py:289-304 | each price is appended to its commodity's price list and carries its last row's fields |
| Loader.SortPricesFacts | gnucash/__init__.py:306-309 | the final sort replaces every price list by its stable sort by date and changes nothing else |
| Loader.ReadDataSucceeds | gnucash/__init__.py:200-311 | loading fails exactly on a non-positive commodity fraction or a zero split denominator |
| Loader.ReadDataLinked | gnucash/__init__.py:200-311 | a loaded book is linked: every object is stored under its own guid, and every parent, child, commodity, currency, split, transaction and price reference names a stored object; every price list is in date order |
| Loader.ReadDataAccounts | gnucash/__init__.py:218-249 | every account carries its last row's fields, its children in row order and its splits in split-row order |
| Loader.ReadDataTransactions | gnucash/__init__.py:251-280 | every transaction carries its last row's fields and its splits in split-row order |
| Loader.ReadDataSplitsAndPrices | gnucash/__init__.py:261-304 | every split and every price is built from its last row or is the fresh default |
| Loader.ReadDataCommodities | gnucash/__init__.py:204-216 | every commodity carries the fields of its last row or the defaults |
| Loader.ReadDataPriceLists | gnucash/__init__.py:289-309 | every commodity's price list is the price rows naming it, stably sorted by date |
| Loader.ReadDataPriceOrder | gnucash/__init__.py:295-309 | every price list is sorted by date, is a permutation of the commodity's price rows, and keeps row order among prices of equal date |
| Seqs.SortBy | gnucash/__init__.py:309 | the sorted list is ordered by the key and is a permutation of the input |
| Seqs.SortByStable | gnucash/__init__.py:309 | sorting keeps the relative order of the elements with equal keys |
| AccountNames.AncestorChainUnique | gnucash/__init__.py:236-244 | two ancestor chains that end at the same account are equal, so an account has at most one ancestor chain |
| AccountNames.UtilNameJoin | gnucashutil.py:1-8 | the name is the last min(maxdepth, depth) names below the root, with leading empty names dropped, joined by ":" |
| AccountNames.UtilNameNonEmpty | gnucashutil.py:1-8 | with non-empty names, the name is those names joined by ":", and the root's name never appears |
| AccountNames.UtilNameTopLevel | gnucashutil.py:4-7 | an account directly below the root is named by its own name |
| AccountNames.UtilNameNoLeadingColon | gnucashutil.py:5-6 | the name is empty or begins with a non-empty account name below the root, so the function never puts a separator first |
| AccountNames.ReportNameJoin | stockreport.py:12-17 | the report name puts ":" before each of the last min(maxdepth, depth) names below the root |
| AccountNames.ReportNameIsUtilName | stockreport.py:12-17 | with non-empty names, the report name is ":" followed by the utility's name |
| AccountNames.LedgerNameJoin | gnucash2ledger.py:23-28 | an account with fewer than two ancestors fails; otherwise the name joins the names from depth 2 down to the account |
| AccountNames.LedgerNameIsUtilName | gnucash2ledger.py:23-28 | with non-empty names, the ledger name is the utility's name with the depth limit two less than the chain length, root included |
| AccountNames.AccountLedgerNameOfChain | gnucash2ledger.py:23-28 | following parent links in a book gives the ledger name of the account's ancestor chain, and the walk never runs out of steps |
| AccountNames.ChainFitsTable | gnucash2ledger.py:23-28 | an ancestor chain is no longer than the account table |
| StockReport.DividendParts | stockreport.py:33-48 | the cash, fee and dividend totals of a dividend transaction are non-negative |
| StockReport.DividendPartsSums | stockreport.py:33-48 | the legs are classified without error exactly when every other leg is an expense, bank or income leg; the three totals are then the per-type sums of absolute values |
| StockReport.DividendCountIsZeroQuantityCount | stockreport.py:26-29 | the dividend count is the number of the account's zero-quantity splits |
| StockReport.CalcDividends | stockreport.py:20-57 | the returned cash and fee totals are non-negative, and the count is at most the account's split count |
| StockReport.CalcDividendsCounts | stockreport.py:49-57 | a successful result counts the zero-quantity splits, and cash plus fees is within 0.0001 of the dividends |
| StockReport.DividendTotalsSums | stockreport.py:26-54 | the dividend pass succeeds exactly when every split has a transaction and every dividend booking has only expense, bank and income legs and a currency; cash, fees and dividends are then the bank, expense and income sums over the bookings |
| StockReport.CalcDividendsSums | stockreport.py:20-57 | the calculation succeeds exactly when every split is bookable and the income sum is within 0.0001 of the bank plus expense sums; it then returns the bank sum as cash and the expense sum as fees |
| StockReport.TradeParts | stockreport.py:77-101 | the fee total of a trade is non-negative |
| StockReport.TradePartsSucceeds | stockreport.py:77-101 | the legs are classified without error exactly when every leg is skipped or on an expense, bank, asset, stock or fund account and every depot transfer comes before any costs; the costs are then minus the value of the bank, asset and transfer legs, and the fees the sum of the absolute expense values |
| StockReport.TradeCostsFromLegs | stockreport.py:78-95 | without share-split legs, the costs are the fees minus the value of all other legs |
| StockReport.TradeCostIsValuePlusFees | stockreport.py:78-95 | in a balanced transaction that lists the split once, a trade costs its own value plus its fees |
| StockReport.TradeTagOfMovers | stockreport.py:71-95 | a trade keeps its buy or sell label exactly when no stock or fund leg is present; otherwise the last such leg makes it a share split exactly when it is on the traded account |
| StockReport.NoShareSplitTag | stockreport.py:85-90 | without legs on the traded account a trade is never a share split |
| StockReport.SharesAreQuantitySum | stockreport.py:66-68 | the share total is the sum of all quantities of the account's splits |
| StockReport.CalcBuySell | stockreport.py:59-109 | the fee total of an account's trades is non-negative |
| StockReport.TradeTotalsSums | stockreport.py:63-108 | the costs and fees of an account are the sums of the cost legs and of the expense legs over its trades |
| StockReport.LatestShareValue | stockreport.py:111-118 | the account needs a commodity; there is no valuation exactly when the price list is empty; otherwise the valuation is the share count times the last price's value, dated as that price |
| StockReport.LatestShareValueIsNewest | stockreport.py:111-118 | in a loaded book the valuation is the share count times the value of one of the commodity's prices, dated as that price, and no price of the commodity is newer |
| StockReport.AccountReport | stockreport.py:127-151 | accounts other than stock and mutual-fund accounts leave the totals unchanged, and fees and dividends stay non-negative |
| StockReport.ReportOnlyInvestments | stockreport.py:127-130 | the totals over all accounts equal the totals over the stock and mutual-fund accounts alone |
| StockReport.ReportCountsDividends | stockreport.py:134-140 | the dividend count is the number of dividend bookings on the investment accounts |
| StockReport.ReportSumsAccounts | stockreport.py:127-151 | the realized gain is the sum of minus the costs of the closed positions, the unrealized gain the sum of valuation minus costs of the open ones, the fees the sum of dividend and trade fees, and the dividends the sum of the cash paid out |
| StockReport.AccountReportNoPrice | stockreport.py:145-151 | for an account whose dividends and trades compute, the step fails exactly when the position is open and its commodity has no price, and then with `NoPrice` |
| StockReport.ReportNoPrice | stockreport.py:127-151 | when every account computes, the report fails exactly when some open position has no price, and then with `NoPrice` |
| StockReport.Report | stockreport.py:121-158 | fees and dividends are non-negative, and the complete gain is realized plus unrealized gain plus dividends |
| StockReport.ReportTotals | stockreport.py:152-158 | the summary's fees, realized and unrealized gains and dividends are the per-account sums over the account table |
| StockReport.ReportDividendCount | stockreport.py:121-158 | the report's dividend count is the number of dividend bookings over the account table |
| StockReport.ReportAsWrittenFails | stockreport.py:134-137 | as written, the report loop succeeds exactly when the book has no stock or mutual-fund account |
| StockReport.ReportAsWrittenRejectsStock | stockreport.py:127-137 | on a book with one stock account without splits, the loop as written fails with a missing attribute while the corrected report gives all-zero totals |
| Quotes.PriceOnDay | get_quotes.py:72-76 | there is no result exactly when no price is on the day; a result is a price on that day |
| Quotes.LatestDate | get_quotes.py:79-84 | there is no result exactly for an empty list; a result is the day of some price and no price is later |
| Quotes.LatestDateOrderFree | get_quotes.py:79-84 | the latest date does not depend on the order of the list |
| Quotes.LatestDateOfSorted | get_quotes.py:79-84 | on a date-sorted list the latest date is the last price's day |
| Quotes.GetCurrency | get_quotes.py:87-91 | there is no result exactly when no commodity is a currency with that mnemonic; a result is such a commodity |
| Quotes.FirstCurrency | get_quotes.py:87-91 | the result is the first commodity, in table order, that is a currency with the mnemonic |
| Quotes.SelectOverSymbols | get_quotes.py:106-112 | selection succeeds exactly when the quoted mnemonics are distinct, and then the symbols are those mnemonics in table order |
| Quotes.SelectOver | get_quotes.py:106-112 | the map's keys are the selected symbols, and each maps to a quoted commodity of the table with that mnemonic |
| Quotes.RefreshPlan | get_quotes.py:102-128 | the plan needs a USD currency and a clean selection; a symbol is fetched exactly when its latest stored day is more than 3 days old or missing |
| Quotes.Stale | get_quotes.py:121-128 | the kept symbols are exactly the listed ones that are not fresh |
| Quotes.Decide | get_quotes.py:121-153 | a quote is stored exactly when the commodity is not fresh and no stored price is on the quote's day |
| Quotes.DecideStoresOnce | get_quotes.py:136-153 | once a quote is stored, the same quote is not stored again |
| LedgerExport.FormatCommodity | gnucash2ledger.py:14-21 | the mnemonic is left bare exactly when it is non-empty ASCII letters, and unquoting gives the mnemonic back |
| LedgerExport.FormatCommodityInjective | gnucash2ledger.py:14-21 | different mnemonics give different symbols |
| LedgerExport.EscapeQuotesRoundTrip | gnucash2ledger.py:53 | escaping quotes loses nothing: unescaping gives the input back |
| LedgerExport.CheckCommodityRecovers | gnucash2ledger.py:52-54 | the check line names the account's mnemonic unambiguously |
| LedgerExport.NoNl | gnucash2ledger.py:30-31 | same length; each newline becomes a space and every other character stays |
| LedgerExport.NoNlNoNewline | gnucash2ledger.py:30-31 | no newline survives, and a string without newlines is unchanged |
| LedgerExport.NoNlIdempotent | gnucash2ledger.py:30-31 | replacing newlines twice is replacing them once |
| LedgerExport.Without | gnucash2ledger.py:69 | the character is gone and every other character keeps its count |
| LedgerExport.WithoutAppend | gnucash2ledger.py:69 | removal works piecewise on a concatenation, so the remaining characters keep their order |
| LedgerExport.WithoutSingle | gnucash2ledger.py:69 | a single character is dropped exactly when it is the removed one |
| LedgerExport.WithoutAbsent | gnucash2ledger.py:69 | a string without the character is unchanged |
| LedgerExport.TransactionCode | gnucash2ledger.py:69 | the code is empty exactly for an empty number; otherwise it is "(" + text + ") ", whose text is the number with every ")" removed and newlines made spaces, so it has no ")" and no newline |
| LedgerExport.CommodityDirective | gnucash2ledger.py:35-40 | a directive's symbol unquotes to the mnemonic; it has a note exactly when the full name is non-empty, and the note is that name with newlines made spaces |
| LedgerExport.CommodityDirectivesDeclare | gnucash2ledger.py:33-40 | the directives declare exactly the non-empty mnemonics, in table order, each directive being that of the commodity at the same place among those with a mnemonic, so it carries that commodity's full-name note |
| LedgerExport.AccountDeclaration | gnucash2ledger.py:43-55 | an account is declared exactly when it has a type other than ROOT and a commodity other than "template"; a declaration carries the account's ledger name, its description with newlines made spaces as a note when non-empty, and the escaped, quoted-if-needed commodity check |
| LedgerExport.AccountDeclarationsList | gnucash2ledger.py:42-55 | the declarations are those of the declared accounts, in table order, each being that account's own declaration (ledger name, description note, commodity check) |
| LedgerExport.PriceLine | gnucash2ledger.py:60-62 | a price line exists exactly when the price has a commodity and a currency, and carries the price's date and value and the formatted commodity and currency mnemonics |
| LedgerExport.PriceLines | gnucash2ledger.py:60-62 | the price lines are one per price, the i-th being the i-th price's line |
| LedgerExport.PostingOf | gnucash2ledger.py:74-80 | a posting carries a total cost exactly when the account commodity differs from the transaction currency; its amount is then the quantity in the account commodity's symbol and the cost the absolute value in the currency's symbol, otherwise the amount is the value in the currency's symbol; the account is the ledger name and a non-empty memo is kept with newlines made spaces; a posting is written exactly when the split has an account with a ledger name and a commodity and the transaction has a currency |
| LedgerExport.PostingValueIsSplitValue | gnucash2ledger.py:75-78 | read as ledger does, a posting stands for its split's value, when the split's value has its quantity's sign |
| LedgerExport.PostingValueOfZeroQuantity | gnucash2ledger.py:75-78 | a posting with a total cost and a zero quantity stands for the absolute value of its split, so a negative value comes out with the wrong sign |
| LedgerExport.Postings | gnucash2ledger.py:72-81 | one posting per split, in split order, each the split's own posting |
| LedgerExport.PostingsOk | gnucash2ledger.py:72-81 | the postings are written exactly when every split gives a posting |
| LedgerExport.PostingsCarryValue | gnucash2ledger.py:72-81 | the postings' ledger sum is the splits' value sum, when every split's value has its quantity's sign |
| LedgerExport.TransactionEntry | gnucash2ledger.py:67-82 | an entry is written exactly when every split gives a posting; it carries the post date, the transaction code of the number, the description with newlines made spaces, and one posting per split in split order |
| LedgerExport.TransactionEntryBalances | gnucash2ledger.py:67-82 | a balanced GnuCash transaction is written as a balanced ledger transaction, when every split's value has its quantity's sign |
| LedgerExport.EntriesInOrder | gnucash2ledger.py:67-82 | each written entry is the entry of the transaction in the same place |
| LedgerExport.SortedPriceLines | gnucash2ledger.py:58-62 | one line per price, in ascending date order (which line belongs to which price is `ExportPriceOrder`) |
| LedgerExport.SortedEntries | gnucash2ledger.py:65-82 | every transaction is written, in ascending post-date order |
| LedgerExport.Export | gnucash2ledger.py:33-82 | prices and transactions are written in date order, one line or entry for each; they are the sorted price lines and the sorted entries |
| LedgerExport.ExportTransactionOrder | gnucash2ledger.py:65-82 | the written transactions are a permutation of the table; transactions of equal date keep table order; each entry is its transaction's entry |
| LedgerExport.ExportPriceOrder | gnucash2ledger.py:58-62 | the written price lines are those of a permutation of the price table; prices of equal date keep table order; each line is its price's line |

## Left out

- SQLite access is left out: `open_file`, `read_file`, cursor iteration,
  `change_split_account` and `add_price`. `read_data` takes row sequences
  instead of a cursor.
- `_parse_time` is left out. Dates are already integer seconds.
- Python floats are left out. Amounts are exact rationals, so float rounding
  and NaN arithmetic are not modelled.
- Printed text is left out: the printf-style formatting, the `out.write`
  lines, and the `%Y/%m/%d` date rendering.
- Every `out.write` is taken to succeed, as the `codecs` UTF-8 writer over
  `sys.stdout` (stockreport.py:6, gnucash2ledger.py:8) does under Python 2.
  Under Python 3, which the `gnucash/` package needs (`from __future__ import
  annotations`, `datetime.UTC` and `slots=True` at gnucash/__init__.py:1-13,
  30), that writer hands bytes to a text stream. The first write then raises
  `TypeError`: at gnucash2ledger.py:37 or 40 for every book, at
  stockreport.py:132 for the first stock or mutual-fund account, and at
  stockreport.py:152 at the latest. The model leaves this failure out, like
  the one at `dict.values().sort()` below.
- `int(price * 10000)` at get_quotes.py:141 is left out. It is a float
  conversion whose only interest is rounding.
- Polygon quote fetching, the clock and argv/exit handling in
  `get_quotes.py` are left out. Today's day and the fetched quote's time
  are parameters.
- `add_price` (the database write) is left out. Storing a quote is the
  `Store` decision.
- The stock report's account name at stockreport.py:131 (`full_acc_name(acc, 3)`)
  only feeds printed output, so the report does not compute it. The name
  function itself is modelled as `AccountNames.ReportName`.
- The trade label (BUY, SELL, SPLT, MIN, MOUT) only feeds printed output. It
  is modelled on its own (`StockReport.TradeTag`) and not inside the totals.
- The `shares +=` of a share split (stockreport.py:90) changes a local that
  never reaches the result, so it is not modelled.
- `dict.values().sort()` in `gnucash2ledger.py` (lines 59 and 66) is
  modelled as a stable sort of the table's iteration order. Under Python 3,
  which the `gnucash/` package needs, both lines raise `AttributeError`,
  because a `dict_values` view has no `sort`; the model leaves this failure
  out. The equal-date order it keeps is Python 3 insertion order, whereas a
  Python 2 dict iterates in hash order.
- `edit.py`, `gc2ledger.py` and the legacy `gnucash.py` module are not part of
  this model.
- A NULL transaction, account or currency guid in a row is left out (the
  `_get_data_cached` assertion at gnucash/__init__.py:158). Row guid columns
  are strings, and "" stands for an empty parent or commodity guid.
- AccountNames.BookLedgerName: the parent walk takes a step bound. It is the
  size of the account table, which every ancestor chain fits into
  (`ChainFitsTable`). A parent cycle, which the source would recurse on
  without end, is reported as `ParentCycle`.
- LedgerExport.PostingValueIsSplitValue: holds only for a split whose value
  has its quantity's sign. GnuCash books realized gain and loss splits with
  quantity zero and a possibly negative value; `abs(split.value)` at
  gnucash2ledger.py:76 then drops the sign (`PostingValueOfZeroQuantity`).
  Whether ledger reads `0 X @@ 5 USD` as 5, as 0 or as an error is ledger's
  behaviour, not this program's, so it is not claimed as a finding.
- LedgerExport.PostingsCarryValue: holds only when every split's value has its
  quantity's sign, for the reason above.
- LedgerExport.TransactionEntryBalances: holds only when every split's value
  has its quantity's sign, for the reason above; a balanced transaction with
  a realized gain split can be written unbalanced.
- StockReport.CalcBuySell: states only fee non-negativity in its own
  contract. The cost, fee and share relations are the separate lemmas
  `TradeTotalsSums`, `TradeCostsFromLegs`, `TradeCostIsValuePlusFees` and
  `SharesAreQuantitySum`.

## Findings

| source | as written | input that shows it | evidently intended | confidence | as-written member | corrected member |
|---|---|---|---|---|---|---|
| stockreport.py:135-137 | the dividend figures are stored as new attributes `div_value`, `div_count` and `div_fees` of the account; `import gnucash` loads the `gnucash/` package, whose `Account` is a slotted dataclass (gnucash/__init__.py:30-39) without those fields, so the assignment raises `AttributeError`; under Python 3 the `codecs` writer already fails at line 132 on the same account (see "## Left out"), so this is the first failure once output works | a book with one STOCK account and no splits | keep the three figures in locals for the printout at line 144 and go on to the totals | not executed; high, the class declares `slots=True` and no such fields | StockReport.ReportAsWrittenFails | StockReport.ReportTotals |

=== FILE: account_names.dfy ===
/**
 The three `full_acc_name` variants of the repository: the library helper of
 gnucashutil.py, the report's variant in stockreport.py and the ledger
 exporter's variant in gnucash2ledger.py.

 Each walks `acc.parent` links up to the account without a parent. Here that
 walk is its result: the ancestor chain, the names from the topmost account
 (the book's root) down to the account itself. `AncestorChain` says when a
 sequence of guids is such a walk in a book.
 */
module AccountNames {
  import opened Outcomes
  import opened Book

  /** `chain` is the parent walk from a parentless account down to its last element. */
  ghost predicate AncestorChain(b: Book, chain: seq<Guid>) {
    && |chain| >= 1
    && (forall i :: 0 <= i < |chain| ==> chain[i] in b.accounts.items)
    && AccountOr(b, chain[0]).parent.None?
    && (forall i :: 1 <= i < |chain| ==> AccountOr(b, chain[i]).parent == Some(chain[i - 1]))
  }

  /** The names along a chain of accounts. */
  function ChainNames(b: Book, chain: seq<Guid>): (names: seq<string>)
    ensures |names| == |chain|
    ensures forall i :: 0 <= i < |chain| ==> names[i] == AccountOr(b, chain[i]).name
  {
    seq(|chain|, i requires 0 <= i < |chain| => AccountOr(b, chain[i]).name)
  }

  /** Parent links determine the walk: an account has at most one ancestor chain. */
  lemma {:induction false} AncestorChainUnique(b: Book, c1: seq<Guid>, c2: seq<Guid>)
    requires AncestorChain(b, c1) && AncestorChain(b, c2)
    requires c1[|c1| - 1] == c2[|c2| - 1]
    ensures c1 == c2
    decreases |c1|
  {
    var last := c1[|c1| - 1];
    if |c1| > 1 {
      assert AccountOr(b, c1[|c1| - 1]).parent == Some(c1[|c1| - 2]);
    }
    if |c2| > 1 {
      assert AccountOr(b, c2[|c2| - 1]).parent == Some(c2[|c2| - 2]);
    }
    if |c1| == 1 {
      assert c1 == [last] == c2;
    } else {
      var p1 := c1[..|c1| - 1];
      var p2 := c2[..|c2| - 1];
      assert Some(p1[|p1| - 1]) == AccountOr(b, last).parent == Some(p2[|p2| - 1]);
      assert AncestorChain(b, p1) by {
        assert forall i :: 1 <= i < |p1| ==> AccountOr(b, p1[i]).parent == Some(p1[i - 1]);
      }
      assert AncestorChain(b, p2) by {
        assert forall i :: 1 <= i < |p2| ==> AccountOr(b, p2[i]).parent == Some(p2[i - 1]);
      }
      AncestorChainUnique(b, p1, p2);
      assert c1 == p1 + [last] && c2 == p2 + [last];
    }
  }

  // ---------------------------------------------------------------------
  // Reference definitions

  /** `":".join(names)`. */
  function Join(names: seq<string>): string
    decreases |names|
  {
    if |names| == 0 then ""
    else if |names| == 1 then names[0]
    else Join(names[..|names| - 1]) + ":" + names[|names| - 1]
  }

  /**
   The names a walk of at most `maxdepth` parent links covers: the last
   min(maxdepth, |chain| - 1) names, never the root's; a negative depth never
   runs out.
   */
  function Included(chain: seq<string>, maxdepth: int): (names: seq<string>)
    requires |chain| >= 1
    ensures |names| == if 0 <= maxdepth < |chain| - 1 then maxdepth else |chain| - 1
    ensures names == chain[|chain| - |names|..]
  {
    var n := |chain| - 1;
    var k := if 0 <= maxdepth < n then maxdepth else n;
    chain[|chain| - k..]
  }

  /** `names` without its leading empty names. */
  function DropLeadingEmpty(names: seq<string>): (r: seq<string>)
    ensures r == [] || r[0] != ""
    ensures |r| <= |names|
    ensures r == names[|names| - |r|..]
    ensures forall i :: 0 <= i < |names| - |r| ==> names[i] == ""
  {
    if names == [] then []
    else if names[0] == "" then
      var r := DropLeadingEmpty(names[1..]);
      assert names[1..][|names| - 1 - |r|..] == names[|names| - |r|..];
      r
    else names
  }

  ghost predicate NonEmptyNames(chain: seq<string>) {
    forall i :: 0 <= i < |chain| ==> chain[i] != ""
  }

  // ---------------------------------------------------------------------
  // gnucashutil.py

  /**
   gnucashutil.py:1-8: "" for the root or at depth 0; otherwise the parent's
   name, a ":" only when that name is not empty, and the account's own name.
   */
  function UtilName(chain: seq<string>, maxdepth: int): string
    requires |chain| >= 1
    decreases |chain|
  {
    if |chain| == 1 || maxdepth == 0 then ""
    else
      var prefix := UtilName(chain[..|chain| - 1], maxdepth - 1);
      (if prefix != "" then prefix + ":" else "") + chain[|chain| - 1]
  }

  lemma {:induction false} JoinStartsWithFirst(names: seq<string>)
    requires names != []
    ensures names[0] <= Join(names)
    decreases |names|
  {
    if |names| > 1 {
      var init := names[..|names| - 1];
      JoinStartsWithFirst(init);
      assert init[0] == names[0];
      assert Join(names) == Join(init) + (":" + names[|names| - 1]);
    }
  }

  lemma DropLeadingEmptyAppend(names: seq<string>, y: string)
    ensures DropLeadingEmpty(names + [y])
            == if DropLeadingEmpty(names) == [] then (if y == "" then [] else [y])
               else DropLeadingEmpty(names) + [y]
    decreases |names|
  {
    if names == [] {
      assert names + [y] == [y];
      assert [y][1..] == [];
    } else {
      assert (names + [y])[0] == names[0];
      assert (names + [y])[1..] == names[1..] + [y];
      if names[0] == "" {
        DropLeadingEmptyAppend(names[1..], y);
      }
    }
  }

  lemma JoinAppend(names: seq<string>, y: string)
    requires names != []
    ensures Join(names + [y]) == Join(names) + ":" + y
  {
    assert (names + [y])[..|names|] == names;
  }

  /** One more parent link covers one more name, the account's own. */
  lemma IncludedStep(chain: seq<string>, maxdepth: int)
    requires |chain| > 1 && maxdepth != 0
    ensures Included(chain, maxdepth) == Included(chain[..|chain| - 1], maxdepth - 1) + [chain[|chain| - 1]]
  {
  }

  /** Appending a name to the helper's result for the parent. */
  lemma UtilNameAppend(inc: seq<string>, y: string, prefix: string)
    requires prefix == Join(DropLeadingEmpty(inc))
    ensures (if prefix != "" then prefix + ":" else "") + y == Join(DropLeadingEmpty(inc + [y]))
  {
    DropLeadingEmptyAppend(inc, y);
    var d := DropLeadingEmpty(inc);
    if d != [] {
      JoinStartsWithFirst(d);
      assert prefix != "";
      JoinAppend(d, y);
    } else if y == "" {
      assert prefix == "";
    } else {
      assert prefix == "";
      assert DropLeadingEmpty(inc + [y]) == [y];
    }
  }

  /**
   The helper's name is the included names joined by ":", where a ":" is
   only ever placed after a non-empty prefix: leading empty names vanish.
   */
  lemma {:induction false} UtilNameJoin(chain: seq<string>, maxdepth: int)
    requires |chain| >= 1
    ensures UtilName(chain, maxdepth) == Join(DropLeadingEmpty(Included(chain, maxdepth)))
    decreases |chain|
  {
    if |chain| == 1 || maxdepth == 0 {
      assert Included(chain, maxdepth) == [];
    } else {
      var init := chain[..|chain| - 1];
      var prefix := UtilName(init, maxdepth - 1);
      var inc := Included(init, maxdepth - 1);
      assert UtilName(chain, maxdepth) == (if prefix != "" then prefix + ":" else "") + chain[|chain| - 1];
      UtilNameJoin(init, maxdepth - 1);
      IncludedStep(chain, maxdepth);
      UtilNameAppend(inc, chain[|chain| - 1], prefix);
    }
  }

  /** With non-empty names: the last min(maxdepth, depth) names, joined by ":". */
  lemma UtilNameNonEmpty(chain: seq<string>, maxdepth: int)
    requires |chain| >= 1 && NonEmptyNames(chain)
    ensures UtilName(chain, maxdepth) == Join(Included(chain, maxdepth))
  {
    UtilNameJoin(chain, maxdepth);
    var inc := Included(chain, maxdepth);
    if inc != [] {
      assert inc[0] == chain[|chain| - |inc|];
    }
  }

  /** A child of the root is named by its own name alone. */
  lemma UtilNameTopLevel(chain: seq<string>, maxdepth: int)
    requires |chain| == 2 && maxdepth != 0
    ensures UtilName(chain, maxdepth) == chain[1]
  {
    assert UtilName(chain[..1], maxdepth - 1) == "";
  }

  /** No ":" is put in front: the name starts with the first non-empty included name. */
  lemma UtilNameNoLeadingColon(chain: seq<string>, maxdepth: int)
    requires |chain| >= 1
    ensures var r := UtilName(chain, maxdepth);
            r == "" || exists i :: 1 <= i < |chain| && chain[i] != "" && chain[i] <= r
  {
    UtilNameJoin(chain, maxdepth);
    var inc := Included(chain, maxdepth);
    var d := DropLeadingEmpty(inc);
    if d != [] {
      JoinStartsWithFirst(d);
      var i := |chain| - |d|;
      assert d[0] == inc[|inc| - |d|];
      assert d[0] == chain[i];
    }
  }

  // ---------------------------------------------------------------------
  // stockreport.py

  /** stockreport.py:12-17: like the helper, but every name is preceded by ":". */
  function ReportName(chain: seq<string>, maxdepth: int): string
    requires |chain| >= 1
    decreases |chain|
  {
    if |chain| == 1 || maxdepth == 0 then ""
    else ReportName(chain[..|chain| - 1], maxdepth - 1) + ":" + chain[|chain| - 1]
  }

  /** The report's name is ":" before each included name. */
  lemma {:induction false} ReportNameJoin(chain: seq<string>, maxdepth: int)
    requires |chain| >= 1
    ensures ReportName(chain, maxdepth)
            == if Included(chain, maxdepth) == [] then "" else ":" + Join(Included(chain, maxdepth))
    decreases |chain|
  {
    if |chain| == 1 || maxdepth == 0 {
    } else {
      var init := chain[..|chain| - 1];
      var y := chain[|chain| - 1];
      ReportNameJoin(init, maxdepth - 1);
      var inc := Included(init, maxdepth - 1);
      IncludedStep(chain, maxdepth);
      assert ReportName(chain, maxdepth) == ReportName(init, maxdepth - 1) + ":" + y;
      ReportNameAppend(ReportName(init, maxdepth - 1), inc, y);
    }
  }

  /** One more name below a ":"-prefixed join. */
  lemma ReportNameAppend(prefix: string, inc: seq<string>, y: string)
    requires prefix == if inc == [] then "" else ":" + Join(inc)
    ensures prefix + ":" + y == ":" + Join(inc + [y])
  {
    if inc != [] {
      JoinAppend(inc, y);
      var j := Join(inc);
      assert prefix == ":" + j;
      assert prefix + ":" + y == ":" + (j + ":" + y);
    } else {
      assert inc + [y] == [y];
      assert Join([y]) == y;
    }
  }

  /** With non-empty names the report's name is the helper's with a leading ":". */
  lemma ReportNameIsUtilName(chain: seq<string>, maxdepth: int)
    requires |chain| >= 1 && NonEmptyNames(chain)
    ensures ReportName(chain, maxdepth)
            == if UtilName(chain, maxdepth) == "" then "" else ":" + UtilName(chain, maxdepth)
  {
    ReportNameJoin(chain, maxdepth);
    UtilNameNonEmpty(chain, maxdepth);
    var inc := Included(chain, maxdepth);
    if inc != [] {
      JoinStartsWithFirst(inc);
      assert inc[0] == chain[|chain| - |inc|];
    }
  }

  // ---------------------------------------------------------------------
  // gnucash2ledger.py

  /**
   gnucash2ledger.py:23-28: reads `acc.parent.parent.parent`, so an account
   needs a parent and a grandparent; recursion stops below the root's child.
   */
  function LedgerName(chain: seq<string>): Result<string>
    requires |chain| >= 1
    decreases |chain|
  {
    if |chain| < 3 then Err(NoGrandparent)
    else if |chain| == 3 then Ok(chain[2])
    else
      var prefix :- LedgerName(chain[..|chain| - 1]);
      Ok(prefix + ":" + chain[|chain| - 1])
  }

  /** The ledger name drops the two topmost levels and joins the rest, empty names included. */
  lemma {:induction false} LedgerNameJoin(chain: seq<string>)
    requires |chain| >= 1
    ensures |chain| < 3 ==> LedgerName(chain) == Err(NoGrandparent)
    ensures |chain| >= 3 ==> LedgerName(chain) == Ok(Join(chain[2..]))
    decreases |chain|
  {
    if |chain| > 3 {
      var init := chain[..|chain| - 1];
      LedgerNameJoin(init);
      assert chain[2..] == init[2..] + [chain[|chain| - 1]];
      JoinAppend(init[2..], chain[|chain| - 1]);
    } else if |chain| == 3 {
      assert chain[2..] == [chain[2]];
    }
  }

  /** With non-empty names it is the helper's name at depth |chain| - 2. */
  lemma LedgerNameIsUtilName(chain: seq<string>)
    requires |chain| >= 3 && NonEmptyNames(chain)
    ensures LedgerName(chain) == Ok(UtilName(chain, |chain| - 2))
  {
    LedgerNameJoin(chain);
    UtilNameNonEmpty(chain, |chain| - 2);
    var inc := Included(chain, |chain| - 2);
    assert |inc| == |chain| - 2;
    assert inc == chain[2..];
  }

  // ---------------------------------------------------------------------
  // The ledger name read off the book

  /**
   gnucash2ledger.py:23-28 on the book itself: follows `parent` links, with
   at most `fuel` recursive calls; a walk that runs out of fuel stands for
   the unbounded recursion of a parent cycle.
   */
  function BookLedgerName(b: Book, a: Guid, fuel: nat): Result<string>
    decreases fuel
  {
    var acc := AccountOr(b, a);
    if acc.parent.None? then Err(NoGrandparent)
    else
      var p := AccountOr(b, acc.parent.value);
      if p.parent.None? then Err(NoGrandparent)
      else if AccountOr(b, p.parent.value).parent.None? then Ok(acc.name)
      else if fuel == 0 then Err(ParentCycle)
      else
        var prefix :- BookLedgerName(b, acc.parent.value, fuel - 1);
        Ok(prefix + ":" + acc.name)
  }

  /** The ledger name of an account, with one recursion level per stored account. */
  function AccountLedgerName(b: Book, a: Guid): Result<string> {
    BookLedgerName(b, a, |b.accounts.order|)
  }

  /** With enough fuel, the walk over the book names an account as its ancestor chain does. */
  lemma {:induction false} BookLedgerNameOfChain(b: Book, chain: seq<Guid>, fuel: nat)
    requires AncestorChain(b, chain) && fuel >= |chain|
    ensures BookLedgerName(b, chain[|chain| - 1], fuel) == LedgerName(ChainNames(b, chain))
    decreases |chain|
  {
    var n := |chain|;
    var names := ChainNames(b, chain);
    if n >= 2 {
      assert AccountOr(b, chain[n - 1]).parent == Some(chain[n - 2]);
    }
    if n >= 3 {
      assert AccountOr(b, chain[n - 2]).parent == Some(chain[n - 3]);
    }
    if n >= 4 {
      assert AccountOr(b, chain[n - 3]).parent == Some(chain[n - 4]);
      var init := chain[..n - 1];
      assert AncestorChain(b, init) by {
        assert forall i :: 1 <= i < |init| ==> AccountOr(b, init[i]).parent == Some(init[i - 1]);
      }
      BookLedgerNameOfChain(b, init, fuel - 1);
      assert ChainNames(b, init) == names[..n - 1];
    }
  }

  /** No account repeats along an ancestor chain: the walk starts at a parentless account. */
  lemma {:induction false} ChainNoRepeat(b: Book, chain: seq<Guid>, i: nat, j: nat)
    requires AncestorChain(b, chain) && i < j < |chain|
    ensures chain[i] != chain[j]
    decreases i
  {
    assert AccountOr(b, chain[j]).parent == Some(chain[j - 1]);
    if i > 0 {
      ChainNoRepeat(b, chain, i - 1, j - 1);
      assert AccountOr(b, chain[i]).parent == Some(chain[i - 1]);
    }
  }

  lemma {:induction false} DistinctCard<T>(xs: seq<T>)
    requires forall i, j :: 0 <= i < j < |xs| ==> xs[i] != xs[j]
    ensures |set x | x in xs| == |xs|
    decreases |xs|
  {
    if xs != [] {
      var init := xs[..|xs| - 1];
      var last := xs[|xs| - 1];
      DistinctCard(init);
      assert (set x | x in xs) == (set x | x in init) + {last};
      assert last !in (set x | x in init);
    }
  }

  lemma {:induction false} SeqCard<T>(ys: seq<T>)
    ensures |set y | y in ys| <= |ys|
    decreases |ys|
  {
    if ys != [] {
      var init := ys[..|ys| - 1];
      SeqCard(init);
      assert (set y | y in ys) == (set y | y in init) + {ys[|ys| - 1]};
    }
  }

  /** An ancestor chain visits each stored account at most once. */
  lemma ChainFitsTable(b: Book, chain: seq<Guid>)
    requires ValidTable(b.accounts) && AncestorChain(b, chain)
    ensures |chain| <= |b.accounts.order|
  {
    forall i, j | 0 <= i < j < |chain|
      ensures chain[i] != chain[j]
    {
      ChainNoRepeat(b, chain, i, j);
    }
    DistinctCard(chain);
    SeqCard(b.accounts.order);
    assert (set x | x in chain) <= (set y | y in b.accounts.order);
    SubsetCard(set x | x in chain, set y | y in b.accounts.order);
  }

  lemma SubsetCard<T>(s: set<T>, t: set<T>)
    requires s <= t
    ensures |s| <= |t|
  {
    assert t == s + (t - s);
  }

  /**
   In a book with a valid account table, every account with an ancestor
   chain gets the ledger name of that chain.
   */
  lemma AccountLedgerNameOfChain(b: Book, chain: seq<Guid>)
    requires ValidTable(b.accounts) && AncestorChain(b, chain)
    ensures AccountLedgerName(b, chain[|chain| - 1]) == LedgerName(ChainNames(b, chain))
  {
    ChainFitsTable(b, chain);
    BookLedgerNameOfChain(b, chain, |b.accounts.order|);
  }
}

=== FILE: book.dfy ===
/**
 The in-memory GnuCash book of gnucash/__init__.py: the five entity kinds,
 the guid-keyed object cache that creates an entity the first time a guid is
 asked for, and guid-based entity equality.

 Python objects point at each other; here every link is the guid of the
 target, resolved through the book's tables. Since the cache keeps exactly one
 object per guid, Python's object identity (`is`) and its guid equality are
 both guid equality in this model.
 */
module Book {
  import opened Outcomes
  import opened Seqs

  type Guid = string

  /** A point in time, in seconds since 1970-01-01 00:00:00 UTC. */
  type Date = int

  const SecondsPerDay: int := 86400

  /** `datetime.max` in UTC (9999-12-31 23:59:59), the date of an entity no row has dated. */
  const InvalidDate: Date := 253402300799

  /** The calendar day, counted from 1970-01-01, of a UTC time: `datetime.date()`. */
  function Day(t: Date): (d: int)
    ensures SecondsPerDay * d <= t < SecondsPerDay * (d + 1)
  {
    t / SecondsPerDay
  }

  datatype Account = Account(
    guid: Guid,
    name: string,
    parent: Option<Guid>,
    childs: seq<Guid>,
    description: string,
    commodity: Option<Guid>,
    splits: seq<Guid>,
    kind: Option<string>)       // the account type column (`type` in the source)

  datatype Commodity = Commodity(
    guid: Guid,
    fullname: string,
    mnemonic: string,
    namespace: string,
    precision: int,
    quoteFlag: bool,
    quoteSource: string,
    prices: seq<Guid>)

  datatype Transaction = Transaction(
    guid: Guid,
    currency: Option<Guid>,
    num: string,
    postDate: Date,
    description: string,
    splits: seq<Guid>)

  datatype Split = Split(
    guid: Guid,
    transaction: Option<Guid>,
    account: Option<Guid>,
    valueNum: int,
    valueDenom: int,
    value: real,
    quantityNum: int,
    quantityDenom: int,
    quantity: real,
    memo: string)

  datatype Price = Price(
    guid: Guid,
    commodity: Option<Guid>,
    currency: Option<Guid>,
    date: Date,
    valueNum: int,
    valueDenom: int,
    value: real)

  // The objects the dataclass constructors build from a guid alone.
  function NewAccount(g: Guid): Account {
    Account(g, "", None, [], "", None, [], Some(""))
  }

  function NewCommodity(g: Guid): Commodity {
    Commodity(g, "", "", "", 2, false, "", [])
  }

  function NewTransaction(g: Guid): Transaction {
    Transaction(g, None, "", InvalidDate, "", [])
  }

  function NewSplit(g: Guid): Split {
    Split(g, None, None, 0, 0, 0.0, 0, 0, 0.0, "")
  }

  function NewPrice(g: Guid): Price {
    Price(g, None, None, InvalidDate, 0, 0, 0.0)
  }

  /**
   A guid-keyed dictionary. `order` is the insertion order, which is the
   order in which Python iterates `dict.values()`.
   */
  datatype Table<T> = Table(order: seq<Guid>, items: map<Guid, T>)

  ghost predicate ValidTable<T>(t: Table<T>) {
    && (forall i, j :: 0 <= i < j < |t.order| ==> t.order[i] != t.order[j])
    && (forall g :: g in t.items <==> g in t.order)
  }

  /** The stored object for `g`, or the object the cache would create for it. */
  function Or<T>(t: Table<T>, g: Guid, dflt: T): T {
    if g in t.items then t.items[g] else dflt
  }

  /**
   `_get_data_cached`: the stored object when `g` is a key; otherwise `dflt`
   is stored under `g`, appended to the iteration order, and returned.
   */
  function GetOrCreate<T>(t: Table<T>, g: Guid, dflt: T): (res: (Table<T>, T))
    ensures res.0.items.Keys == t.items.Keys + {g}
    ensures g in res.0.items && res.1 == res.0.items[g]
    ensures g in t.items ==> res.0 == t && res.1 == t.items[g]
    ensures g !in t.items ==> res.1 == dflt && res.0.order == t.order + [g]
    ensures forall k :: k in t.items ==> res.0.items[k] == t.items[k]
    ensures ValidTable(t) ==> ValidTable(res.0)
  {
    if g in t.items then
      (t, t.items[g])
    else
      (Table(t.order + [g], t.items[g := dflt]), dflt)
  }

  /** Asking the cache twice for the same guid changes nothing the second time. */
  lemma GetOrCreateIdempotent<T>(t: Table<T>, g: Guid, dflt: T, dflt': T)
    ensures var (t1, x1) := GetOrCreate(t, g, dflt);
            GetOrCreate(t1, g, dflt') == (t1, x1)
  {
  }

  /** Replaces the object stored under an existing key. */
  function Put<T>(t: Table<T>, g: Guid, v: T): (r: Table<T>)
    requires g in t.items
    ensures r.items.Keys == t.items.Keys && r.items[g] == v
    ensures forall k :: k in t.items && k != g ==> r.items[k] == t.items[k]
    ensures ValidTable(t) ==> ValidTable(r)
  {
    Table(t.order, t.items[g := v])
  }

  /** `dict.values()`: the stored objects in insertion order. */
  function Values<T>(t: Table<T>): (vs: seq<T>)
    requires ValidTable(t)
    ensures |vs| == |t.order|
    ensures forall i :: 0 <= i < |vs| ==> vs[i] == t.items[t.order[i]]
  {
    seq(|t.order|, i requires 0 <= i < |t.order| => t.items[t.order[i]])
  }

  /**
   `_guid_eq`: entities are equal exactly when their guids are; comparing
   with something that has no string guid is an assertion failure.
   */
  function GuidEq(self: Guid, other: Option<Guid>): (r: Result<bool>)
    ensures r.Ok? <==> other.Some?
    ensures r.Ok? ==> (r.value <==> other.value == self)
  {
    match other
    case None => Err(MissingGuid)
    case Some(g) => Ok(self == g)
  }

  datatype Book = Book(
    accounts: Table<Account>,
    commodities: Table<Commodity>,
    transactions: Table<Transaction>,
    splits: Table<Split>,
    prices: Table<Price>)

  function EmptyBook(): Book {
    Book(Table([], map[]), Table([], map[]), Table([], map[]), Table([], map[]), Table([], map[]))
  }

  // What `get_account` and friends would return for a guid, without storing it.
  function AccountOr(b: Book, g: Guid): Account { Or(b.accounts, g, NewAccount(g)) }
  function CommodityOr(b: Book, g: Guid): Commodity { Or(b.commodities, g, NewCommodity(g)) }
  function TransactionOr(b: Book, g: Guid): Transaction { Or(b.transactions, g, NewTransaction(g)) }
  function SplitOr(b: Book, g: Guid): Split { Or(b.splits, g, NewSplit(g)) }
  function PriceOr(b: Book, g: Guid): Price { Or(b.prices, g, NewPrice(g)) }

  // The five `get_*` accessors of the source.
  function GetAccount(b: Book, g: Guid): (res: (Book, Account))
    ensures res.0 == b.(accounts := res.0.accounts)
    ensures g in res.0.accounts.items && res.1 == AccountOr(b, g) == res.0.accounts.items[g]
    ensures forall k :: AccountOr(res.0, k) == AccountOr(b, k)
  {
    var (t, a) := GetOrCreate(b.accounts, g, NewAccount(g));
    (b.(accounts := t), a)
  }

  function GetCommodity(b: Book, g: Guid): (res: (Book, Commodity))
    ensures res.0 == b.(commodities := res.0.commodities)
    ensures g in res.0.commodities.items && res.1 == CommodityOr(b, g) == res.0.commodities.items[g]
    ensures forall k :: CommodityOr(res.0, k) == CommodityOr(b, k)
  {
    var (t, c) := GetOrCreate(b.commodities, g, NewCommodity(g));
    (b.(commodities := t), c)
  }

  function GetTransaction(b: Book, g: Guid): (res: (Book, Transaction))
    ensures res.0 == b.(transactions := res.0.transactions)
    ensures g in res.0.transactions.items && res.1 == TransactionOr(b, g) == res.0.transactions.items[g]
    ensures forall k :: TransactionOr(res.0, k) == TransactionOr(b, k)
  {
    var (t, x) := GetOrCreate(b.transactions, g, NewTransaction(g));
    (b.(transactions := t), x)
  }

  function GetSplit(b: Book, g: Guid): (res: (Book, Split))
    ensures res.0 == b.(splits := res.0.splits)
    ensures g in res.0.splits.items && res.1 == SplitOr(b, g) == res.0.splits.items[g]
    ensures forall k :: SplitOr(res.0, k) == SplitOr(b, k)
  {
    var (t, s) := GetOrCreate(b.splits, g, NewSplit(g));
    (b.(splits := t), s)
  }

  function GetPrice(b: Book, g: Guid): (res: (Book, Price))
    ensures res.0 == b.(prices := res.0.prices)
    ensures g in res.0.prices.items && res.1 == PriceOr(b, g) == res.0.prices.items[g]
    ensures forall k :: PriceOr(res.0, k) == PriceOr(b, k)
  {
    var (t, p) := GetOrCreate(b.prices, g, NewPrice(g));
    (b.(prices := t), p)
  }

  /**
   Every stored object sits under its own guid and every link it holds names
   a stored object. The loader establishes this; the report relies on it.
   */
  ghost predicate Linked(b: Book) {
    && ValidTable(b.accounts) && ValidTable(b.commodities) && ValidTable(b.transactions)
    && ValidTable(b.splits) && ValidTable(b.prices)
    && (forall g :: g in b.accounts.items ==> AccountLinked(b, b.accounts.items[g], g))
    && (forall g :: g in b.commodities.items ==> CommodityLinked(b, b.commodities.items[g], g))
    && (forall g :: g in b.transactions.items ==> TransactionLinked(b, b.transactions.items[g], g))
    && (forall g :: g in b.splits.items ==> SplitLinked(b, b.splits.items[g], g))
    && (forall g :: g in b.prices.items ==> PriceLinked(b, b.prices.items[g], g))
  }

  ghost predicate AccountLinked(b: Book, a: Account, g: Guid) {
    && a.guid == g
    && (a.parent.Some? ==> a.parent.value in b.accounts.items)
    && (a.commodity.Some? ==> a.commodity.value in b.commodities.items)
    && (forall x :: x in a.childs ==> x in b.accounts.items)
    && (forall x :: x in a.splits ==> x in b.splits.items)
  }

  ghost predicate CommodityLinked(b: Book, c: Commodity, g: Guid) {
    && c.guid == g
    && (forall x :: x in c.prices ==> x in b.prices.items)
  }

  ghost predicate TransactionLinked(b: Book, t: Transaction, g: Guid) {
    && t.guid == g
    && (t.currency.Some? ==> t.currency.value in b.commodities.items)
    && (forall x :: x in t.splits ==> x in b.splits.items)
  }

  ghost predicate SplitLinked(b: Book, s: Split, g: Guid) {
    && s.guid == g
    && s.transaction.Some? && s.transaction.value in b.transactions.items
    && s.account.Some? && s.account.value in b.accounts.items
  }

  ghost predicate PriceLinked(b: Book, p: Price, g: Guid) {
    && p.guid == g
    && p.commodity.Some? && p.commodity.value in b.commodities.items
    && p.currency.Some? && p.currency.value in b.commodities.items
  }

  /** The sum of the values of the splits `xs`; zero for a balanced transaction. */
  function ValueSum(b: Book, xs: seq<Guid>): real
    decreases |xs|
  {
    if xs == [] then 0.0 else ValueSum(b, xs[..|xs| - 1]) + SplitOr(b, xs[|xs| - 1]).value
  }

  /** The date of the price stored under `g`, or of a fresh one. */
  function PriceDate(prices: Table<Price>, g: Guid): Date {
    Or(prices, g, NewPrice(g)).date
  }

  /** The sort key of a commodity's price list: the date of each price. */
  function PriceDateKey(prices: Table<Price>): Guid -> int {
    g => PriceDate(prices, g)
  }

  /** Every commodity's price list is in ascending date order. */
  ghost predicate PricesSorted(b: Book) {
    forall c :: c in b.commodities.items ==> SortedBy(b.commodities.items[c].prices, PriceDateKey(b.prices))
  }

  /**
   Entities stored in one table compare equal under `_guid_eq` exactly when
   they are stored under the same key.
   */
  lemma EntityEquality(b: Book, g1: Guid, g2: Guid)
    requires Linked(b)
    requires g1 in b.accounts.items && g2 in b.accounts.items
    ensures GuidEq(b.accounts.items[g1].guid, Some(b.accounts.items[g2].guid)) == Ok(g1 == g2)
  {
  }
}

=== FILE: ledger_export.dfy ===
/**
 The ledger export of gnucash2ledger.py: commodity directives, account
 declarations with their commodity check, the price history in date order,
 and the transactions in date order with one posting per split.

 The output is modelled as the directives and postings it lists rather than
 as text: every string that reaches the text (commodity symbols, account
 names, notes, codes, memos) is computed exactly, while the float layout of
 the printf formats is not.
 */
module LedgerExport {
  import opened Outcomes
  import opened Seqs
  import opened Book
  import opened AccountNames

  // ---------------------------------------------------------------------
  // Strings

  predicate IsAsciiLetter(c: char) {
    'A' <= c <= 'Z' || 'a' <= c <= 'z'
  }

  /** `mnemonic.encode('ascii').isalpha()`: non-empty, ASCII letters only. */
  predicate IsBare(m: string) {
    |m| > 0 && forall i :: 0 <= i < |m| ==> IsAsciiLetter(m[i])
  }

  /** Strips the double quotes a symbol was put in, if it has them. */
  function Unquote(s: string): string {
    if |s| >= 2 && s[0] == '"' && s[|s| - 1] == '"' then s[1..|s| - 1] else s
  }

  /**
   gnucash2ledger.py:14-21: a bare mnemonic is written as is, any other one
   inside double quotes (without escaping quotes inside it).
   */
  function FormatCommodity(m: string): (r: string)
    ensures r == m <==> IsBare(m)
    ensures Unquote(r) == m
  {
    if IsBare(m) then m else "\"" + m + "\""
  }

  /** Formatting loses nothing: different mnemonics give different symbols. */
  lemma FormatCommodityInjective(m1: string, m2: string)
    requires FormatCommodity(m1) == FormatCommodity(m2)
    ensures m1 == m2
  {
    assert Unquote(FormatCommodity(m1)) == Unquote(FormatCommodity(m2));
  }

  /** gnucash2ledger.py:53: every `"` becomes `\"`. */
  function EscapeQuotes(s: string): (r: string)
    ensures |r| >= |s|
    ensures r == [] || r[0] != '"'
    ensures forall i :: 0 <= i < |r| && r[i] == '"' ==> i > 0 && r[i - 1] == '\\'
    decreases |s|
  {
    if s == [] then []
    else
      var rest := EscapeQuotes(s[1..]);
      var head := if s[0] == '"' then "\\\"" else [s[0]];
      assert forall i :: |head| <= i < |head + rest| ==> (head + rest)[i] == rest[i - |head|];
      head + rest
  }

  /** Reads `\"` back as `"`. */
  function UnescapeQuotes(s: string): string
    decreases |s|
  {
    if s == [] then []
    else if |s| >= 2 && s[0] == '\\' && s[1] == '"' then "\"" + UnescapeQuotes(s[2..])
    else [s[0]] + UnescapeQuotes(s[1..])
  }

  /** Escaping can be undone. */
  lemma {:induction false} EscapeQuotesRoundTrip(s: string)
    ensures UnescapeQuotes(EscapeQuotes(s)) == s
    decreases |s|
  {
    if s != [] {
      var rest := EscapeQuotes(s[1..]);
      EscapeQuotesRoundTrip(s[1..]);
      if s[0] == '"' {
        var r := "\\\"" + rest;
        assert EscapeQuotes(s) == r && r[2..] == rest;
      } else {
        var r := [s[0]] + rest;
        assert EscapeQuotes(s) == r && r[1..] == rest;
        assert |r| >= 2 ==> r[1] == rest[0];
      }
      assert s == [s[0]] + s[1..];
    }
  }

  /** The commodity the account `check` line compares against (lines 52-54). */
  function CheckCommodity(m: string): string {
    EscapeQuotes(FormatCommodity(m))
  }

  /** The check line names the account's mnemonic unambiguously. */
  lemma CheckCommodityRecovers(m: string)
    ensures Unquote(UnescapeQuotes(CheckCommodity(m))) == m
  {
    EscapeQuotesRoundTrip(FormatCommodity(m));
  }

  /** gnucash2ledger.py:30-31: newlines become spaces. */
  function NoNl(s: string): (r: string)
    ensures |r| == |s|
    ensures forall i :: 0 <= i < |s| ==> r[i] == if s[i] == '\n' then ' ' else s[i]
    decreases |s|
  {
    if s == [] then [] else [if s[0] == '\n' then ' ' else s[0]] + NoNl(s[1..])
  }

  /** No newline survives, and a string without one is left as it is. */
  lemma NoNlNoNewline(s: string)
    ensures '\n' !in NoNl(s)
    ensures NoNl(s) == s <==> '\n' !in s
  {
    var r := NoNl(s);
    assert forall i :: 0 <= i < |r| ==> r[i] != '\n';
    if '\n' in s {
      var i :| 0 <= i < |s| && s[i] == '\n';
      assert r[i] == ' ';
    }
  }

  lemma NoNlIdempotent(s: string)
    ensures NoNl(NoNl(s)) == NoNl(s)
  {
    NoNlNoNewline(s);
    NoNlNoNewline(NoNl(s));
  }

  /** `s.replace(c, "")`. */
  function Without(s: string, c: char): (r: string)
    ensures c !in r
    ensures |r| == |s| - multiset(s)[c]
    ensures forall x :: x != c ==> multiset(r)[x] == multiset(s)[x]
  {
    DropCounts(s, c);
    Drop(s, c)
  }

  /** The removal itself, character by character from the front. */
  function Drop(s: string, c: char): string
    decreases |s|
  {
    if s == [] then [] else (if s[0] == c then [] else [s[0]]) + Drop(s[1..], c)
  }

  /** Removal leaves no `c` and every other character as often as before. */
  lemma {:induction false} DropCounts(s: string, c: char)
    ensures c !in Drop(s, c)
    ensures |Drop(s, c)| == |s| - multiset(s)[c]
    ensures forall x :: x != c ==> multiset(Drop(s, c))[x] == multiset(s)[x]
    decreases |s|
  {
    if s != [] {
      assert s == [s[0]] + s[1..];
      DropCounts(s[1..], c);
    }
  }

  /**
   Removal keeps the order of what stays: it works piecewise on a
   concatenation, and with `WithoutSingle` below, which keeps every other
   character and drops `c`, this determines `Without` completely.
   */
  lemma WithoutAppend(s: string, t: string, c: char)
    ensures Without(s + t, c) == Without(s, c) + Without(t, c)
  {
    DropAppend(s, t, c);
  }

  lemma {:induction false} DropAppend(s: string, t: string, c: char)
    ensures Drop(s + t, c) == Drop(s, c) + Drop(t, c)
    decreases |s|
  {
    if s == [] {
      assert s + t == t;
    } else {
      assert (s + t)[0] == s[0] && (s + t)[1..] == s[1..] + t;
      DropAppend(s[1..], t, c);
    }
  }

  lemma WithoutSingle(x: char, c: char)
    ensures Without([x], c) == if x == c then [] else [x]
  {
    assert [x][1..] == [];
  }

  /** A string without `c` is left as it is. */
  lemma {:induction false} WithoutAbsent(s: string, c: char)
    requires c !in s
    ensures Without(s, c) == s
    decreases |s|
  {
    if s != [] {
      WithoutAbsent(s[1..], c);
      assert Drop(s, c) == [s[0]] + Drop(s[1..], c);
    }
  }

  /**
   gnucash2ledger.py:69: "" without a number, else the number in
   parentheses, with its ")" removed and newlines flattened, and a space.
   */
  function TransactionCode(num: string): (r: string)
    ensures r == "" <==> num == ""
    ensures num != "" ==> |r| == |num| - multiset(num)[')'] + 3
    ensures num != "" ==> r[0] == '(' && r[|r| - 2..] == ") "
    ensures num != "" ==> ')' !in r[1..|r| - 2] && '\n' !in r[1..|r| - 2]
    ensures num != "" ==> r[1..|r| - 2] == NoNl(Without(num, ')'))
  {
    if num == "" then ""
    else
      var inner := NoNl(Without(num, ')'));
      NoNlNoNewline(Without(num, ')'));
      assert ')' !in inner by {
        assert forall i :: 0 <= i < |inner| ==> inner[i] != ')';
      }
      var r := "(" + inner + ") ";
      assert r[1..|r| - 2] == inner;
      r
  }

  // ---------------------------------------------------------------------
  // Commodities

  /** A `commodity` directive with its optional `note`. */
  datatype CommodityEntry = CommodityEntry(symbol: string, note: Option<string>)

  function CommodityDirective(c: Commodity): (e: CommodityEntry)
    requires c.mnemonic != ""
    ensures Unquote(e.symbol) == c.mnemonic
    ensures e.note.None? <==> c.fullname == ""
    ensures e.note.Some? ==> e.note.value == NoNl(c.fullname)
  {
    CommodityEntry(FormatCommodity(c.mnemonic), if c.fullname != "" then Some(NoNl(c.fullname)) else None)
  }

  /** gnucash2ledger.py:33-40: a directive for every commodity with a mnemonic, in table order. */
  function CommodityDirectives(b: Book, order: seq<Guid>): (r: seq<CommodityEntry>)
    ensures |r| <= |order|
    decreases |order|
  {
    if order == [] then []
    else
      var c := CommodityOr(b, order[|order| - 1]);
      CommodityDirectives(b, order[..|order| - 1]) + (if c.mnemonic == "" then [] else [CommodityDirective(c)])
  }

  /** The mnemonics declared, in order: those of the commodities that have one. */
  function DeclaredMnemonics(b: Book, order: seq<Guid>): seq<string>
    decreases |order|
  {
    if order == [] then []
    else
      var m := CommodityOr(b, order[|order| - 1]).mnemonic;
      DeclaredMnemonics(b, order[..|order| - 1]) + (if m == "" then [] else [m])
  }

  /** The commodities that have a mnemonic, in order. */
  function DeclaredCommodities(b: Book, order: seq<Guid>): seq<Guid>
    decreases |order|
  {
    if order == [] then []
    else
      var g := order[|order| - 1];
      DeclaredCommodities(b, order[..|order| - 1]) + (if CommodityOr(b, g).mnemonic == "" then [] else [g])
  }

  /**
   Un-quoting the directives gives back exactly the non-empty mnemonics, in
   order, and each directive is that of the commodity at the same place.
   */
  lemma {:induction false} CommodityDirectivesDeclare(b: Book, order: seq<Guid>)
    ensures var ds := CommodityDirectives(b, order);
            |ds| == |DeclaredMnemonics(b, order)|
            && forall i :: 0 <= i < |ds| ==> Unquote(ds[i].symbol) == DeclaredMnemonics(b, order)[i]
    ensures var ds := CommodityDirectives(b, order);
            var cs := DeclaredCommodities(b, order);
            |ds| == |cs|
            && forall i :: 0 <= i < |ds| ==>
                 CommodityOr(b, cs[i]).mnemonic != "" && ds[i] == CommodityDirective(CommodityOr(b, cs[i]))
    decreases |order|
  {
    if order != [] {
      CommodityDirectivesDeclare(b, order[..|order| - 1]);
    }
  }

  // ---------------------------------------------------------------------
  // Accounts

  /** An `account` declaration: its ledger name, optional note, and checked commodity. */
  datatype AccountEntry = AccountEntry(name: string, note: Option<string>, check: string)

  /**
   gnucash2ledger.py:43-55 for one account: accounts without a type, the
   root accounts and those of the "template" commodity are skipped; the
   commodity is read (and must be set) before that last test.
   */
  function AccountDeclaration(b: Book, a: Guid): (r: Result<Option<AccountEntry>>)
    ensures r.Ok? && r.value.Some? ==> Declared(b, a)
    ensures r.Ok? && r.value.Some? ==>
              r.value.value.check == CheckCommodity(CommodityOr(b, AccountOr(b, a).commodity.value).mnemonic)
    ensures r.Ok? && r.value.None? ==> !Declared(b, a)
    ensures r.Ok? && r.value.Some? ==>
              && AccountLedgerName(b, a) == Ok(r.value.value.name)
              && r.value.value.note == (if AccountOr(b, a).description == "" then None
                                        else Some(NoNl(AccountOr(b, a).description)))
  {
    var acc := AccountOr(b, a);
    if acc.kind.None? || acc.kind == Some("ROOT") then Ok(None)
    else if acc.commodity.None? then Err(MissingCommodity)
    else
      var m := CommodityOr(b, acc.commodity.value).mnemonic;
      if m == "template" then Ok(None)
      else
        var name :- AccountLedgerName(b, a);
        Ok(Some(AccountEntry(name, if acc.description != "" then Some(NoNl(acc.description)) else None,
                             CheckCommodity(m))))
  }

  /** The accounts the export declares. */
  predicate Declared(b: Book, a: Guid) {
    var acc := AccountOr(b, a);
    && acc.kind.Some? && acc.kind != Some("ROOT")
    && acc.commodity.Some? && CommodityOr(b, acc.commodity.value).mnemonic != "template"
  }

  function AccountDeclarations(b: Book, order: seq<Guid>): (r: Result<seq<AccountEntry>>)
    decreases |order|
  {
    if order == [] then Ok([])
    else
      var es :- AccountDeclarations(b, order[..|order| - 1]);
      var e :- AccountDeclaration(b, order[|order| - 1]);
      Ok(es + (if e.Some? then [e.value] else []))
  }

  /** The declared accounts of `order`, in order. */
  function DeclaredAccounts(b: Book, order: seq<Guid>): seq<Guid>
    decreases |order|
  {
    if order == [] then []
    else
      var a := order[|order| - 1];
      DeclaredAccounts(b, order[..|order| - 1]) + (if Declared(b, a) then [a] else [])
  }

  /**
   The declarations are those of the declared accounts, in table order, each
   the account's own declaration under its ledger name.
   */
  lemma {:induction false} AccountDeclarationsList(b: Book, order: seq<Guid>)
    requires AccountDeclarations(b, order).Ok?
    ensures var es := AccountDeclarations(b, order).value;
            var ds := DeclaredAccounts(b, order);
            |es| == |ds|
            && forall i :: 0 <= i < |es| ==> AccountLedgerName(b, ds[i]) == Ok(es[i].name)
    ensures var es := AccountDeclarations(b, order).value;
            var ds := DeclaredAccounts(b, order);
            |es| == |ds| && forall i :: 0 <= i < |es| ==> AccountDeclaration(b, ds[i]) == Ok(Some(es[i]))
    decreases |order|
  {
    if order != [] {
      AccountDeclarationsList(b, order[..|order| - 1]);
    }
  }

  // ---------------------------------------------------------------------
  // Prices

  /** A `P` line: date, commodity symbol, value and currency symbol. */
  datatype PriceEntry = PriceEntry(date: Date, commodity: string, value: real, currency: string)

  /** gnucash2ledger.py:61-62: both the commodity and the currency must be set. */
  function PriceLine(b: Book, g: Guid): (r: Result<PriceEntry>)
    ensures r.Ok? <==> PriceOr(b, g).commodity.Some? && PriceOr(b, g).currency.Some?
    ensures r.Ok? ==> r.value.date == PriceOr(b, g).date && r.value.value == PriceOr(b, g).value
    ensures r.Ok? ==> && r.value.commodity == FormatCommodity(CommodityOr(b, PriceOr(b, g).commodity.value).mnemonic)
                      && r.value.currency == FormatCommodity(CommodityOr(b, PriceOr(b, g).currency.value).mnemonic)
  {
    var p := PriceOr(b, g);
    if p.commodity.None? then Err(MissingCommodity)
    else if p.currency.None? then Err(MissingCurrency)
    else Ok(PriceEntry(p.date, FormatCommodity(CommodityOr(b, p.commodity.value).mnemonic), p.value,
                       FormatCommodity(CommodityOr(b, p.currency.value).mnemonic)))
  }

  function PriceLines(b: Book, gs: seq<Guid>): (r: Result<seq<PriceEntry>>)
    ensures r.Ok? ==> |r.value| == |gs|
    ensures r.Ok? ==> forall i :: 0 <= i < |gs| ==> r.value[i].date == PriceOr(b, gs[i]).date
    ensures r.Ok? ==> forall i :: 0 <= i < |gs| ==> PriceLine(b, gs[i]) == Ok(r.value[i])
    decreases |gs|
  {
    if gs == [] then Ok([])
    else
      var es :- PriceLines(b, gs[..|gs| - 1]);
      var e :- PriceLine(b, gs[|gs| - 1]);
      Ok(es + [e])
  }

  // ---------------------------------------------------------------------
  // Transactions

  /** `quantity commodity`. */
  datatype Amount = Amount(quantity: real, commodity: string)

  /** A posting: account name, amount, the total cost after `@@` if any, and a memo. */
  datatype Posting = Posting(account: string, amount: Amount, cost: Option<Amount>, memo: Option<string>)

  /**
   gnucash2ledger.py:74-80: a split in the account's commodity when that is
   not the transaction currency, at the absolute value as total cost; a split
   in the transaction currency otherwise.
   */
  function PostingOf(b: Book, tx: Transaction, s: Guid): (r: Result<Posting>)
    ensures r.Ok? ==> SplitOr(b, s).account.Some?
                      && AccountOr(b, SplitOr(b, s).account.value).commodity.Some? && tx.currency.Some?
    ensures r.Ok? <==> && SplitOr(b, s).account.Some?
                       && AccountLedgerName(b, SplitOr(b, s).account.value).Ok?
                       && AccountOr(b, SplitOr(b, s).account.value).commodity.Some?
                       && tx.currency.Some?
    ensures r.Ok? ==> (r.value.cost.Some? <==> AccountOr(b, SplitOr(b, s).account.value).commodity != tx.currency)
    ensures r.Ok? ==> r.value.cost.Some? ==> r.value.amount.quantity == SplitOr(b, s).quantity
    ensures r.Ok? ==> r.value.cost.None? ==> r.value.amount.quantity == SplitOr(b, s).value
    ensures r.Ok? ==>
              var sp := SplitOr(b, s);
              var acc := AccountOr(b, sp.account.value);
              var currency := FormatCommodity(CommodityOr(b, tx.currency.value).mnemonic);
              && AccountLedgerName(b, sp.account.value) == Ok(r.value.account)
              && (r.value.cost.Some? ==>
                    && r.value.amount.commodity == FormatCommodity(CommodityOr(b, acc.commodity.value).mnemonic)
                    && r.value.cost.value == Amount(Abs(sp.value), currency))
              && (r.value.cost.None? ==> r.value.amount.commodity == currency)
              && r.value.memo == (if sp.memo == "" then None else Some(NoNl(sp.memo)))
  {
    var sp := SplitOr(b, s);
    if sp.account.None? then Err(MissingAccount)
    else
      var name :- AccountLedgerName(b, sp.account.value);
      var acc := AccountOr(b, sp.account.value);
      if acc.commodity.None? then Err(MissingCommodity)
      else if tx.currency.None? then Err(MissingCurrency)
      else
        var currency := FormatCommodity(CommodityOr(b, tx.currency.value).mnemonic);
        var memo := if sp.memo != "" then Some(NoNl(sp.memo)) else None;
        if acc.commodity.value != tx.currency.value then
          Ok(Posting(name, Amount(sp.quantity, FormatCommodity(CommodityOr(b, acc.commodity.value).mnemonic)),
                     Some(Amount(Abs(sp.value), currency)), memo))
        else
          Ok(Posting(name, Amount(sp.value, currency), None, memo))
  }

  /**
   The amount a posting stands for in the transaction currency, as ledger
   reads it: the total cost, signed like the quantity, or the plain amount.
   */
  function PostingValue(p: Posting): real {
    match p.cost
    case Some(c) => if p.amount.quantity < 0.0 then -c.quantity else c.quantity
    case None => p.amount.quantity
  }

  /**
   The split's value has the sign of its quantity, as for ordinary buys and
   sells. It fails for GnuCash's realized gain and loss splits: these have
   quantity zero and may have a negative value.
   */
  predicate SignsAgree(sp: Split) {
    (sp.quantity < 0.0 ==> sp.value <= 0.0) && (sp.quantity >= 0.0 ==> sp.value >= 0.0)
  }

  /** A posting stands for its split's value, whichever form it takes. */
  lemma PostingValueIsSplitValue(b: Book, tx: Transaction, s: Guid)
    requires PostingOf(b, tx, s).Ok? && SignsAgree(SplitOr(b, s))
    ensures PostingValue(PostingOf(b, tx, s).value) == SplitOr(b, s).value
  {
  }

  /**
   Without `SignsAgree` the reading can differ: a posting with a total cost
   and a zero quantity stands for the absolute value of its split, so the
   sign of a negative value is lost.
   */
  lemma PostingValueOfZeroQuantity(b: Book, tx: Transaction, s: Guid)
    requires PostingOf(b, tx, s).Ok? && PostingOf(b, tx, s).value.cost.Some?
    requires SplitOr(b, s).quantity == 0.0
    ensures PostingValue(PostingOf(b, tx, s).value) == Abs(SplitOr(b, s).value)
    ensures SplitOr(b, s).value < 0.0 ==> PostingValue(PostingOf(b, tx, s).value) != SplitOr(b, s).value
  {
  }

  function Postings(b: Book, tx: Transaction, splits: seq<Guid>): (r: Result<seq<Posting>>)
    ensures r.Ok? ==> |r.value| == |splits|
    ensures r.Ok? ==> forall i :: 0 <= i < |splits| ==> PostingOf(b, tx, splits[i]) == Ok(r.value[i])
    decreases |splits|
  {
    if splits == [] then Ok([])
    else
      var ps :- Postings(b, tx, splits[..|splits| - 1]);
      var p :- PostingOf(b, tx, splits[|splits| - 1]);
      Ok(ps + [p])
  }

  /** The postings are exported exactly when every split has a posting. */
  lemma {:induction false} PostingsOk(b: Book, tx: Transaction, splits: seq<Guid>)
    ensures Postings(b, tx, splits).Ok? <==> forall i :: 0 <= i < |splits| ==> PostingOf(b, tx, splits[i]).Ok?
    decreases |splits|
  {
    if splits != [] {
      var init := splits[..|splits| - 1];
      PostingsOk(b, tx, init);
      assert forall i :: 0 <= i < |init| ==> init[i] == splits[i];
    }
  }

  function PostingValueSum(ps: seq<Posting>): real
    decreases |ps|
  {
    if ps == [] then 0.0 else PostingValueSum(ps[..|ps| - 1]) + PostingValue(ps[|ps| - 1])
  }

  /** The postings carry the splits' values: their ledger sum is the splits' value sum. */
  lemma {:induction false} PostingsCarryValue(b: Book, tx: Transaction, splits: seq<Guid>)
    requires Postings(b, tx, splits).Ok?
    requires forall s :: s in splits ==> SignsAgree(SplitOr(b, s))
    ensures PostingValueSum(Postings(b, tx, splits).value) == ValueSum(b, splits)
    decreases |splits|
  {
    if splits != [] {
      var init := splits[..|splits| - 1];
      var s := splits[|splits| - 1];
      PostingsCarryValue(b, tx, init);
      PostingValueIsSplitValue(b, tx, s);
      var ps := Postings(b, tx, splits).value;
      assert ps[..|ps| - 1] == Postings(b, tx, init).value;
    }
  }

  /** A transaction: date, code, description and postings. */
  datatype Entry = Entry(date: Date, code: string, description: string, postings: seq<Posting>)

  /** gnucash2ledger.py:67-82 for one transaction. */
  function TransactionEntry(b: Book, t: Guid): (r: Result<Entry>)
    ensures r.Ok? ==> r.value.date == TransactionOr(b, t).postDate
    ensures r.Ok? ==> |r.value.postings| == |TransactionOr(b, t).splits|
    ensures r.Ok? <==> Postings(b, TransactionOr(b, t), TransactionOr(b, t).splits).Ok?
    ensures r.Ok? ==> && r.value.code == TransactionCode(TransactionOr(b, t).num)
                      && r.value.description == NoNl(TransactionOr(b, t).description)
                      && Postings(b, TransactionOr(b, t), TransactionOr(b, t).splits) == Ok(r.value.postings)
  {
    var tx := TransactionOr(b, t);
    var ps :- Postings(b, tx, tx.splits);
    Ok(Entry(tx.postDate, TransactionCode(tx.num), NoNl(tx.description), ps))
  }

  /** A balanced GnuCash transaction is exported as a balanced ledger transaction. */
  lemma TransactionEntryBalances(b: Book, t: Guid)
    requires TransactionEntry(b, t).Ok?
    requires ValueSum(b, TransactionOr(b, t).splits) == 0.0
    requires forall s :: s in TransactionOr(b, t).splits ==> SignsAgree(SplitOr(b, s))
    ensures PostingValueSum(TransactionEntry(b, t).value.postings) == 0.0
  {
    var tx := TransactionOr(b, t);
    PostingsCarryValue(b, tx, tx.splits);
  }

  function Entries(b: Book, ts: seq<Guid>): (r: Result<seq<Entry>>)
    ensures r.Ok? ==> |r.value| == |ts|
    ensures r.Ok? ==> forall i :: 0 <= i < |ts| ==> r.value[i].date == TransactionOr(b, ts[i]).postDate
    decreases |ts|
  {
    if ts == [] then Ok([])
    else
      var es :- Entries(b, ts[..|ts| - 1]);
      var e :- TransactionEntry(b, ts[|ts| - 1]);
      Ok(es + [e])
  }

  /** Each entry is the entry of the transaction at the same place. */
  lemma {:induction false} EntriesInOrder(b: Book, ts: seq<Guid>)
    requires Entries(b, ts).Ok?
    ensures forall i :: 0 <= i < |ts| ==> TransactionEntry(b, ts[i]) == Ok(Entries(b, ts).value[i])
    decreases |ts|
  {
    if ts != [] {
      var init := ts[..|ts| - 1];
      EntriesInOrder(b, init);
      var es := Entries(b, init).value;
      var e := TransactionEntry(b, ts[|ts| - 1]).value;
      assert Entries(b, ts).value == es + [e];
      forall i | 0 <= i < |ts|
        ensures TransactionEntry(b, ts[i]) == Ok(Entries(b, ts).value[i])
      {
        if i < |init| {
          assert ts[i] == init[i];
          assert Entries(b, ts).value[i] == es[i];
        } else {
          assert Entries(b, ts).value[i] == e;
        }
      }
    }
  }

  /** The post date of the transaction stored under `g`, or of a fresh one. */
  function PostDate(transactions: Table<Transaction>, g: Guid): Date {
    Or(transactions, g, NewTransaction(g)).postDate
  }

  /** The sort key of the transaction list: the post date. */
  function PostDateKey(transactions: Table<Transaction>): Guid -> int {
    g => PostDate(transactions, g)
  }

  /** The entries of a list sorted by post date are in date order. */
  lemma SortedEntryDates(b: Book, sorted: seq<Guid>, entries: seq<Entry>)
    requires SortedBy(sorted, PostDateKey(b.transactions))
    requires |entries| == |sorted|
    requires forall i :: 0 <= i < |sorted| ==> entries[i].date == TransactionOr(b, sorted[i]).postDate
    ensures forall i, j :: 0 <= i < j < |entries| ==> entries[i].date <= entries[j].date
  {
    PostDatesAreKeys(b, sorted, entries);
    EntryDatesAscend(sorted, entries, PostDateKey(b.transactions));
  }

  /** Dates read from the transactions are the values of the sort key. */
  lemma PostDatesAreKeys(b: Book, ts: seq<Guid>, entries: seq<Entry>)
    requires |entries| == |ts|
    requires forall i :: 0 <= i < |ts| ==> entries[i].date == TransactionOr(b, ts[i]).postDate
    ensures forall i :: 0 <= i < |ts| ==> entries[i].date == PostDateKey(b.transactions)(ts[i])
  {
  }

  // ---------------------------------------------------------------------
  // The export

  datatype Ledger = Ledger(
    commodities: seq<CommodityEntry>,
    accounts: seq<AccountEntry>,
    prices: seq<PriceEntry>,
    transactions: seq<Entry>)

  /** gnucash2ledger.py:58-62: the `P` lines, stably sorted by date. */
  function SortedPriceLines(b: Book): (r: Result<seq<PriceEntry>>)
    ensures r.Ok? ==> |r.value| == |b.prices.order|
    ensures r.Ok? ==> forall i, j :: 0 <= i < j < |r.value| ==> r.value[i].date <= r.value[j].date
  {
    var key := PriceDateKey(b.prices);
    var sorted := SortBy(b.prices.order, key);
    SortByLength(b.prices.order, key);
    var lines :- PriceLines(b, sorted);
    PriceLineDatesAscend(b, sorted, lines);
    Ok(lines)
  }

  /** The lines of a price list sorted by date are in date order. */
  lemma PriceLineDatesAscend(b: Book, sorted: seq<Guid>, lines: seq<PriceEntry>)
    requires SortedBy(sorted, PriceDateKey(b.prices))
    requires |lines| == |sorted|
    requires forall i :: 0 <= i < |sorted| ==> lines[i].date == PriceOr(b, sorted[i]).date
    ensures forall i, j :: 0 <= i < j < |lines| ==> lines[i].date <= lines[j].date
  {
    forall i, j | 0 <= i < j < |lines|
      ensures lines[i].date <= lines[j].date
    {
      assert PriceDateKey(b.prices)(sorted[i]) <= PriceDateKey(b.prices)(sorted[j]);
    }
  }

  /** gnucash2ledger.py:65-82: the transactions, stably sorted by post date. */
  function SortedEntries(b: Book): (r: Result<seq<Entry>>)
    ensures r.Ok? ==> |r.value| == |b.transactions.order|
    ensures r.Ok? ==> forall i, j :: 0 <= i < j < |r.value| ==> r.value[i].date <= r.value[j].date
  {
    var sorted := SortBy(b.transactions.order, PostDateKey(b.transactions));
    SortByLength(b.transactions.order, PostDateKey(b.transactions));
    var entries :- Entries(b, sorted);
    SortedEntryDates(b, sorted, entries);
    Ok(entries)
  }

  /** Entries listed in the order of a key-sorted list are in date order when the key is their date. */
  lemma EntryDatesAscend(ts: seq<Guid>, entries: seq<Entry>, key: Guid -> int)
    requires |entries| == |ts| && SortedBy(ts, key)
    requires forall i :: 0 <= i < |ts| ==> entries[i].date == key(ts[i])
    ensures forall i, j :: 0 <= i < j < |entries| ==> entries[i].date <= entries[j].date
  {
    forall i, j | 0 <= i < j < |entries|
      ensures entries[i].date <= entries[j].date
    {
      assert key(ts[i]) <= key(ts[j]);
    }
  }

  /**
   gnucash2ledger.py:33-82: commodity directives and account declarations
   in table order, then the prices and the transactions each stably sorted
   by date (lines 59 and 66).
   */
  function Export(b: Book): (r: Result<Ledger>)
    ensures r.Ok? ==> forall i, j :: 0 <= i < j < |r.value.prices| ==> r.value.prices[i].date <= r.value.prices[j].date
    ensures r.Ok? ==> forall i, j :: 0 <= i < j < |r.value.transactions| ==>
                        r.value.transactions[i].date <= r.value.transactions[j].date
    ensures r.Ok? ==> |r.value.transactions| == |b.transactions.order| && |r.value.prices| == |b.prices.order|
    ensures r.Ok? ==> SortedEntries(b).Ok? && r.value.transactions == SortedEntries(b).value
    ensures r.Ok? ==> SortedPriceLines(b).Ok? && r.value.prices == SortedPriceLines(b).value
  {
    var accounts :- AccountDeclarations(b, b.accounts.order);
    var prices :- SortedPriceLines(b);
    var transactions :- SortedEntries(b);
    Ok(Ledger(CommodityDirectives(b, b.commodities.order), accounts, prices, transactions))
  }

  /**
   The exported transactions are those of the table, each once, ordered by
   date; transactions of equal date keep their table order.
   */
  lemma ExportTransactionOrder(b: Book, date: int)
    requires Export(b).Ok?
    ensures var sorted := SortBy(b.transactions.order, PostDateKey(b.transactions));
            && multiset(sorted) == multiset(b.transactions.order)
            && WithKey(sorted, PostDateKey(b.transactions), date) == WithKey(b.transactions.order, PostDateKey(b.transactions), date)
            && forall i :: 0 <= i < |sorted| ==> TransactionEntry(b, sorted[i]) == Ok(Export(b).value.transactions[i])
  {
    var key := PostDateKey(b.transactions);
    var sorted := SortBy(b.transactions.order, key);
    SortByStable(b.transactions.order, key, date);
    SortedEntriesAreEntries(b);
    EntriesInOrder(b, sorted);
  }

  /** The sorted entries are the entries of the key-sorted transaction list. */
  lemma SortedEntriesAreEntries(b: Book)
    requires SortedEntries(b).Ok?
    ensures var sorted := SortBy(b.transactions.order, PostDateKey(b.transactions));
            Entries(b, sorted).Ok? && SortedEntries(b).value == Entries(b, sorted).value
  {
  }

  /**
   The exported `P` lines are those of the price table, each price once,
   ordered by date; prices of equal date keep their table order.
   */
  lemma ExportPriceOrder(b: Book, date: int)
    requires Export(b).Ok?
    ensures var sorted := SortBy(b.prices.order, PriceDateKey(b.prices));
            && multiset(sorted) == multiset(b.prices.order)
            && WithKey(sorted, PriceDateKey(b.prices), date) == WithKey(b.prices.order, PriceDateKey(b.prices), date)
            && forall i :: 0 <= i < |sorted| ==> PriceLine(b, sorted[i]) == Ok(Export(b).value.prices[i])
  {
    var key := PriceDateKey(b.prices);
    var sorted := SortBy(b.prices.order, key);
    SortByStable(b.prices.order, key, date);
    SortedPriceLinesAreLines(b);
  }

  /** The sorted price lines are the lines of the key-sorted price list. */
  lemma SortedPriceLinesAreLines(b: Book)
    requires SortedPriceLines(b).Ok?
    ensures var sorted := SortBy(b.prices.order, PriceDateKey(b.prices));
            PriceLines(b, sorted).Ok? && SortedPriceLines(b).value == PriceLines(b, sorted).value
  {
  }
}

=== FILE: loader.dfy ===
/**
 `read_data` of gnucash/__init__.py over the rows of the five tables instead of
 a database cursor.

 The rows are processed table by table in the source's order (commodities,
 accounts, transactions, splits, prices), each through the get-or-create
 cache, and finally every commodity's price list is sorted by date. A row
 guid column that the source tests for truthiness (`parent_guid`,
 `commodity_guid`) is a string here, with "" standing for NULL or empty.
 */
module Loader {
  import opened Outcomes
  import opened Seqs
  import opened Book

  datatype CommodityRow = CommodityRow(
    guid: Guid, namespace: string, mnemonic: string, fullname: string,
    fraction: int, quoteFlag: int, quoteSource: string)

  datatype AccountRow = AccountRow(
    guid: Guid, name: string, accountType: Option<string>,
    commodityGuid: string, parentGuid: string, description: string)

  datatype TransactionRow = TransactionRow(
    guid: Guid, currencyGuid: Guid, num: string, postDate: Date, description: string)

  datatype SplitRow = SplitRow(
    guid: Guid, txGuid: Guid, accountGuid: Guid, memo: string,
    valueNum: int, valueDenom: int, quantityNum: int, quantityDenom: int)

  datatype PriceRow = PriceRow(
    guid: Guid, commodityGuid: Guid, currencyGuid: Guid, date: Date,
    valueNum: int, valueDenom: int)

  datatype Rows = Rows(
    commodities: seq<CommodityRow>,
    accounts: seq<AccountRow>,
    transactions: seq<TransactionRow>,
    splits: seq<SplitRow>,
    prices: seq<PriceRow>)

  // ---------------------------------------------------------------------
  // Commodity precision: int(math.log10(fraction))

  function Pow10(k: nat): (r: nat)
    ensures r >= 1
  {
    if k == 0 then 1 else 10 * Pow10(k - 1)
  }

  lemma {:induction false} Pow10Increasing(j: nat, k: nat)
    requires j < k
    ensures Pow10(j) < Pow10(k)
    decreases k
  {
    if j < k - 1 {
      Pow10Increasing(j, k - 1);
    }
    assert Pow10(k) == 10 * Pow10(k - 1);
  }

  /** The number of decimal digits of `n`, minus one. */
  function Log10Floor(n: int): (k: nat)
    requires n >= 1
    ensures Pow10(k) <= n < Pow10(k + 1)
    decreases n
  {
    if n < 10 then 0 else 1 + Log10Floor(n / 10)
  }

  /** `int(math.log10(fraction))`; a fraction that is not positive is a math domain error. */
  function Precision(fraction: int): (r: Result<nat>)
    ensures r.Ok? <==> fraction > 0
    ensures r.Ok? ==> Pow10(r.value) <= fraction < Pow10(r.value + 1)
  {
    if fraction <= 0 then Err(BadFraction) else Ok(Log10Floor(fraction))
  }

  /** The digit count is the only k with 10^k <= n < 10^(k+1). */
  lemma Log10FloorUnique(n: int, k: nat)
    requires Pow10(k) <= n < Pow10(k + 1)
    ensures Log10Floor(n) == k
  {
    var p := Log10Floor(n);
    if p < k {
      Pow10Increasing(p + 1, k);
    } else if p > k {
      Pow10Increasing(k + 1, p);
    }
  }

  /** A commodity whose fraction is 10^k has precision k. */
  lemma PrecisionOfPowerOfTen(k: nat)
    ensures Precision(Pow10(k)) == Ok(k)
  {
    Pow10Increasing(k, k + 1);
    Log10FloorUnique(Pow10(k), k);
  }

  // ---------------------------------------------------------------------
  // The objects a row describes

  /** The fields of an account that its own row sets (everything but the two lists). */
  function AccountHeader(a: Account): Account { a.(childs := [], splits := []) }
  function CommodityHeader(c: Commodity): Commodity { c.(prices := []) }
  function TransactionHeader(t: Transaction): Transaction { t.(splits := []) }

  /** A truthy guid column names an entity; "" (NULL or empty) names none. */
  function GuidColumn(s: string): Option<Guid> {
    if s != "" then Some(s) else None
  }

  function AccountFromRow(r: AccountRow): Account {
    Account(r.guid, r.name, GuidColumn(r.parentGuid), [], r.description,
            GuidColumn(r.commodityGuid), [], r.accountType)
  }

  function CommodityFromRow(r: CommodityRow): Commodity
    requires r.fraction > 0
  {
    Commodity(r.guid, r.fullname, r.mnemonic, r.namespace, Log10Floor(r.fraction),
              r.quoteFlag != 0, r.quoteSource, [])
  }

  function TransactionFromRow(r: TransactionRow): Transaction {
    Transaction(r.guid, Some(r.currencyGuid), r.num, r.postDate, r.description, [])
  }

  /** A split's value and quantity are num/denom with no guard against a zero denominator. */
  function SplitFromRow(r: SplitRow): Split
    requires r.valueDenom != 0 && r.quantityDenom != 0
  {
    Split(r.guid, Some(r.txGuid), Some(r.accountGuid),
          r.valueNum, r.valueDenom, r.valueNum as real / r.valueDenom as real,
          r.quantityNum, r.quantityDenom, r.quantityNum as real / r.quantityDenom as real,
          r.memo)
  }

  /** A price's value is 0 when its denominator is 0, num/denom otherwise. */
  function PriceValue(num: int, denom: int): (v: real)
    ensures denom == 0 ==> v == 0.0
    ensures denom != 0 ==> v * denom as real == num as real
  {
    if denom == 0 then 0.0 else num as real / denom as real
  }

  function PriceFromRow(r: PriceRow): Price {
    Price(r.guid, Some(r.commodityGuid), Some(r.currencyGuid), r.date,
          r.valueNum, r.valueDenom, PriceValue(r.valueNum, r.valueDenom))
  }

  // ---------------------------------------------------------------------
  // What a sequence of rows adds up to

  /** The last row in `rows` whose guid is `g`: the one whose values survive. */
  function LastWith<R>(rows: seq<R>, guidOf: R -> Guid, g: Guid): (r: Option<R>)
    ensures r.Some? ==> r.value in rows && guidOf(r.value) == g
  {
    if rows == [] then None
    else if guidOf(rows[|rows| - 1]) == g then Some(rows[|rows| - 1])
    else LastWith(rows[..|rows| - 1], guidOf, g)
  }

  function CommodityRowGuid(r: CommodityRow): Guid { r.guid }
  function AccountRowGuid(r: AccountRow): Guid { r.guid }
  function TransactionRowGuid(r: TransactionRow): Guid { r.guid }
  function SplitRowGuid(r: SplitRow): Guid { r.guid }
  function PriceRowGuid(r: PriceRow): Guid { r.guid }

  /** Guids of the account rows naming `p` as their (truthy) parent, in row order. */
  function ChildrenOf(rows: seq<AccountRow>, p: Guid): seq<Guid> {
    if rows == [] then []
    else
      var r := rows[|rows| - 1];
      ChildrenOf(rows[..|rows| - 1], p) + (if r.parentGuid != "" && r.parentGuid == p then [r.guid] else [])
  }

  /** Guids of the split rows of transaction `t`, in row order. */
  function SplitsOfTransaction(rows: seq<SplitRow>, t: Guid): seq<Guid> {
    if rows == [] then []
    else
      var r := rows[|rows| - 1];
      SplitsOfTransaction(rows[..|rows| - 1], t) + (if r.txGuid == t then [r.guid] else [])
  }

  /** Guids of the split rows booked to account `a`, in row order. */
  function SplitsOfAccount(rows: seq<SplitRow>, a: Guid): seq<Guid> {
    if rows == [] then []
    else
      var r := rows[|rows| - 1];
      SplitsOfAccount(rows[..|rows| - 1], a) + (if r.accountGuid == a then [r.guid] else [])
  }

  /** Guids of the price rows of commodity `c`, in row order. */
  function PricesOfCommodity(rows: seq<PriceRow>, c: Guid): seq<Guid> {
    if rows == [] then []
    else
      var r := rows[|rows| - 1];
      PricesOfCommodity(rows[..|rows| - 1], c) + (if r.commodityGuid == c then [r.guid] else [])
  }

  // ---------------------------------------------------------------------
  // Storing an updated object under an existing key

  function WithAccount(b: Book, g: Guid, a: Account): (b': Book)
    requires g in b.accounts.items
    ensures b' == b.(accounts := b'.accounts)
    ensures b'.accounts.items.Keys == b.accounts.items.Keys
    ensures b'.accounts.order == b.accounts.order
    ensures forall k :: AccountOr(b', k) == if k == g then a else AccountOr(b, k)
  {
    b.(accounts := Put(b.accounts, g, a))
  }

  function WithCommodity(b: Book, g: Guid, c: Commodity): (b': Book)
    requires g in b.commodities.items
    ensures b' == b.(commodities := b'.commodities)
    ensures b'.commodities.items.Keys == b.commodities.items.Keys
    ensures b'.commodities.order == b.commodities.order
    ensures forall k :: CommodityOr(b', k) == if k == g then c else CommodityOr(b, k)
  {
    b.(commodities := Put(b.commodities, g, c))
  }

  function WithTransaction(b: Book, g: Guid, t: Transaction): (b': Book)
    requires g in b.transactions.items
    ensures b' == b.(transactions := b'.transactions)
    ensures b'.transactions.items.Keys == b.transactions.items.Keys
    ensures b'.transactions.order == b.transactions.order
    ensures forall k :: TransactionOr(b', k) == if k == g then t else TransactionOr(b, k)
  {
    b.(transactions := Put(b.transactions, g, t))
  }

  function WithSplit(b: Book, g: Guid, x: Split): (b': Book)
    requires g in b.splits.items
    ensures b' == b.(splits := b'.splits)
    ensures b'.splits.items.Keys == b.splits.items.Keys
    ensures b'.splits.order == b.splits.order
    ensures forall k :: SplitOr(b', k) == if k == g then x else SplitOr(b, k)
  {
    b.(splits := Put(b.splits, g, x))
  }

  function WithPrice(b: Book, g: Guid, p: Price): (b': Book)
    requires g in b.prices.items
    ensures b' == b.(prices := b'.prices)
    ensures b'.prices.items.Keys == b.prices.items.Keys
    ensures b'.prices.order == b.prices.order
    ensures forall k :: PriceOr(b', k) == if k == g then p else PriceOr(b, k)
  {
    b.(prices := Put(b.prices, g, p))
  }

  // ---------------------------------------------------------------------
  // One row

  /** Lines 209-216: a commodity row sets every field but the price list. */
  function CommodityStep(b: Book, r: CommodityRow): Result<Book> {
    var (b1, c) := GetCommodity(b, r.guid);
    var c1 := c.(namespace := r.namespace, mnemonic := r.mnemonic, fullname := r.fullname,
                 quoteFlag := r.quoteFlag != 0, quoteSource := r.quoteSource);
    var p :- Precision(r.fraction);
    Ok(WithCommodity(b1, r.guid, c1.(precision := p)))
  }

  /** Lines 223-249: an account row sets the account's own fields and links it under its parent. */
  function AccountStep(b: Book, r: AccountRow): Book {
    var b1 := if r.commodityGuid != "" then GetCommodity(b, r.commodityGuid).0 else b;
    var b2 := if r.parentGuid != "" then GetAccount(b1, r.parentGuid).0 else b1;
    var (b3, acc) := GetAccount(b2, r.guid);
    var b4 := WithAccount(b3, r.guid, acc.(name := r.name, parent := GuidColumn(r.parentGuid),
                                            description := r.description,
                                            commodity := GuidColumn(r.commodityGuid),
                                            kind := r.accountType));
    AccountLink(b4, r)
  }

  /** Line 249: a row with a parent is appended to the parent's children. */
  function AccountLink(b: Book, r: AccountRow): Book
    requires r.parentGuid != "" ==> r.parentGuid in b.accounts.items
  {
    if r.parentGuid != "" then
      var p := b.accounts.items[r.parentGuid];
      WithAccount(b, r.parentGuid, p.(childs := p.childs + [r.guid]))
    else
      b
  }

  /** Lines 254-259: a transaction row sets every field but the split list. */
  function TransactionStep(b: Book, r: TransactionRow): Book {
    var (b1, t) := GetTransaction(b, r.guid);
    var b2 := GetCommodity(b1, r.currencyGuid).0;
    WithTransaction(b2, r.guid, t.(currency := Some(r.currencyGuid), num := r.num,
                                   postDate := r.postDate, description := r.description))
  }

  /**
   Lines 266-287: a split row links the split both ways to its transaction
   and its account and sets its amounts; a zero denominator is a division by
   zero that aborts the load.
   */
  function SplitStep(b: Book, r: SplitRow): Result<Book> {
    var (b1, _) := GetSplit(b, r.guid);
    var (b2, t) := GetTransaction(b1, r.txGuid);
    var b3 := WithTransaction(b2, r.txGuid, t.(splits := t.splits + [r.guid]));
    var (b4, a) := GetAccount(b3, r.accountGuid);
    var b5 := WithAccount(b4, r.accountGuid, a.(splits := a.splits + [r.guid]));
    if r.valueDenom == 0 || r.quantityDenom == 0 then
      Err(ZeroDenominator)
    else
      Ok(WithSplit(b5, r.guid, SplitFromRow(r)))
  }

  /** Lines 293-304: a price row appends the price to its commodity's list and sets its value. */
  function PriceStep(b: Book, r: PriceRow): Book {
    var (b1, _) := GetPrice(b, r.guid);
    var (b2, c) := GetCommodity(b1, r.commodityGuid);
    var b3 := WithCommodity(b2, r.commodityGuid, c.(prices := c.prices + [r.guid]));
    var b4 := GetCommodity(b3, r.currencyGuid).0;
    WithPrice(b4, r.guid, PriceFromRow(r))
  }

  // ---------------------------------------------------------------------
  // What one row changes

  /** What a successful commodity row changes between `b` and `b'`. */
  ghost predicate CommodityStepped(b: Book, b': Book, r: CommodityRow) {
    && b' == b.(commodities := b'.commodities)
    && b'.commodities.items.Keys == b.commodities.items.Keys + {r.guid}
    && r.fraction > 0
    && (forall g :: CommodityHeader(CommodityOr(b', g))
                    == if g == r.guid then CommodityFromRow(r) else CommodityHeader(CommodityOr(b, g)))
    && (forall g :: CommodityOr(b', g).prices == CommodityOr(b, g).prices)
  }

  lemma CommodityStepEffects(b: Book, r: CommodityRow)
    requires forall g :: g in b.commodities.items ==> b.commodities.items[g].guid == g
    ensures CommodityStep(b, r).Ok? <==> r.fraction > 0
    ensures CommodityStep(b, r).Ok? ==> CommodityStepped(b, CommodityStep(b, r).value, r)
  {
  }

  /** What an account row changes between `b` and `b'`. */
  ghost predicate AccountStepped(b: Book, b': Book, r: AccountRow) {
    && b'.transactions == b.transactions && b'.splits == b.splits && b'.prices == b.prices
    && (forall g :: CommodityOr(b', g) == CommodityOr(b, g))
    && b'.accounts.items.Keys == b.accounts.items.Keys + {r.guid} + (if r.parentGuid != "" then {r.parentGuid} else {})
    && b'.commodities.items.Keys == b.commodities.items.Keys + (if r.commodityGuid != "" then {r.commodityGuid} else {})
    && (forall g :: AccountHeader(AccountOr(b', g))
                    == if g == r.guid then AccountFromRow(r) else AccountHeader(AccountOr(b, g)))
    && (forall g :: AccountOr(b', g).childs
                    == AccountOr(b, g).childs + (if r.parentGuid != "" && g == r.parentGuid then [r.guid] else []))
    && (forall g :: AccountOr(b', g).splits == AccountOr(b, g).splits)
  }

  lemma AccountStepEffects(b: Book, r: AccountRow)
    requires forall g :: g in b.accounts.items ==> b.accounts.items[g].guid == g
    ensures AccountStepped(b, AccountStep(b, r), r)
  {
    var b1 := if r.commodityGuid != "" then GetCommodity(b, r.commodityGuid).0 else b;
    var b2 := if r.parentGuid != "" then GetAccount(b1, r.parentGuid).0 else b1;
    assert forall g :: AccountOr(b2, g) == AccountOr(b, g);
    assert forall g :: CommodityOr(b2, g) == CommodityOr(b, g);
    assert b2.transactions == b.transactions && b2.splits == b.splits && b2.prices == b.prices;
    var (b3, acc) := GetAccount(b2, r.guid);
    assert acc == AccountOr(b, r.guid) && acc.guid == r.guid;
    var acc' := acc.(name := r.name, parent := GuidColumn(r.parentGuid),
                     description := r.description,
                     commodity := GuidColumn(r.commodityGuid),
                     kind := r.accountType);
    assert AccountHeader(acc') == AccountFromRow(r);
    var b4 := WithAccount(b3, r.guid, acc');
    assert b4.accounts.items.Keys == b.accounts.items.Keys + {r.guid} + (if r.parentGuid != "" then {r.parentGuid} else {});
    assert forall g :: AccountOr(b4, g) == if g == r.guid then acc' else AccountOr(b, g);
    AccountLinkEffects(b, b4, r);
  }

  /** The last part of an account row: appending it to its parent's children. */
  lemma AccountLinkEffects(b: Book, b4: Book, r: AccountRow)
    requires r.parentGuid != "" ==> r.parentGuid in b4.accounts.items
    requires b4.transactions == b.transactions && b4.splits == b.splits && b4.prices == b.prices
    requires forall g :: CommodityOr(b4, g) == CommodityOr(b, g)
    requires b4.accounts.items.Keys == b.accounts.items.Keys + {r.guid} + (if r.parentGuid != "" then {r.parentGuid} else {})
    requires b4.commodities.items.Keys == b.commodities.items.Keys + (if r.commodityGuid != "" then {r.commodityGuid} else {})
    requires forall g :: AccountHeader(AccountOr(b4, g))
                         == if g == r.guid then AccountFromRow(r) else AccountHeader(AccountOr(b, g))
    requires forall g :: AccountOr(b4, g).childs == AccountOr(b, g).childs
    requires forall g :: AccountOr(b4, g).splits == AccountOr(b, g).splits
    ensures AccountStepped(b, AccountLink(b4, r), r)
  {
    if r.parentGuid != "" {
      var p := b4.accounts.items[r.parentGuid];
      assert p == AccountOr(b4, r.parentGuid);
      var b5 := WithAccount(b4, r.parentGuid, p.(childs := p.childs + [r.guid]));
      assert forall g :: AccountHeader(AccountOr(b5, g)) == AccountHeader(AccountOr(b4, g));
    }
  }

  /** What a transaction row changes between `b` and `b'`. */
  ghost predicate TransactionStepped(b: Book, b': Book, r: TransactionRow) {
    && b'.accounts == b.accounts && b'.splits == b.splits && b'.prices == b.prices
    && (forall g :: CommodityOr(b', g) == CommodityOr(b, g))
    && b'.transactions.items.Keys == b.transactions.items.Keys + {r.guid}
    && b'.commodities.items.Keys == b.commodities.items.Keys + {r.currencyGuid}
    && (forall g :: TransactionHeader(TransactionOr(b', g))
                    == if g == r.guid then TransactionFromRow(r) else TransactionHeader(TransactionOr(b, g)))
    && (forall g :: TransactionOr(b', g).splits == TransactionOr(b, g).splits)
  }

  lemma TransactionStepEffects(b: Book, r: TransactionRow)
    requires forall g :: g in b.transactions.items ==> b.transactions.items[g].guid == g
    ensures TransactionStepped(b, TransactionStep(b, r), r)
  {
  }

  /** What a successful split row changes between `b` and `b'`. */
  ghost predicate SplitStepped(b: Book, b': Book, r: SplitRow) {
    && b'.commodities == b.commodities && b'.prices == b.prices
    && r.valueDenom != 0 && r.quantityDenom != 0
    && b'.splits.items.Keys == b.splits.items.Keys + {r.guid}
    && b'.transactions.items.Keys == b.transactions.items.Keys + {r.txGuid}
    && b'.accounts.items.Keys == b.accounts.items.Keys + {r.accountGuid}
    && (forall g :: SplitOr(b', g) == if g == r.guid then SplitFromRow(r) else SplitOr(b, g))
    && (forall g :: TransactionHeader(TransactionOr(b', g)) == TransactionHeader(TransactionOr(b, g)))
    && (forall g :: TransactionOr(b', g).splits
                    == TransactionOr(b, g).splits + (if g == r.txGuid then [r.guid] else []))
    && (forall g :: AccountHeader(AccountOr(b', g)) == AccountHeader(AccountOr(b, g)))
    && (forall g :: AccountOr(b', g).childs == AccountOr(b, g).childs)
    && (forall g :: AccountOr(b', g).splits
                    == AccountOr(b, g).splits + (if g == r.accountGuid then [r.guid] else []))
  }

  lemma SplitStepEffects(b: Book, r: SplitRow)
    ensures SplitStep(b, r).Ok? <==> r.valueDenom != 0 && r.quantityDenom != 0
    ensures SplitStep(b, r).Ok? ==> SplitStepped(b, SplitStep(b, r).value, r)
  {
    var (b1, _) := GetSplit(b, r.guid);
    var (b2, t) := GetTransaction(b1, r.txGuid);
    var b3 := WithTransaction(b2, r.txGuid, t.(splits := t.splits + [r.guid]));
    var (b4, a) := GetAccount(b3, r.accountGuid);
    var b5 := WithAccount(b4, r.accountGuid, a.(splits := a.splits + [r.guid]));
    assert forall g :: TransactionOr(b5, g)
                       == if g == r.txGuid then TransactionOr(b, g).(splits := TransactionOr(b, g).splits + [r.guid])
                          else TransactionOr(b, g);
    assert forall g :: AccountOr(b5, g)
                       == if g == r.accountGuid then AccountOr(b, g).(splits := AccountOr(b, g).splits + [r.guid])
                          else AccountOr(b, g);
    if r.valueDenom != 0 && r.quantityDenom != 0 {
      assert SplitStep(b, r) == Ok(WithSplit(b5, r.guid, SplitFromRow(r)));
    }
  }

  /** What a price row changes between `b` and `b'`. */
  ghost predicate PriceStepped(b: Book, b': Book, r: PriceRow) {
    && b'.accounts == b.accounts && b'.transactions == b.transactions && b'.splits == b.splits
    && b'.prices.items.Keys == b.prices.items.Keys + {r.guid}
    && b'.commodities.items.Keys == b.commodities.items.Keys + {r.commodityGuid, r.currencyGuid}
    && (forall g :: PriceOr(b', g) == if g == r.guid then PriceFromRow(r) else PriceOr(b, g))
    && (forall g :: CommodityHeader(CommodityOr(b', g)) == CommodityHeader(CommodityOr(b, g)))
    && (forall g :: CommodityOr(b', g).prices
                    == CommodityOr(b, g).prices + (if g == r.commodityGuid then [r.guid] else []))
  }

  lemma PriceStepEffects(b: Book, r: PriceRow)
    ensures PriceStepped(b, PriceStep(b, r), r)
  {
  }

  // ---------------------------------------------------------------------
  // Every row keeps the book linked

  /** `b'` has every key of `b`. */
  ghost predicate Grows(b: Book, b': Book) {
    && b.accounts.items.Keys <= b'.accounts.items.Keys
    && b.commodities.items.Keys <= b'.commodities.items.Keys
    && b.transactions.items.Keys <= b'.transactions.items.Keys
    && b.splits.items.Keys <= b'.splits.items.Keys
    && b.prices.items.Keys <= b'.prices.items.Keys
  }

  ghost predicate TablesValid(b: Book) {
    ValidTable(b.accounts) && ValidTable(b.commodities) && ValidTable(b.transactions)
    && ValidTable(b.splits) && ValidTable(b.prices)
  }

  lemma LinkedEntriesGrow(b: Book, b': Book)
    requires Grows(b, b')
    ensures forall a, g :: AccountLinked(b, a, g) ==> AccountLinked(b', a, g)
    ensures forall c, g :: CommodityLinked(b, c, g) ==> CommodityLinked(b', c, g)
    ensures forall t, g :: TransactionLinked(b, t, g) ==> TransactionLinked(b', t, g)
    ensures forall x, g :: SplitLinked(b, x, g) ==> SplitLinked(b', x, g)
    ensures forall p, g :: PriceLinked(b, p, g) ==> PriceLinked(b', p, g)
  {
  }

  lemma AccountStepLinked(b: Book, r: AccountRow)
    requires Linked(b)
    ensures Linked(AccountStep(b, r))
  {
    var b' := AccountStep(b, r);
    AccountStepEffects(b, r);
    assert TablesValid(b') by {
      var b1 := if r.commodityGuid != "" then GetCommodity(b, r.commodityGuid).0 else b;
      var b2 := if r.parentGuid != "" then GetAccount(b1, r.parentGuid).0 else b1;
      var (b3, acc) := GetAccount(b2, r.guid);
      assert TablesValid(b1) && TablesValid(b2) && TablesValid(b3);
    }
    LinkedEntriesGrow(b, b');
    forall g | g in b'.accounts.items
      ensures AccountLinked(b', b'.accounts.items[g], g)
    {
      var a := AccountOr(b', g);
      var a0 := AccountOr(b, g);
      assert AccountHeader(a) == if g == r.guid then AccountFromRow(r) else AccountHeader(a0);
      assert a.guid == AccountHeader(a).guid && a.parent == AccountHeader(a).parent
          && a.commodity == AccountHeader(a).commodity;
      if g in b.accounts.items {
        assert AccountLinked(b, a0, g);
      }
    }
    forall g | g in b'.commodities.items
      ensures CommodityLinked(b', b'.commodities.items[g], g)
    {
      assert CommodityOr(b', g) == CommodityOr(b, g);
      if g in b.commodities.items {
        assert CommodityLinked(b, b.commodities.items[g], g);
      }
    }
    forall g | g in b'.transactions.items
      ensures TransactionLinked(b', b'.transactions.items[g], g)
    {
      assert TransactionLinked(b, b.transactions.items[g], g);
    }
    forall g | g in b'.splits.items
      ensures SplitLinked(b', b'.splits.items[g], g)
    {
      assert SplitLinked(b, b.splits.items[g], g);
    }
    forall g | g in b'.prices.items
      ensures PriceLinked(b', b'.prices.items[g], g)
    {
      assert PriceLinked(b, b.prices.items[g], g);
    }
  }

  lemma CommodityStepLinked(b: Book, r: CommodityRow)
    requires Linked(b)
    ensures CommodityStep(b, r).Ok? ==> Linked(CommodityStep(b, r).value)
  {
    if CommodityStep(b, r).Ok? {
      var b' := CommodityStep(b, r).value;
      CommodityStepEffects(b, r);
      assert TablesValid(b') by {
        var (b1, c) := GetCommodity(b, r.guid);
        assert TablesValid(b1);
      }
      LinkedEntriesGrow(b, b');
      forall g | g in b'.commodities.items
        ensures CommodityLinked(b', b'.commodities.items[g], g)
      {
        var c := CommodityOr(b', g);
        assert CommodityHeader(c) == if g == r.guid then CommodityFromRow(r) else CommodityHeader(CommodityOr(b, g));
        assert c.guid == CommodityHeader(c).guid;
        if g in b.commodities.items {
          assert CommodityLinked(b, b.commodities.items[g], g);
        }
      }
      forall g | g in b'.accounts.items
        ensures AccountLinked(b', b'.accounts.items[g], g)
      {
        assert AccountLinked(b, b.accounts.items[g], g);
      }
      forall g | g in b'.transactions.items
        ensures TransactionLinked(b', b'.transactions.items[g], g)
      {
        assert TransactionLinked(b, b.transactions.items[g], g);
      }
      forall g | g in b'.splits.items
        ensures SplitLinked(b', b'.splits.items[g], g)
      {
        assert SplitLinked(b, b.splits.items[g], g);
      }
      forall g | g in b'.prices.items
        ensures PriceLinked(b', b'.prices.items[g], g)
      {
        assert PriceLinked(b, b.prices.items[g], g);
      }
    }
  }

  lemma TransactionStepLinked(b: Book, r: TransactionRow)
    requires Linked(b)
    ensures Linked(TransactionStep(b, r))
  {
    var b' := TransactionStep(b, r);
    TransactionStepEffects(b, r);
    assert TablesValid(b') by {
      var (b1, t) := GetTransaction(b, r.guid);
      var b2 := GetCommodity(b1, r.currencyGuid).0;
      assert TablesValid(b1) && TablesValid(b2);
    }
    LinkedEntriesGrow(b, b');
    forall g | g in b'.transactions.items
      ensures TransactionLinked(b', b'.transactions.items[g], g)
    {
      var t := TransactionOr(b', g);
      var t0 := TransactionOr(b, g);
      assert TransactionHeader(t) == if g == r.guid then TransactionFromRow(r) else TransactionHeader(t0);
      assert t.guid == TransactionHeader(t).guid && t.currency == TransactionHeader(t).currency;
      assert t.splits == t0.splits;
      if g in b.transactions.items {
        assert TransactionLinked(b, t0, g);
      }
    }
    forall g | g in b'.commodities.items
      ensures CommodityLinked(b', b'.commodities.items[g], g)
    {
      assert CommodityOr(b', g) == CommodityOr(b, g);
      if g in b.commodities.items {
        assert CommodityLinked(b, b.commodities.items[g], g);
      }
    }
    forall g | g in b'.accounts.items
      ensures AccountLinked(b', b'.accounts.items[g], g)
    {
      assert AccountLinked(b, b.accounts.items[g], g);
    }
    forall g | g in b'.splits.items
      ensures SplitLinked(b', b'.splits.items[g], g)
    {
      assert SplitLinked(b, b.splits.items[g], g);
    }
    forall g | g in b'.prices.items
      ensures PriceLinked(b', b'.prices.items[g], g)
    {
      assert PriceLinked(b, b.prices.items[g], g);
    }
  }

  lemma SplitStepLinked(b: Book, r: SplitRow)
    requires Linked(b)
    ensures SplitStep(b, r).Ok? ==> Linked(SplitStep(b, r).value)
  {
    if SplitStep(b, r).Ok? {
      SplitStepEffects(b, r);
      SplitStepValid(b, r);
      LinkedAfterSplit(b, SplitStep(b, r).value, r);
    }
  }

  lemma SplitStepValid(b: Book, r: SplitRow)
    requires TablesValid(b)
    ensures SplitStep(b, r).Ok? ==> TablesValid(SplitStep(b, r).value)
  {
    var (b1, _) := GetSplit(b, r.guid);
    var (b2, t) := GetTransaction(b1, r.txGuid);
    var b3 := WithTransaction(b2, r.txGuid, t.(splits := t.splits + [r.guid]));
    var (b4, a) := GetAccount(b3, r.accountGuid);
    assert TablesValid(b1) && TablesValid(b2) && TablesValid(b3) && TablesValid(b4);
  }

  /** The linking argument for a split row, from its effects alone. */
  lemma LinkedAfterSplit(b: Book, b': Book, r: SplitRow)
    requires Linked(b) && TablesValid(b') && SplitStepped(b, b', r)
    ensures Linked(b')
  {
    LinkedEntriesGrow(b, b');
    SplitEntriesAfterSplit(b, b', r);
    TransactionEntriesAfterSplit(b, b', r);
    AccountEntriesAfterSplit(b, b', r);
    forall g | g in b'.commodities.items
      ensures CommodityLinked(b', b'.commodities.items[g], g)
    {
      assert CommodityLinked(b, b.commodities.items[g], g);
    }
    forall g | g in b'.prices.items
      ensures PriceLinked(b', b'.prices.items[g], g)
    {
      assert PriceLinked(b, b.prices.items[g], g);
    }
  }

  lemma SplitEntriesAfterSplit(b: Book, b': Book, r: SplitRow)
    requires Linked(b) && SplitStepped(b, b', r)
    ensures forall g :: g in b'.splits.items ==> SplitLinked(b', b'.splits.items[g], g)
  {
    LinkedEntriesGrow(b, b');
    forall g | g in b'.splits.items
      ensures SplitLinked(b', b'.splits.items[g], g)
    {
      assert SplitOr(b', g) == b'.splits.items[g];
      if g != r.guid {
        assert SplitLinked(b, b.splits.items[g], g);
      }
    }
  }

  lemma TransactionEntriesAfterSplit(b: Book, b': Book, r: SplitRow)
    requires Linked(b) && SplitStepped(b, b', r)
    ensures forall g :: g in b'.transactions.items ==> TransactionLinked(b', b'.transactions.items[g], g)
  {
    LinkedEntriesGrow(b, b');
    forall g | g in b'.transactions.items
      ensures TransactionLinked(b', b'.transactions.items[g], g)
    {
      var t := TransactionOr(b', g);
      var t0 := TransactionOr(b, g);
      assert TransactionHeader(t) == TransactionHeader(t0);
      assert t.guid == TransactionHeader(t).guid && t.currency == TransactionHeader(t).currency;
      assert t0.guid == TransactionHeader(t0).guid && t0.currency == TransactionHeader(t0).currency;
      if g in b.transactions.items {
        assert TransactionLinked(b, t0, g);
      }
    }
  }

  lemma AccountEntriesAfterSplit(b: Book, b': Book, r: SplitRow)
    requires Linked(b) && SplitStepped(b, b', r)
    ensures forall g :: g in b'.accounts.items ==> AccountLinked(b', b'.accounts.items[g], g)
  {
    LinkedEntriesGrow(b, b');
    forall g | g in b'.accounts.items
      ensures AccountLinked(b', b'.accounts.items[g], g)
    {
      var a := AccountOr(b', g);
      var a0 := AccountOr(b, g);
      assert AccountHeader(a) == AccountHeader(a0);
      assert a.guid == AccountHeader(a).guid && a.parent == AccountHeader(a).parent
          && a.commodity == AccountHeader(a).commodity;
      assert a0.guid == AccountHeader(a0).guid && a0.parent == AccountHeader(a0).parent
          && a0.commodity == AccountHeader(a0).commodity;
      if g in b.accounts.items {
        assert AccountLinked(b, a0, g);
      }
    }
  }

  lemma PriceStepLinked(b: Book, r: PriceRow)
    requires Linked(b)
    ensures Linked(PriceStep(b, r))
  {
    PriceStepEffects(b, r);
    PriceStepValid(b, r);
    LinkedAfterPrice(b, PriceStep(b, r), r);
  }

  /** The linking argument for a price row, from its effects alone. */
  lemma LinkedAfterPrice(b: Book, b': Book, r: PriceRow)
    requires Linked(b) && TablesValid(b') && PriceStepped(b, b', r)
    ensures Linked(b')
  {
    LinkedEntriesGrow(b, b');
    PriceEntriesAfterPrice(b, b', r);
    CommodityEntriesAfterPrice(b, b', r);
    forall g | g in b'.accounts.items
      ensures AccountLinked(b', b'.accounts.items[g], g)
    {
      assert AccountLinked(b, b.accounts.items[g], g);
    }
    forall g | g in b'.transactions.items
      ensures TransactionLinked(b', b'.transactions.items[g], g)
    {
      assert TransactionLinked(b, b.transactions.items[g], g);
    }
    forall g | g in b'.splits.items
      ensures SplitLinked(b', b'.splits.items[g], g)
    {
      assert SplitLinked(b, b.splits.items[g], g);
    }
  }

  lemma PriceEntriesAfterPrice(b: Book, b': Book, r: PriceRow)
    requires Linked(b) && PriceStepped(b, b', r)
    ensures forall g :: g in b'.prices.items ==> PriceLinked(b', b'.prices.items[g], g)
  {
    LinkedEntriesGrow(b, b');
    forall g | g in b'.prices.items
      ensures PriceLinked(b', b'.prices.items[g], g)
    {
      assert PriceOr(b', g) == b'.prices.items[g];
      if g != r.guid {
        assert PriceLinked(b, b.prices.items[g], g);
      }
    }
  }

  lemma CommodityEntriesAfterPrice(b: Book, b': Book, r: PriceRow)
    requires Linked(b) && PriceStepped(b, b', r)
    ensures forall g :: g in b'.commodities.items ==> CommodityLinked(b', b'.commodities.items[g], g)
  {
    forall g | g in b'.commodities.items
      ensures CommodityLinked(b', b'.commodities.items[g], g)
    {
      var c := CommodityOr(b', g);
      var c0 := CommodityOr(b, g);
      assert CommodityHeader(c) == CommodityHeader(c0);
      assert c.guid == CommodityHeader(c).guid && c0.guid == CommodityHeader(c0).guid;
      if g in b.commodities.items {
        assert CommodityLinked(b, c0, g);
      }
    }
  }

  lemma PriceStepValid(b: Book, r: PriceRow)
    requires TablesValid(b)
    ensures TablesValid(PriceStep(b, r))
  {
    var (b1, _) := GetPrice(b, r.guid);
    var (b2, c) := GetCommodity(b1, r.commodityGuid);
    var b3 := WithCommodity(b2, r.commodityGuid, c.(prices := c.prices + [r.guid]));
    var b4 := GetCommodity(b3, r.currencyGuid).0;
    assert TablesValid(b1);
    assert TablesValid(b2);
    assert TablesValid(b3);
    assert TablesValid(b4);
  }

  // ---------------------------------------------------------------------
  // One table

  function LoadCommodities(b: Book, rows: seq<CommodityRow>): Result<Book>
    decreases |rows|
  {
    if rows == [] then Ok(b)
    else
      var b1 :- LoadCommodities(b, rows[..|rows| - 1]);
      CommodityStep(b1, rows[|rows| - 1])
  }

  function LoadAccounts(b: Book, rows: seq<AccountRow>): Book
    decreases |rows|
  {
    if rows == [] then b
    else AccountStep(LoadAccounts(b, rows[..|rows| - 1]), rows[|rows| - 1])
  }

  function LoadTransactions(b: Book, rows: seq<TransactionRow>): Book
    decreases |rows|
  {
    if rows == [] then b
    else TransactionStep(LoadTransactions(b, rows[..|rows| - 1]), rows[|rows| - 1])
  }

  function LoadSplits(b: Book, rows: seq<SplitRow>): Result<Book>
    decreases |rows|
  {
    if rows == [] then Ok(b)
    else
      var b1 :- LoadSplits(b, rows[..|rows| - 1]);
      SplitStep(b1, rows[|rows| - 1])
  }

  function LoadPrices(b: Book, rows: seq<PriceRow>): Book
    decreases |rows|
  {
    if rows == [] then b
    else PriceStep(LoadPrices(b, rows[..|rows| - 1]), rows[|rows| - 1])
  }

  // ---------------------------------------------------------------------
  // What loading one table adds up to

  /** A commodity's own fields after its rows: those of its last row, if any. */
  function LoadedCommodityHeader(b: Book, rows: seq<CommodityRow>, g: Guid): Commodity
    requires forall i :: 0 <= i < |rows| ==> rows[i].fraction > 0
  {
    match LastWith(rows, CommodityRowGuid, g)
    case Some(r) => CommodityFromRow(r)
    case None => CommodityHeader(CommodityOr(b, g))
  }

  ghost predicate CommoditiesLoaded(b: Book, b': Book, rows: seq<CommodityRow>) {
    && b' == b.(commodities := b'.commodities)
    && Grows(b, b')
    && (forall i :: 0 <= i < |rows| ==> rows[i].fraction > 0 && rows[i].guid in b'.commodities.items)
    && (forall g :: CommodityHeader(CommodityOr(b', g)) == LoadedCommodityHeader(b, rows, g))
    && (forall g :: CommodityOr(b', g).prices == CommodityOr(b, g).prices)
  }

  lemma {:induction false} CommoditiesLoadedStep(b: Book, b1: Book, b2: Book, rows: seq<CommodityRow>)
    requires rows != []
    requires CommoditiesLoaded(b, b1, rows[..|rows| - 1])
    requires CommodityStepped(b1, b2, rows[|rows| - 1])
    ensures CommoditiesLoaded(b, b2, rows)
  {
    var init := rows[..|rows| - 1];
    var r := rows[|rows| - 1];
    forall i | 0 <= i < |rows|
      ensures rows[i].fraction > 0 && rows[i].guid in b2.commodities.items
    {
      if i < |init| {
        assert rows[i] == init[i];
      }
    }
    forall g
      ensures CommodityHeader(CommodityOr(b2, g)) == LoadedCommodityHeader(b, rows, g)
    {
      if g != r.guid {
        assert LastWith(rows, CommodityRowGuid, g) == LastWith(init, CommodityRowGuid, g);
      }
    }
  }

  lemma {:induction false} LoadCommoditiesFacts(b: Book, rows: seq<CommodityRow>)
    requires Linked(b)
    ensures LoadCommodities(b, rows).Ok? <==> forall i :: 0 <= i < |rows| ==> rows[i].fraction > 0
    ensures LoadCommodities(b, rows).Ok? ==> CommoditiesLoaded(b, LoadCommodities(b, rows).value, rows)
    decreases |rows|
  {
    if rows != [] {
      var init := rows[..|rows| - 1];
      var r := rows[|rows| - 1];
      LoadCommoditiesFacts(b, init);
      LoadCommoditiesLinked(b, init);
      assert forall i :: 0 <= i < |init| ==> init[i] == rows[i];
      if LoadCommodities(b, init).Ok? {
        var b1 := LoadCommodities(b, init).value;
        CommodityStepEffects(b1, r);
        if CommodityStep(b1, r).Ok? {
          CommoditiesLoadedStep(b, b1, CommodityStep(b1, r).value, rows);
        }
      }
    }
  }

  /** An account's own fields after its rows: those of its last row, if any. */
  function LoadedAccountHeader(b: Book, rows: seq<AccountRow>, g: Guid): Account {
    match LastWith(rows, AccountRowGuid, g)
    case Some(r) => AccountFromRow(r)
    case None => AccountHeader(AccountOr(b, g))
  }

  ghost predicate AccountsLoaded(b: Book, b': Book, rows: seq<AccountRow>) {
    && b'.transactions == b.transactions && b'.splits == b.splits && b'.prices == b.prices
    && (forall g :: CommodityOr(b', g) == CommodityOr(b, g))
    && Grows(b, b')
    && (forall i :: 0 <= i < |rows| ==> rows[i].guid in b'.accounts.items)
    && (forall g :: AccountHeader(AccountOr(b', g)) == LoadedAccountHeader(b, rows, g))
    && (forall g :: AccountOr(b', g).childs == AccountOr(b, g).childs + ChildrenOf(rows, g))
    && (forall g :: AccountOr(b', g).splits == AccountOr(b, g).splits)
  }

  lemma {:induction false} AccountsLoadedStep(b: Book, b1: Book, b2: Book, rows: seq<AccountRow>)
    requires rows != []
    requires AccountsLoaded(b, b1, rows[..|rows| - 1])
    requires AccountStepped(b1, b2, rows[|rows| - 1])
    ensures AccountsLoaded(b, b2, rows)
  {
    var init := rows[..|rows| - 1];
    var r := rows[|rows| - 1];
    forall i | 0 <= i < |rows|
      ensures rows[i].guid in b2.accounts.items
    {
      if i < |init| {
        assert rows[i] == init[i];
      }
    }
    forall g
      ensures AccountHeader(AccountOr(b2, g)) == LoadedAccountHeader(b, rows, g)
    {
      if g != r.guid {
        assert LastWith(rows, AccountRowGuid, g) == LastWith(init, AccountRowGuid, g);
      }
    }
    forall g
      ensures AccountOr(b2, g).childs == AccountOr(b, g).childs + ChildrenOf(rows, g)
    {
      var extra := if r.parentGuid != "" && r.parentGuid == g then [r.guid] else [];
      assert ChildrenOf(rows, g) == ChildrenOf(init, g) + extra;
      assert AccountOr(b2, g).childs == AccountOr(b1, g).childs + extra;
    }
  }

  lemma {:induction false} LoadAccountsFacts(b: Book, rows: seq<AccountRow>)
    requires Linked(b)
    ensures AccountsLoaded(b, LoadAccounts(b, rows), rows)
    decreases |rows|
  {
    if rows == [] {
      assert ChildrenOf(rows, "") == [];
    } else {
      var init := rows[..|rows| - 1];
      var r := rows[|rows| - 1];
      LoadAccountsFacts(b, init);
      LoadAccountsLinked(b, init);
      var b1 := LoadAccounts(b, init);
      AccountStepEffects(b1, r);
      AccountsLoadedStep(b, b1, AccountStep(b1, r), rows);
    }
  }

  /** A transaction's own fields after its rows: those of its last row, if any. */
  function LoadedTransactionHeader(b: Book, rows: seq<TransactionRow>, g: Guid): Transaction {
    match LastWith(rows, TransactionRowGuid, g)
    case Some(r) => TransactionFromRow(r)
    case None => TransactionHeader(TransactionOr(b, g))
  }

  ghost predicate TransactionsLoaded(b: Book, b': Book, rows: seq<TransactionRow>) {
    && b'.accounts == b.accounts && b'.splits == b.splits && b'.prices == b.prices
    && (forall g :: CommodityOr(b', g) == CommodityOr(b, g))
    && Grows(b, b')
    && (forall i :: 0 <= i < |rows| ==> rows[i].guid in b'.transactions.items)
    && (forall g :: TransactionHeader(TransactionOr(b', g)) == LoadedTransactionHeader(b, rows, g))
    && (forall g :: TransactionOr(b', g).splits == TransactionOr(b, g).splits)
  }

  lemma {:induction false} TransactionsLoadedStep(b: Book, b1: Book, b2: Book, rows: seq<TransactionRow>)
    requires rows != []
    requires TransactionsLoaded(b, b1, rows[..|rows| - 1])
    requires TransactionStepped(b1, b2, rows[|rows| - 1])
    ensures TransactionsLoaded(b, b2, rows)
  {
    var init := rows[..|rows| - 1];
    var r := rows[|rows| - 1];
    forall i | 0 <= i < |rows|
      ensures rows[i].guid in b2.transactions.items
    {
      if i < |init| {
        assert rows[i] == init[i];
      }
    }
    forall g
      ensures TransactionHeader(TransactionOr(b2, g)) == LoadedTransactionHeader(b, rows, g)
    {
      if g != r.guid {
        assert LastWith(rows, TransactionRowGuid, g) == LastWith(init, TransactionRowGuid, g);
      }
    }
  }

  lemma {:induction false} LoadTransactionsFacts(b: Book, rows: seq<TransactionRow>)
    requires Linked(b)
    ensures TransactionsLoaded(b, LoadTransactions(b, rows), rows)
    decreases |rows|
  {
    if rows != [] {
      var init := rows[..|rows| - 1];
      var r := rows[|rows| - 1];
      LoadTransactionsFacts(b, init);
      LoadTransactionsLinked(b, init);
      var b1 := LoadTransactions(b, init);
      TransactionStepEffects(b1, r);
      TransactionsLoadedStep(b, b1, TransactionStep(b1, r), rows);
    }
  }

  /** A split after its rows: built from its last row, if any. */
  function LoadedSplit(b: Book, rows: seq<SplitRow>, g: Guid): Split
    requires forall i :: 0 <= i < |rows| ==> rows[i].valueDenom != 0 && rows[i].quantityDenom != 0
  {
    match LastWith(rows, SplitRowGuid, g)
    case Some(r) => SplitFromRow(r)
    case None => SplitOr(b, g)
  }

  ghost predicate SplitsLoaded(b: Book, b': Book, rows: seq<SplitRow>) {
    && b'.commodities == b.commodities && b'.prices == b.prices
    && Grows(b, b')
    && (forall i :: 0 <= i < |rows| ==>
          rows[i].valueDenom != 0 && rows[i].quantityDenom != 0 && rows[i].guid in b'.splits.items)
    && (forall g :: SplitOr(b', g) == LoadedSplit(b, rows, g))
    && (forall g :: TransactionHeader(TransactionOr(b', g)) == TransactionHeader(TransactionOr(b, g)))
    && (forall g :: TransactionOr(b', g).splits == TransactionOr(b, g).splits + SplitsOfTransaction(rows, g))
    && (forall g :: AccountHeader(AccountOr(b', g)) == AccountHeader(AccountOr(b, g)))
    && (forall g :: AccountOr(b', g).childs == AccountOr(b, g).childs)
    && (forall g :: AccountOr(b', g).splits == AccountOr(b, g).splits + SplitsOfAccount(rows, g))
  }

  lemma {:induction false} SplitsLoadedStep(b: Book, b1: Book, b2: Book, rows: seq<SplitRow>)
    requires rows != []
    requires SplitsLoaded(b, b1, rows[..|rows| - 1])
    requires SplitStepped(b1, b2, rows[|rows| - 1])
    ensures SplitsLoaded(b, b2, rows)
  {
    var init := rows[..|rows| - 1];
    var r := rows[|rows| - 1];
    forall i | 0 <= i < |rows|
      ensures rows[i].valueDenom != 0 && rows[i].quantityDenom != 0 && rows[i].guid in b2.splits.items
    {
      if i < |init| {
        assert rows[i] == init[i];
      }
    }
    forall g
      ensures SplitOr(b2, g) == LoadedSplit(b, rows, g)
    {
      if g != r.guid {
        assert LastWith(rows, SplitRowGuid, g) == LastWith(init, SplitRowGuid, g);
      }
    }
    forall g
      ensures TransactionOr(b2, g).splits == TransactionOr(b, g).splits + SplitsOfTransaction(rows, g)
    {
      var extra := if r.txGuid == g then [r.guid] else [];
      assert SplitsOfTransaction(rows, g) == SplitsOfTransaction(init, g) + extra;
      assert TransactionOr(b2, g).splits == TransactionOr(b1, g).splits + extra;
    }
    forall g
      ensures AccountOr(b2, g).splits == AccountOr(b, g).splits + SplitsOfAccount(rows, g)
    {
      var extra := if r.accountGuid == g then [r.guid] else [];
      assert SplitsOfAccount(rows, g) == SplitsOfAccount(init, g) + extra;
      assert AccountOr(b2, g).splits == AccountOr(b1, g).splits + extra;
    }
  }

  lemma {:induction false} LoadSplitsFacts(b: Book, rows: seq<SplitRow>)
    requires Linked(b)
    ensures LoadSplits(b, rows).Ok? <==>
            forall i :: 0 <= i < |rows| ==> rows[i].valueDenom != 0 && rows[i].quantityDenom != 0
    ensures LoadSplits(b, rows).Ok? ==> SplitsLoaded(b, LoadSplits(b, rows).value, rows)
    decreases |rows|
  {
    if rows == [] {
      assert forall g :: SplitsOfTransaction(rows, g) == [] && SplitsOfAccount(rows, g) == [];
    } else {
      var init := rows[..|rows| - 1];
      var r := rows[|rows| - 1];
      LoadSplitsFacts(b, init);
      LoadSplitsLinked(b, init);
      assert forall i :: 0 <= i < |init| ==> init[i] == rows[i];
      if LoadSplits(b, init).Ok? {
        var b1 := LoadSplits(b, init).value;
        SplitStepEffects(b1, r);
        if SplitStep(b1, r).Ok? {
          SplitsLoadedStep(b, b1, SplitStep(b1, r).value, rows);
        }
      }
    }
  }

  /** A price after its rows: built from its last row, if any. */
  function LoadedPrice(b: Book, rows: seq<PriceRow>, g: Guid): Price {
    match LastWith(rows, PriceRowGuid, g)
    case Some(r) => PriceFromRow(r)
    case None => PriceOr(b, g)
  }

  ghost predicate PricesLoaded(b: Book, b': Book, rows: seq<PriceRow>) {
    && b'.accounts == b.accounts && b'.transactions == b.transactions && b'.splits == b.splits
    && Grows(b, b')
    && (forall i :: 0 <= i < |rows| ==> rows[i].guid in b'.prices.items)
    && (forall g :: PriceOr(b', g) == LoadedPrice(b, rows, g))
    && (forall g :: CommodityHeader(CommodityOr(b', g)) == CommodityHeader(CommodityOr(b, g)))
    && (forall g :: CommodityOr(b', g).prices == CommodityOr(b, g).prices + PricesOfCommodity(rows, g))
  }

  lemma {:induction false} PricesLoadedStep(b: Book, b1: Book, b2: Book, rows: seq<PriceRow>)
    requires rows != []
    requires PricesLoaded(b, b1, rows[..|rows| - 1])
    requires PriceStepped(b1, b2, rows[|rows| - 1])
    ensures PricesLoaded(b, b2, rows)
  {
    var init := rows[..|rows| - 1];
    var r := rows[|rows| - 1];
    forall i | 0 <= i < |rows|
      ensures rows[i].guid in b2.prices.items
    {
      if i < |init| {
        assert rows[i] == init[i];
      }
    }
    forall g
      ensures PriceOr(b2, g) == LoadedPrice(b, rows, g)
    {
      if g != r.guid {
        assert LastWith(rows, PriceRowGuid, g) == LastWith(init, PriceRowGuid, g);
      }
    }
    forall g
      ensures CommodityOr(b2, g).prices == CommodityOr(b, g).prices + PricesOfCommodity(rows, g)
    {
      var extra := if r.commodityGuid == g then [r.guid] else [];
      assert PricesOfCommodity(rows, g) == PricesOfCommodity(init, g) + extra;
      assert CommodityOr(b2, g).prices == CommodityOr(b1, g).prices + extra;
    }
  }

  lemma {:induction false} LoadPricesFacts(b: Book, rows: seq<PriceRow>)
    requires Linked(b)
    ensures PricesLoaded(b, LoadPrices(b, rows), rows)
    decreases |rows|
  {
    if rows == [] {
      assert forall g :: PricesOfCommodity(rows, g) == [];
    } else {
      var init := rows[..|rows| - 1];
      var r := rows[|rows| - 1];
      LoadPricesFacts(b, init);
      LoadPricesLinked(b, init);
      var b1 := LoadPrices(b, init);
      PriceStepEffects(b1, r);
      PricesLoadedStep(b, b1, PriceStep(b1, r), rows);
    }
  }

  // ---------------------------------------------------------------------
  // Every table keeps the book linked

  lemma {:induction false} LoadCommoditiesLinked(b: Book, rows: seq<CommodityRow>)
    requires Linked(b)
    ensures LoadCommodities(b, rows).Ok? ==> Linked(LoadCommodities(b, rows).value)
    decreases |rows|
  {
    if rows != [] {
      var init := rows[..|rows| - 1];
      LoadCommoditiesLinked(b, init);
      if LoadCommodities(b, init).Ok? {
        CommodityStepLinked(LoadCommodities(b, init).value, rows[|rows| - 1]);
      }
    }
  }

  lemma {:induction false} LoadAccountsLinked(b: Book, rows: seq<AccountRow>)
    requires Linked(b)
    ensures Linked(LoadAccounts(b, rows))
    decreases |rows|
  {
    if rows != [] {
      var init := rows[..|rows| - 1];
      LoadAccountsLinked(b, init);
      AccountStepLinked(LoadAccounts(b, init), rows[|rows| - 1]);
    }
  }

  lemma {:induction false} LoadTransactionsLinked(b: Book, rows: seq<TransactionRow>)
    requires Linked(b)
    ensures Linked(LoadTransactions(b, rows))
    decreases |rows|
  {
    if rows != [] {
      var init := rows[..|rows| - 1];
      LoadTransactionsLinked(b, init);
      TransactionStepLinked(LoadTransactions(b, init), rows[|rows| - 1]);
    }
  }

  lemma {:induction false} LoadSplitsLinked(b: Book, rows: seq<SplitRow>)
    requires Linked(b)
    ensures LoadSplits(b, rows).Ok? ==> Linked(LoadSplits(b, rows).value)
    decreases |rows|
  {
    if rows != [] {
      var init := rows[..|rows| - 1];
      LoadSplitsLinked(b, init);
      if LoadSplits(b, init).Ok? {
        SplitStepLinked(LoadSplits(b, init).value, rows[|rows| - 1]);
      }
    }
  }

  lemma {:induction false} LoadPricesLinked(b: Book, rows: seq<PriceRow>)
    requires Linked(b)
    ensures Linked(LoadPrices(b, rows))
    decreases |rows|
  {
    if rows != [] {
      var init := rows[..|rows| - 1];
      LoadPricesLinked(b, init);
      PriceStepLinked(LoadPrices(b, init), rows[|rows| - 1]);
    }
  }

  // ---------------------------------------------------------------------
  // Sorting the price lists and the whole load

  /** Lines 307-309: every commodity's price list is sorted by date, stably. */
  function SortPrices(b: Book): Book {
    b.(commodities := Table(b.commodities.order, SortedPriceLists(b.commodities.items, PriceDateKey(b.prices))))
  }

  function SortedPriceLists(items: map<Guid, Commodity>, key: Guid -> int): (r: map<Guid, Commodity>)
    ensures r.Keys == items.Keys
    ensures forall c :: c in items ==> r[c] == items[c].(prices := SortBy(items[c].prices, key))
  {
    map c | c in items :: items[c].(prices := SortBy(items[c].prices, key))
  }

  lemma SortPricesFacts(b: Book)
    ensures var b' := SortPrices(b);
      && b'.accounts == b.accounts && b'.transactions == b.transactions
      && b'.splits == b.splits && b'.prices == b.prices
      && b'.commodities.items.Keys == b.commodities.items.Keys
      && (forall g :: CommodityHeader(CommodityOr(b', g)) == CommodityHeader(CommodityOr(b, g)))
      && (forall g :: CommodityOr(b', g).prices == SortBy(CommodityOr(b, g).prices, PriceDateKey(b.prices)))
  {
    forall g
      ensures && CommodityHeader(CommodityOr(SortPrices(b), g)) == CommodityHeader(CommodityOr(b, g))
              && CommodityOr(SortPrices(b), g).prices == SortBy(CommodityOr(b, g).prices, PriceDateKey(b.prices))
    {
      SortPricesAt(b, g);
    }
  }

  lemma SortPricesAt(b: Book, g: Guid)
    ensures CommodityHeader(CommodityOr(SortPrices(b), g)) == CommodityHeader(CommodityOr(b, g))
    ensures CommodityOr(SortPrices(b), g).prices == SortBy(CommodityOr(b, g).prices, PriceDateKey(b.prices))
  {
    if g !in b.commodities.items {
      assert SortBy([], PriceDateKey(b.prices)) == [];
    }
  }

  /** Sorting keeps the book linked and leaves every price list in date order. */
  lemma SortPricesLinked(b: Book)
    requires Linked(b)
    ensures Linked(SortPrices(b)) && PricesSorted(SortPrices(b))
  {
    var b' := SortPrices(b);
    var key := PriceDateKey(b.prices);
    assert ValidTable(b'.commodities);
    forall g | g in b'.commodities.items
      ensures CommodityLinked(b', b'.commodities.items[g], g)
    {
      var c := b.commodities.items[g];
      assert CommodityLinked(b, c, g);
      forall x | x in b'.commodities.items[g].prices
        ensures x in b'.prices.items
      {
        SortByMembers(c.prices, key, x);
      }
    }
    forall g | g in b'.accounts.items
      ensures AccountLinked(b', b'.accounts.items[g], g)
    {
      assert AccountLinked(b, b.accounts.items[g], g);
    }
    forall g | g in b'.transactions.items
      ensures TransactionLinked(b', b'.transactions.items[g], g)
    {
      assert TransactionLinked(b, b.transactions.items[g], g);
    }
    forall g | g in b'.splits.items
      ensures SplitLinked(b', b'.splits.items[g], g)
    {
      assert SplitLinked(b, b.splits.items[g], g);
    }
    forall g | g in b'.prices.items
      ensures PriceLinked(b', b'.prices.items[g], g)
    {
      assert PriceLinked(b, b.prices.items[g], g);
    }
  }

  /**
   Lines 200-311, `read_data`: the five tables in order (commodities,
   accounts, transactions, splits, prices), starting from an empty book, then
   the price lists sorted.
   */
  function ReadData(rows: Rows): Result<Book> {
    var b1 :- LoadCommodities(EmptyBook(), rows.commodities);
    var b2 := LoadAccounts(b1, rows.accounts);
    var b3 := LoadTransactions(b2, rows.transactions);
    var b4 :- LoadSplits(b3, rows.splits);
    var b5 := LoadPrices(b4, rows.prices);
    Ok(SortPrices(b5))
  }

  /** The load aborts exactly on a non-positive commodity fraction or a zero split denominator. */
  lemma ReadDataSucceeds(rows: Rows)
    ensures ReadData(rows).Ok? <==>
      && (forall i :: 0 <= i < |rows.commodities| ==> rows.commodities[i].fraction > 0)
      && (forall i :: 0 <= i < |rows.splits| ==>
            rows.splits[i].valueDenom != 0 && rows.splits[i].quantityDenom != 0)
  {
    var e := EmptyBook();
    LoadCommoditiesFacts(e, rows.commodities);
    LoadCommoditiesLinked(e, rows.commodities);
    if LoadCommodities(e, rows.commodities).Ok? {
      var b1 := LoadCommodities(e, rows.commodities).value;
      LoadAccountsLinked(b1, rows.accounts);
      var b2 := LoadAccounts(b1, rows.accounts);
      LoadTransactionsLinked(b2, rows.transactions);
      LoadSplitsFacts(LoadTransactions(b2, rows.transactions), rows.splits);
    }
  }

  /** `b1` .. `b5` are the books after each table of `rows`. */
  ghost predicate LoadStages(rows: Rows, b1: Book, b2: Book, b3: Book, b4: Book, b5: Book) {
    && LoadCommodities(EmptyBook(), rows.commodities) == Ok(b1)
    && b2 == LoadAccounts(b1, rows.accounts)
    && b3 == LoadTransactions(b2, rows.transactions)
    && LoadSplits(b3, rows.splits) == Ok(b4)
    && b5 == LoadPrices(b4, rows.prices)
  }

  /** The intermediate books of a successful load. */
  lemma ReadDataStages(rows: Rows) returns (b1: Book, b2: Book, b3: Book, b4: Book, b5: Book)
    requires ReadData(rows).Ok?
    ensures LoadStages(rows, b1, b2, b3, b4, b5)
    ensures ReadData(rows) == Ok(SortPrices(b5))
  {
    b1 := LoadCommodities(EmptyBook(), rows.commodities).value;
    b2 := LoadAccounts(b1, rows.accounts);
    b3 := LoadTransactions(b2, rows.transactions);
    b4 := LoadSplits(b3, rows.splits).value;
    b5 := LoadPrices(b4, rows.prices);
  }

  /** Each intermediate book of a successful load is linked. */
  lemma StagesLinked(rows: Rows, b1: Book, b2: Book, b3: Book, b4: Book, b5: Book)
    requires LoadStages(rows, b1, b2, b3, b4, b5)
    ensures Linked(b1) && Linked(b2) && Linked(b3) && Linked(b4) && Linked(b5)
  {
    LoadCommoditiesLinked(EmptyBook(), rows.commodities);
    LoadAccountsLinked(b1, rows.accounts);
    LoadTransactionsLinked(b2, rows.transactions);
    LoadSplitsLinked(b3, rows.splits);
    LoadPricesLinked(b4, rows.prices);
  }

  lemma CommodityStage(rows: Rows, b1: Book, b2: Book, b3: Book, b4: Book, b5: Book)
    requires LoadStages(rows, b1, b2, b3, b4, b5)
    ensures CommoditiesLoaded(EmptyBook(), b1, rows.commodities)
  {
    LoadCommoditiesFacts(EmptyBook(), rows.commodities);
  }

  lemma AccountStage(rows: Rows, b1: Book, b2: Book, b3: Book, b4: Book, b5: Book)
    requires LoadStages(rows, b1, b2, b3, b4, b5)
    ensures AccountsLoaded(b1, b2, rows.accounts)
  {
    StagesLinked(rows, b1, b2, b3, b4, b5);
    LoadAccountsFacts(b1, rows.accounts);
  }

  lemma TransactionStage(rows: Rows, b1: Book, b2: Book, b3: Book, b4: Book, b5: Book)
    requires LoadStages(rows, b1, b2, b3, b4, b5)
    ensures TransactionsLoaded(b2, b3, rows.transactions)
  {
    StagesLinked(rows, b1, b2, b3, b4, b5);
    LoadTransactionsFacts(b2, rows.transactions);
  }

  lemma SplitStage(rows: Rows, b1: Book, b2: Book, b3: Book, b4: Book, b5: Book)
    requires LoadStages(rows, b1, b2, b3, b4, b5)
    ensures SplitsLoaded(b3, b4, rows.splits)
  {
    StagesLinked(rows, b1, b2, b3, b4, b5);
    LoadSplitsFacts(b3, rows.splits);
  }

  lemma PriceStage(rows: Rows, b1: Book, b2: Book, b3: Book, b4: Book, b5: Book)
    requires LoadStages(rows, b1, b2, b3, b4, b5)
    ensures PricesLoaded(b4, b5, rows.prices)
  {
    StagesLinked(rows, b1, b2, b3, b4, b5);
    LoadPricesFacts(b4, rows.prices);
  }

  // The defaults a load starts from matter only through the starting book's objects.

  lemma LoadedAccountHeaderBase(b: Book, b': Book, rows: seq<AccountRow>, g: Guid)
    requires AccountOr(b, g) == AccountOr(b', g)
    ensures LoadedAccountHeader(b, rows, g) == LoadedAccountHeader(b', rows, g)
  {
  }

  lemma LoadedTransactionHeaderBase(b: Book, b': Book, rows: seq<TransactionRow>, g: Guid)
    requires TransactionOr(b, g) == TransactionOr(b', g)
    ensures LoadedTransactionHeader(b, rows, g) == LoadedTransactionHeader(b', rows, g)
  {
  }

  lemma LoadedSplitBase(b: Book, b': Book, rows: seq<SplitRow>, g: Guid)
    requires forall i :: 0 <= i < |rows| ==> rows[i].valueDenom != 0 && rows[i].quantityDenom != 0
    requires SplitOr(b, g) == SplitOr(b', g)
    ensures LoadedSplit(b, rows, g) == LoadedSplit(b', rows, g)
  {
  }

  lemma LoadedPriceBase(b: Book, b': Book, rows: seq<PriceRow>, g: Guid)
    requires PriceOr(b, g) == PriceOr(b', g)
    ensures LoadedPrice(b, rows, g) == LoadedPrice(b', rows, g)
  {
  }

  /** A loaded book is linked and every price list is in date order. */
  lemma ReadDataLinked(rows: Rows)
    requires ReadData(rows).Ok?
    ensures Linked(ReadData(rows).value) && PricesSorted(ReadData(rows).value)
  {
    var b1, b2, b3, b4, b5 := ReadDataStages(rows);
    StagesLinked(rows, b1, b2, b3, b4, b5);
    SortPricesLinked(b5);
  }

  /**
   Every account carries the fields of its last row (or the defaults when only
   other rows name it), its children are the rows naming it as parent and its
   splits are the split rows booked to it, both in row order.
   */
  lemma ReadDataAccounts(rows: Rows)
    requires ReadData(rows).Ok?
    ensures var d := ReadData(rows).value;
      forall g :: && AccountHeader(AccountOr(d, g)) == LoadedAccountHeader(EmptyBook(), rows.accounts, g)
                  && AccountOr(d, g).childs == ChildrenOf(rows.accounts, g)
                  && AccountOr(d, g).splits == SplitsOfAccount(rows.splits, g)
  {
    var e := EmptyBook();
    var b1, b2, b3, b4, b5 := ReadDataStages(rows);
    var d := SortPrices(b5);
    assert b1.accounts == e.accounts by {
      CommodityStage(rows, b1, b2, b3, b4, b5);
    }
    assert forall g :: && AccountHeader(AccountOr(b2, g)) == LoadedAccountHeader(b1, rows.accounts, g)
                       && AccountOr(b2, g).childs == AccountOr(b1, g).childs + ChildrenOf(rows.accounts, g)
                       && AccountOr(b2, g).splits == AccountOr(b1, g).splits by {
      AccountStage(rows, b1, b2, b3, b4, b5);
    }
    assert b3.accounts == b2.accounts by {
      TransactionStage(rows, b1, b2, b3, b4, b5);
    }
    assert forall g :: && AccountHeader(AccountOr(b4, g)) == AccountHeader(AccountOr(b3, g))
                       && AccountOr(b4, g).childs == AccountOr(b3, g).childs
                       && AccountOr(b4, g).splits == AccountOr(b3, g).splits + SplitsOfAccount(rows.splits, g) by {
      SplitStage(rows, b1, b2, b3, b4, b5);
    }
    assert b5.accounts == b4.accounts by {
      PriceStage(rows, b1, b2, b3, b4, b5);
    }
    assert d.accounts == b5.accounts;
    forall g
      ensures && AccountHeader(AccountOr(d, g)) == LoadedAccountHeader(e, rows.accounts, g)
              && AccountOr(d, g).childs == ChildrenOf(rows.accounts, g)
              && AccountOr(d, g).splits == SplitsOfAccount(rows.splits, g)
    {
      assert AccountOr(b1, g) == AccountOr(e, g);
      LoadedAccountHeaderBase(b1, e, rows.accounts, g);
      assert AccountOr(b2, g).childs == [] + ChildrenOf(rows.accounts, g);
      assert AccountOr(b3, g) == AccountOr(b2, g);
      assert AccountOr(d, g) == AccountOr(b4, g);
    }
  }

  /**
   Every transaction carries the fields of its last row (or the defaults) and
   its splits are the split rows naming it, in row order.
   */
  lemma ReadDataTransactions(rows: Rows)
    requires ReadData(rows).Ok?
    ensures var d := ReadData(rows).value;
      forall g :: && TransactionHeader(TransactionOr(d, g)) == LoadedTransactionHeader(EmptyBook(), rows.transactions, g)
                  && TransactionOr(d, g).splits == SplitsOfTransaction(rows.splits, g)
  {
    var e := EmptyBook();
    var b1, b2, b3, b4, b5 := ReadDataStages(rows);
    var d := SortPrices(b5);
    assert b1.transactions == e.transactions by {
      CommodityStage(rows, b1, b2, b3, b4, b5);
    }
    assert b2.transactions == b1.transactions by {
      AccountStage(rows, b1, b2, b3, b4, b5);
    }
    assert forall g :: && TransactionHeader(TransactionOr(b3, g)) == LoadedTransactionHeader(b2, rows.transactions, g)
                       && TransactionOr(b3, g).splits == TransactionOr(b2, g).splits by {
      TransactionStage(rows, b1, b2, b3, b4, b5);
    }
    assert forall g :: && TransactionHeader(TransactionOr(b4, g)) == TransactionHeader(TransactionOr(b3, g))
                       && TransactionOr(b4, g).splits == TransactionOr(b3, g).splits + SplitsOfTransaction(rows.splits, g) by {
      SplitStage(rows, b1, b2, b3, b4, b5);
    }
    assert b5.transactions == b4.transactions by {
      PriceStage(rows, b1, b2, b3, b4, b5);
    }
    assert d.transactions == b5.transactions;
    forall g
      ensures && TransactionHeader(TransactionOr(d, g)) == LoadedTransactionHeader(e, rows.transactions, g)
              && TransactionOr(d, g).splits == SplitsOfTransaction(rows.splits, g)
    {
      assert TransactionOr(b2, g) == TransactionOr(e, g);
      LoadedTransactionHeaderBase(b2, e, rows.transactions, g);
      assert TransactionOr(b3, g).splits == [];
      assert TransactionOr(d, g) == TransactionOr(b4, g);
    }
  }

  /** Every split and every price is built from its last row, or is the default. */
  lemma ReadDataSplitsAndPrices(rows: Rows)
    requires ReadData(rows).Ok?
    ensures forall i :: 0 <= i < |rows.splits| ==> rows.splits[i].valueDenom != 0 && rows.splits[i].quantityDenom != 0
    ensures var d := ReadData(rows).value;
      && (forall g :: SplitOr(d, g) == LoadedSplit(EmptyBook(), rows.splits, g))
      && (forall g :: PriceOr(d, g) == LoadedPrice(EmptyBook(), rows.prices, g))
  {
    var e := EmptyBook();
    var b1, b2, b3, b4, b5 := ReadDataStages(rows);
    var d := SortPrices(b5);
    assert b1.splits == e.splits && b1.prices == e.prices by {
      CommodityStage(rows, b1, b2, b3, b4, b5);
    }
    assert b2.splits == b1.splits && b2.prices == b1.prices by {
      AccountStage(rows, b1, b2, b3, b4, b5);
    }
    assert b3.splits == b2.splits && b3.prices == b2.prices by {
      TransactionStage(rows, b1, b2, b3, b4, b5);
    }
    assert && (forall i :: 0 <= i < |rows.splits| ==> rows.splits[i].valueDenom != 0 && rows.splits[i].quantityDenom != 0)
           && (forall g :: SplitOr(b4, g) == LoadedSplit(b3, rows.splits, g))
           && b4.prices == b3.prices by {
      SplitStage(rows, b1, b2, b3, b4, b5);
    }
    assert b5.splits == b4.splits && forall g :: PriceOr(b5, g) == LoadedPrice(b4, rows.prices, g) by {
      PriceStage(rows, b1, b2, b3, b4, b5);
    }
    assert d.splits == b5.splits && d.prices == b5.prices;
    forall g
      ensures SplitOr(d, g) == LoadedSplit(e, rows.splits, g)
    {
      assert SplitOr(b3, g) == SplitOr(e, g);
      LoadedSplitBase(b3, e, rows.splits, g);
    }
    forall g
      ensures PriceOr(d, g) == LoadedPrice(e, rows.prices, g)
    {
      assert PriceOr(b4, g) == PriceOr(e, g);
      LoadedPriceBase(b4, e, rows.prices, g);
    }
  }

  /** Every commodity carries the fields of its last row, or the defaults. */
  lemma ReadDataCommodities(rows: Rows)
    requires ReadData(rows).Ok?
    ensures forall i :: 0 <= i < |rows.commodities| ==> rows.commodities[i].fraction > 0
    ensures var d := ReadData(rows).value;
      forall g :: CommodityHeader(CommodityOr(d, g)) == LoadedCommodityHeader(EmptyBook(), rows.commodities, g)
  {
    var b1, b2, b3, b4, b5 := ReadDataStages(rows);
    CommodityHeadersThroughStages(rows, b1, b2, b3, b4, b5);
    SortPricesFacts(b5);
  }

  lemma CommodityHeadersThroughStages(rows: Rows, b1: Book, b2: Book, b3: Book, b4: Book, b5: Book)
    requires LoadStages(rows, b1, b2, b3, b4, b5)
    ensures forall i :: 0 <= i < |rows.commodities| ==> rows.commodities[i].fraction > 0
    ensures forall g :: CommodityHeader(CommodityOr(b5, g)) == LoadedCommodityHeader(EmptyBook(), rows.commodities, g)
  {
    var e := EmptyBook();
    assert && (forall i :: 0 <= i < |rows.commodities| ==> rows.commodities[i].fraction > 0)
           && (forall g :: CommodityHeader(CommodityOr(b1, g)) == LoadedCommodityHeader(e, rows.commodities, g)) by {
      CommodityStage(rows, b1, b2, b3, b4, b5);
    }
    assert forall g :: CommodityOr(b2, g) == CommodityOr(b1, g) by {
      AccountStage(rows, b1, b2, b3, b4, b5);
    }
    assert forall g :: CommodityOr(b3, g) == CommodityOr(b2, g) by {
      TransactionStage(rows, b1, b2, b3, b4, b5);
    }
    assert b4.commodities == b3.commodities by {
      SplitStage(rows, b1, b2, b3, b4, b5);
    }
    assert forall g :: CommodityHeader(CommodityOr(b5, g)) == CommodityHeader(CommodityOr(b4, g)) by {
      PriceStage(rows, b1, b2, b3, b4, b5);
    }
    forall g
      ensures CommodityHeader(CommodityOr(b5, g)) == LoadedCommodityHeader(e, rows.commodities, g)
    {
      assert CommodityOr(b4, g) == CommodityOr(b1, g);
    }
  }

  /** Every commodity's price list is the price rows naming it, stably sorted by date. */
  lemma ReadDataPriceLists(rows: Rows)
    requires ReadData(rows).Ok?
    ensures var d := ReadData(rows).value;
      forall g :: CommodityOr(d, g).prices == SortBy(PricesOfCommodity(rows.prices, g), PriceDateKey(d.prices))
  {
    var b1, b2, b3, b4, b5 := ReadDataStages(rows);
    PriceListsThroughStages(rows, b1, b2, b3, b4, b5);
    SortPricesFacts(b5);
  }

  lemma PriceListsThroughStages(rows: Rows, b1: Book, b2: Book, b3: Book, b4: Book, b5: Book)
    requires LoadStages(rows, b1, b2, b3, b4, b5)
    ensures forall g :: CommodityOr(b5, g).prices == PricesOfCommodity(rows.prices, g)
  {
    var e := EmptyBook();
    assert forall g :: CommodityOr(b1, g).prices == CommodityOr(e, g).prices by {
      CommodityStage(rows, b1, b2, b3, b4, b5);
    }
    assert forall g :: CommodityOr(b2, g) == CommodityOr(b1, g) by {
      AccountStage(rows, b1, b2, b3, b4, b5);
    }
    assert forall g :: CommodityOr(b3, g) == CommodityOr(b2, g) by {
      TransactionStage(rows, b1, b2, b3, b4, b5);
    }
    assert b4.commodities == b3.commodities by {
      SplitStage(rows, b1, b2, b3, b4, b5);
    }
    assert forall g :: CommodityOr(b5, g).prices == CommodityOr(b4, g).prices + PricesOfCommodity(rows.prices, g) by {
      PriceStage(rows, b1, b2, b3, b4, b5);
    }
    forall g
      ensures CommodityOr(b5, g).prices == PricesOfCommodity(rows.prices, g)
    {
      assert CommodityOr(b4, g) == CommodityOr(b1, g);
      assert CommodityOr(e, g).prices == [];
      assert CommodityOr(b5, g).prices == [] + PricesOfCommodity(rows.prices, g);
    }
  }

  /**
   Each loaded price list is in date order, holds exactly the commodity's price
   rows, and keeps prices of equal date in row order (`list.sort` is stable).
   */
  lemma ReadDataPriceOrder(rows: Rows, c: Guid, k: int)
    requires ReadData(rows).Ok?
    ensures var d := ReadData(rows).value;
      var ps := CommodityOr(d, c).prices;
      var key := PriceDateKey(d.prices);
      && SortedBy(ps, key)
      && multiset(ps) == multiset(PricesOfCommodity(rows.prices, c))
      && WithKey(ps, key, k) == WithKey(PricesOfCommodity(rows.prices, c), key, k)
  {
    var d := ReadData(rows).value;
    ReadDataPriceLists(rows);
    SortByStable(PricesOfCommodity(rows.prices, c), PriceDateKey(d.prices), k);
  }
}

=== FILE: outcomes.dfy ===
/**
 Optional values and results shared by every module of the model.

 The Python program signals its abort paths with `assert`, with exceptions
 raised by property accessors and with arithmetic errors. Here each of them is
 an `Err` carrying the `Error` that names the failing check.
 */
module Outcomes {

  /** `None` stands for Python's `None` reference. */
  datatype Option<+T> = None | Some(value: T)

  /** The abort conditions of the modelled code. */
  datatype Error =
    | ZeroDenominator        // a split amount num/denom with denom == 0
    | BadFraction            // math.log10 of a non-positive commodity fraction
    | MissingCurrency        // Transaction.currency read while unset
    | MissingCommodity       // Account.commodity read while unset
    | MissingGuid            // _guid_eq against an object without a string guid
    | MissingAccount         // Split.account read while unset
    | MissingTransaction     // Split.transaction read while unset
    | UnknownAccountType     // a counterpart account type the report does not handle
    | DividendImbalance      // dividends differ from value + fees by 1e-4 or more
    | TransferAfterCosts     // a depot transfer after costs were already booked
    | NoPrice                // the latest share value of a commodity with no prices
    | DuplicateSymbol        // two quoted commodities with the same mnemonic
    | NoUsdCurrency          // no USD currency commodity in the book
    | NoGrandparent          // a ledger account name of an account with fewer than two ancestors
    | ParentCycle            // a parent walk longer than the account table: unbounded recursion
    | NoSuchAttribute        // an assignment to a field a slotted dataclass does not declare

  /** Success value or the error that aborted the computation; usable with `:-`. */
  datatype Result<+T> = Ok(value: T) | Err(error: Error) {

    predicate IsFailure() {
      Err?
    }

    function PropagateFailure<U>(): Result<U>
      requires Err?
    {
      Err(error)
    }

    function Extract(): T
      requires Ok?
    {
      value
    }
  }

  function Abs(x: real): (r: real)
    ensures r >= 0.0
    ensures r == x || r == -x
  {
    if x < 0.0 then -x else x
  }
}

=== FILE: quotes.dfy ===
/**
 The decisions of get_quotes.py: which commodities get a quote, which of
 them are fresh enough to skip, and whether a fetched quote is stored.

 The clock (`datetime.now`) and the downloaded quote are parameters: `today`
 is a day number as `Day` counts them, and a quote is only its time. The
 download and the database write are not part of this model.
 */
module Quotes {
  import opened Outcomes
  import opened Seqs
  import opened Book

  /** The calendar day of a stored price. */
  function PriceDay(b: Book, p: Guid): int {
    Day(PriceOr(b, p).date)
  }

  /**
   get_quotes.py:72-76: the first price, in list order, dated on `day`; none
   when no price falls on that day.
   */
  function PriceOnDay(b: Book, prices: seq<Guid>, day: int): (r: Option<Guid>)
    ensures r.None? <==> forall i :: 0 <= i < |prices| ==> PriceDay(b, prices[i]) != day
    ensures r.Some? ==> exists i :: 0 <= i < |prices| && prices[i] == r.value && PriceDay(b, prices[i]) == day
                                    && forall j :: 0 <= j < i ==> PriceDay(b, prices[j]) != day
    decreases |prices|
  {
    if prices == [] then None
    else if PriceDay(b, prices[0]) == day then Some(prices[0])
    else
      var r := PriceOnDay(b, prices[1..], day);
      assert forall i :: 1 <= i < |prices| ==> prices[i] == prices[1..][i - 1];
      r
  }

  /**
   get_quotes.py:79-84: the latest calendar day among the prices; none for
   an empty list.
   */
  function LatestDate(b: Book, prices: seq<Guid>): (r: Option<int>)
    ensures r.None? <==> prices == []
    ensures r.Some? ==> (exists i :: 0 <= i < |prices| && PriceDay(b, prices[i]) == r.value)
                        && forall i :: 0 <= i < |prices| ==> PriceDay(b, prices[i]) <= r.value
    decreases |prices|
  {
    if prices == [] then None
    else
      var latest := LatestDate(b, prices[..|prices| - 1]);
      var d := PriceDay(b, prices[|prices| - 1]);
      assert forall i :: 0 <= i < |prices| - 1 ==> prices[..|prices| - 1][i] == prices[i];
      if latest.None? || d > latest.value then Some(d) else latest
  }

  /** The latest day does not depend on the order of the list. */
  lemma LatestDateOrderFree(b: Book, xs: seq<Guid>, ys: seq<Guid>)
    requires multiset(xs) == multiset(ys)
    ensures LatestDate(b, xs) == LatestDate(b, ys)
  {
    var lx := LatestDate(b, xs);
    var ly := LatestDate(b, ys);
    assert |xs| == |multiset(xs)| == |multiset(ys)| == |ys|;
    if lx.Some? && ly.Some? {
      var i :| 0 <= i < |xs| && PriceDay(b, xs[i]) == lx.value;
      var j :| 0 <= j < |ys| && PriceDay(b, ys[j]) == ly.value;
      assert xs[i] in multiset(ys);
      var i' :| 0 <= i' < |ys| && ys[i'] == xs[i];
      assert ys[j] in multiset(xs);
      var j' :| 0 <= j' < |xs| && xs[j'] == ys[j];
      assert lx.value <= ly.value by {
        assert PriceDay(b, ys[i']) <= ly.value;
      }
      assert ly.value <= lx.value by {
        assert PriceDay(b, xs[j']) <= lx.value;
      }
    }
  }

  lemma DayMonotone(s: Date, t: Date)
    requires s <= t
    ensures Day(s) <= Day(t)
  {
  }

  /** On a list sorted by date, as the loader leaves it, the latest day is the last price's. */
  lemma LatestDateOfSorted(b: Book, prices: seq<Guid>)
    requires prices != [] && SortedBy(prices, PriceDateKey(b.prices))
    ensures LatestDate(b, prices) == Some(PriceDay(b, prices[|prices| - 1]))
  {
    var key := PriceDateKey(b.prices);
    var last := prices[|prices| - 1];
    forall i | 0 <= i < |prices|
      ensures PriceDay(b, prices[i]) <= PriceDay(b, last)
    {
      if i < |prices| - 1 {
        assert key(prices[i]) <= key(last);
      }
      DayMonotone(PriceOr(b, prices[i]).date, PriceOr(b, last).date);
    }
  }

  /** The namespace GnuCash files currencies under. */
  const CurrencyNamespace: string := "CURRENCY"

  predicate IsCurrency(b: Book, c: Guid, mnemonic: string) {
    CommodityOr(b, c).namespace == CurrencyNamespace && CommodityOr(b, c).mnemonic == mnemonic
  }

  /**
   get_quotes.py:87-91: the first commodity, in table order, that is the
   currency `mnemonic`; none when the book has no such currency.
   */
  function FirstCurrency(b: Book, order: seq<Guid>, mnemonic: string): (r: Option<Guid>)
    ensures r.None? <==> forall i :: 0 <= i < |order| ==> !IsCurrency(b, order[i], mnemonic)
    ensures r.Some? ==> exists i :: 0 <= i < |order| && order[i] == r.value && IsCurrency(b, order[i], mnemonic)
                                    && forall j :: 0 <= j < i ==> !IsCurrency(b, order[j], mnemonic)
    decreases |order|
  {
    if order == [] then None
    else if IsCurrency(b, order[0], mnemonic) then Some(order[0])
    else
      var r := FirstCurrency(b, order[1..], mnemonic);
      assert forall i :: 1 <= i < |order| ==> order[i] == order[1..][i - 1];
      r
  }

  function GetCurrency(b: Book, mnemonic: string): (r: Option<Guid>)
    ensures r.None? <==> forall c :: c in b.commodities.order ==> !IsCurrency(b, c, mnemonic)
    ensures r.Some? ==> r.value in b.commodities.order && IsCurrency(b, r.value, mnemonic)
  {
    FirstCurrency(b, b.commodities.order, mnemonic)
  }

  /** The quote sources fetched (line 109). */
  predicate Quoted(b: Book, c: Guid) {
    CommodityOr(b, c).quoteFlag
    && (CommodityOr(b, c).quoteSource == "yahoo" || CommodityOr(b, c).quoteSource == "yahoo_json")
  }

  /** The mnemonics of the quoted commodities of `order`, in order. */
  function QuotedMnemonics(b: Book, order: seq<Guid>): seq<string>
    decreases |order|
  {
    if order == [] then []
    else
      var c := order[|order| - 1];
      QuotedMnemonics(b, order[..|order| - 1]) + (if Quoted(b, c) then [CommodityOr(b, c).mnemonic] else [])
  }

  ghost predicate Distinct<T>(xs: seq<T>) {
    forall i, j :: 0 <= i < j < |xs| ==> xs[i] != xs[j]
  }

  /** The symbols to fetch and the commodity each stands for (`symbols`, `comms`). */
  datatype Selection = Selection(symbols: seq<string>, comms: map<string, Guid>)

  /**
   get_quotes.py:106-112: the quoted commodities, in table order; a
   mnemonic met twice fails the duplicate assertion.
   */
  function SelectOver(b: Book, order: seq<Guid>): (r: Result<Selection>)
    ensures r.Ok? ==> r.value.comms.Keys == set s | s in r.value.symbols
    ensures r.Ok? ==> forall s :: s in r.value.comms ==>
                        r.value.comms[s] in order && Quoted(b, r.value.comms[s])
                        && CommodityOr(b, r.value.comms[s]).mnemonic == s
    decreases |order|
  {
    if order == [] then Ok(Selection([], map[]))
    else
      var sel :- SelectOver(b, order[..|order| - 1]);
      var c := order[|order| - 1];
      if !Quoted(b, c) then Ok(sel)
      else
        var m := CommodityOr(b, c).mnemonic;
        if m in sel.comms then Err(DuplicateSymbol)
        else Ok(Selection(sel.symbols + [m], sel.comms[m := c]))
  }

  /**
   The selection succeeds exactly when the quoted mnemonics are distinct,
   and its symbols are then those mnemonics in table order.
   */
  lemma {:induction false} SelectOverSymbols(b: Book, order: seq<Guid>)
    ensures SelectOver(b, order).Ok? <==> Distinct(QuotedMnemonics(b, order))
    ensures SelectOver(b, order).Ok? ==> SelectOver(b, order).value.symbols == QuotedMnemonics(b, order)
    decreases |order|
  {
    if order != [] {
      var init := order[..|order| - 1];
      var c := order[|order| - 1];
      SelectOverSymbols(b, init);
      var qs := QuotedMnemonics(b, init);
      if Quoted(b, c) {
        var m := CommodityOr(b, c).mnemonic;
        DistinctAppend(qs, m);
        if SelectOver(b, init).Ok? {
          assert m in SelectOver(b, init).value.comms <==> m in qs;
        }
      } else {
        assert QuotedMnemonics(b, order) == qs + [] == qs;
      }
    }
  }

  lemma DistinctAppend<T>(xs: seq<T>, x: T)
    ensures Distinct(xs + [x]) <==> Distinct(xs) && x !in xs
  {
    var ys := xs + [x];
    if Distinct(ys) {
      assert forall i, j :: 0 <= i < j < |xs| ==> xs[i] == ys[i] && xs[j] == ys[j];
      forall i | 0 <= i < |xs|
        ensures xs[i] != x
      {
        assert ys[i] == xs[i] && ys[|xs|] == x;
      }
    }
  }

  function SelectSymbols(b: Book): (r: Result<Selection>)
    ensures r.Ok? ==> forall s :: s in r.value.comms ==> Quoted(b, r.value.comms[s])
  {
    SelectOver(b, b.commodities.order)
  }

  /** The currency every new price is booked in (line 114). */
  const QuoteCurrency: string := "USD"

  /** get_quotes.py:123-128: the latest stored price is at most 3 days old. */
  predicate IsFresh(latest: Option<int>, today: int) {
    latest.Some? && today - latest.value <= 3
  }

  /**
   get_quotes.py:102-128: the symbols selected for fetching, in order, after
   the duplicate check, the USD currency check and the freshness skip; an
   empty selection stops the program with nothing to fetch.
   */
  function RefreshPlan(b: Book, today: int): (r: Result<seq<string>>)
    ensures r.Ok? ==> GetCurrency(b, QuoteCurrency).Some? && SelectSymbols(b).Ok?
    ensures r.Ok? ==> forall s :: s in r.value <==>
                        s in SelectSymbols(b).value.symbols
                        && !IsFresh(LatestDate(b, CommodityOr(b, SelectSymbols(b).value.comms[s]).prices), today)
  {
    var sel :- SelectSymbols(b);
    if GetCurrency(b, QuoteCurrency).None? then Err(NoUsdCurrency)
    else Ok(Stale(b, sel, sel.symbols, today))
  }

  /** The symbols of `symbols` whose commodity has no price from the last 3 days. */
  function Stale(b: Book, sel: Selection, symbols: seq<string>, today: int): (r: seq<string>)
    requires forall s :: s in symbols ==> s in sel.comms
    ensures forall s :: s in r <==> s in symbols && !IsFresh(LatestDate(b, CommodityOr(b, sel.comms[s]).prices), today)
    decreases |symbols|
  {
    if symbols == [] then []
    else
      var s := symbols[|symbols| - 1];
      Stale(b, sel, symbols[..|symbols| - 1], today)
        + (if IsFresh(LatestDate(b, CommodityOr(b, sel.comms[s]).prices), today) then [] else [s])
  }

  /** What happens to one symbol: skipped as fresh, fetched but already stored, or stored. */
  datatype Action = Fresh | AlreadyStored | Store

  /**
   get_quotes.py:121-153 for one commodity: the quote fetched at `quote` is
   stored only when the commodity's prices are not fresh and none of them
   falls on the quote's day.
   */
  function Decide(b: Book, prices: seq<Guid>, today: int, quote: Date): (r: Action)
    ensures r == Store <==> (!IsFresh(LatestDate(b, prices), today)
                             && forall p :: p in prices ==> PriceDay(b, p) != Day(quote))
  {
    if IsFresh(LatestDate(b, prices), today) then Fresh
    else if PriceOnDay(b, prices, Day(quote)).Some? then AlreadyStored
    else Store
  }

  /**
   Storing a quote makes the same quote be skipped next time: once a price
   dated at the quote's time is in the list, it is never stored again.
   */
  lemma DecideStoresOnce(b: Book, prices: seq<Guid>, p: Guid, today: int, quote: Date)
    requires PriceOr(b, p).date == quote
    ensures Decide(b, prices + [p], today, quote) != Store
  {
    assert p in prices + [p];
  }
}

=== FILE: seqs.dfy ===
/**
 Sequence helpers: the stable sort by an integer key that Python's
 `list.sort(key=...)` performs, with its ordering, permutation and stability
 guarantees.
 */
module Seqs {

  /** `xs` is in ascending order of `key`. */
  ghost predicate SortedBy<T>(xs: seq<T>, key: T -> int) {
    forall i, j :: 0 <= i < j < |xs| ==> key(xs[i]) <= key(xs[j])
  }

  /** The elements of `xs` whose key is `k`, in their order in `xs`. */
  function WithKey<T>(xs: seq<T>, key: T -> int, k: int): seq<T> {
    if xs == [] then []
    else (if key(xs[0]) == k then [xs[0]] else []) + WithKey(xs[1..], key, k)
  }

  lemma {:induction false} WithKeyAppend<T>(xs: seq<T>, ys: seq<T>, key: T -> int, k: int)
    ensures WithKey(xs + ys, key, k) == WithKey(xs, key, k) + WithKey(ys, key, k)
  {
    if xs == [] {
      assert xs + ys == ys;
    } else {
      var zs := xs + ys;
      var head := if key(xs[0]) == k then [xs[0]] else [];
      assert zs[0] == xs[0];
      assert zs[1..] == xs[1..] + ys;
      assert WithKey(zs, key, k) == head + WithKey(xs[1..] + ys, key, k);
      WithKeyAppend(xs[1..], ys, key, k);
      assert WithKey(xs, key, k) == head + WithKey(xs[1..], key, k);
      ConcatAssoc(head, WithKey(xs[1..], key, k), WithKey(ys, key, k));
    }
  }

  lemma {:induction false} WithKeyNone<T>(xs: seq<T>, key: T -> int, k: int)
    requires forall i :: 0 <= i < |xs| ==> key(xs[i]) != k
    ensures WithKey(xs, key, k) == []
  {
    if xs != [] {
      WithKeyNone(xs[1..], key, k);
    }
  }

  lemma ConcatAssoc<T>(a: seq<T>, b: seq<T>, c: seq<T>)
    ensures a + (b + c) == (a + b) + c
  {
  }

  /** Inserts `x` into the sorted `ys` after every element whose key is not larger. */
  function Insert<T>(x: T, ys: seq<T>, key: T -> int): (r: seq<T>)
    requires SortedBy(ys, key)
    ensures SortedBy(r, key)
    ensures multiset(r) == multiset(ys) + multiset{x}
  {
    if ys == [] then
      [x]
    else if key(x) < key(ys[0]) then
      [x] + ys
    else
      var rest := Insert(x, ys[1..], key);
      InsertAfterHead(x, ys, rest, key);
      [ys[0]] + rest
  }

  /** Putting the head of `ys` in front of `x` inserted into the tail keeps order and contents. */
  lemma InsertAfterHead<T>(x: T, ys: seq<T>, rest: seq<T>, key: T -> int)
    requires SortedBy(ys, key) && ys != [] && key(ys[0]) <= key(x)
    requires SortedBy(rest, key) && multiset(rest) == multiset(ys[1..]) + multiset{x}
    ensures SortedBy([ys[0]] + rest, key)
    ensures multiset([ys[0]] + rest) == multiset(ys) + multiset{x}
  {
    assert ys == [ys[0]] + ys[1..];
    assert multiset(ys) == multiset{ys[0]} + multiset(ys[1..]);
    forall j | 0 <= j < |rest|
      ensures key(ys[0]) <= key(rest[j])
    {
      assert rest[j] in multiset(rest);
      if rest[j] != x {
        assert rest[j] in multiset(ys[1..]);
        var i :| 0 <= i < |ys[1..]| && ys[1..][i] == rest[j];
        assert ys[i + 1] == rest[j];
      }
    }
    var r := [ys[0]] + rest;
    forall i, j | 0 <= i < j < |r|
      ensures key(r[i]) <= key(r[j])
    {
      assert r[j] == rest[j - 1];
      if i > 0 {
        assert r[i] == rest[i - 1];
      }
    }
  }

  /** `x` lands after every element of `ys` that has its key. */
  lemma {:induction false} InsertStable<T>(x: T, ys: seq<T>, key: T -> int, k: int)
    requires SortedBy(ys, key)
    ensures WithKey(Insert(x, ys, key), key, k) == WithKey(ys, key, k) + (if key(x) == k then [x] else [])
  {
    if ys == [] {
      assert Insert(x, ys, key) == [x];
      assert [x][1..] == [];
    } else if key(x) < key(ys[0]) {
      InsertFrontStable(x, ys, key, k);
    } else {
      var tail := ys[1..];
      assert SortedBy(tail, key) by {
        forall i, j | 0 <= i < j < |tail|
          ensures key(tail[i]) <= key(tail[j])
        {
          assert tail[i] == ys[i + 1] && tail[j] == ys[j + 1];
        }
      }
      InsertStable(x, tail, key, k);
      InsertLaterStable(x, ys, key, k);
    }
  }

  /** `x` goes in front: no element of `ys` can share its key. */
  lemma InsertFrontStable<T>(x: T, ys: seq<T>, key: T -> int, k: int)
    requires SortedBy(ys, key) && ys != [] && key(x) < key(ys[0])
    ensures WithKey(Insert(x, ys, key), key, k) == WithKey(ys, key, k) + (if key(x) == k then [x] else [])
  {
    var r := [x] + ys;
    assert Insert(x, ys, key) == r;
    assert r[0] == x && r[1..] == ys;
    assert WithKey(r, key, k) == (if key(x) == k then [x] else []) + WithKey(ys, key, k);
    if key(x) == k {
      assert forall i :: 0 <= i < |ys| ==> key(ys[i]) != k by {
        forall i | 0 <= i < |ys|
          ensures key(ys[i]) != k
        {
          assert key(ys[0]) <= key(ys[i]);
        }
      }
      WithKeyNone(ys, key, k);
    }
  }

  /** `x` goes after the head of `ys`: the head keeps its place in front. */
  lemma InsertLaterStable<T>(x: T, ys: seq<T>, key: T -> int, k: int)
    requires SortedBy(ys, key) && ys != [] && key(x) >= key(ys[0])
    requires SortedBy(ys[1..], key)
    requires WithKey(Insert(x, ys[1..], key), key, k) == WithKey(ys[1..], key, k) + (if key(x) == k then [x] else [])
    ensures WithKey(Insert(x, ys, key), key, k) == WithKey(ys, key, k) + (if key(x) == k then [x] else [])
  {
    var tail := ys[1..];
    var rest := Insert(x, tail, key);
    var r := [ys[0]] + rest;
    var head := if key(ys[0]) == k then [ys[0]] else [];
    assert Insert(x, ys, key) == r;
    assert r[0] == ys[0] && r[1..] == rest;
    assert WithKey(r, key, k) == head + WithKey(rest, key, k);
    assert WithKey(ys, key, k) == head + WithKey(tail, key, k);
    ConcatAssoc(head, WithKey(tail, key, k), if key(x) == k then [x] else []);
  }

  /**
   Stable sort by `key`: the result is ordered and is a permutation of the
   input; `SortByStable` adds that equal keys keep their input order.
   */
  function SortBy<T>(xs: seq<T>, key: T -> int): (r: seq<T>)
    ensures SortedBy(r, key)
    ensures multiset(r) == multiset(xs)
  {
    if xs == [] then
      []
    else
      assert xs == xs[..|xs| - 1] + [xs[|xs| - 1]];
      Insert(xs[|xs| - 1], SortBy(xs[..|xs| - 1], key), key)
  }

  lemma {:induction false} SortByStable<T>(xs: seq<T>, key: T -> int, k: int)
    ensures WithKey(SortBy(xs, key), key, k) == WithKey(xs, key, k)
  {
    if xs != [] {
      var init := xs[..|xs| - 1];
      var last := xs[|xs| - 1];
      assert xs == init + [last];
      SortByStable(init, key, k);
      InsertStable(last, SortBy(init, key), key, k);
      WithKeyAppend(init, [last], key, k);
    }
  }

  lemma SortByLength<T>(xs: seq<T>, key: T -> int)
    ensures |SortBy(xs, key)| == |xs|
  {
    assert |multiset(SortBy(xs, key))| == |multiset(xs)|;
  }

  lemma SortByMembers<T>(xs: seq<T>, key: T -> int, x: T)
    ensures x in SortBy(xs, key) <==> x in xs
  {
    assert x in multiset(SortBy(xs, key)) <==> x in multiset(xs);
  }
}

=== FILE: stock_report.dfy ===
/**
 The investment report of stockreport.py: per stock or mutual-fund account,
 the dividends booked against it, the costs and fees of its buys and sells,
 its share count and, for an open position, the value of the shares at the
 latest known price; summed into realized and unrealized gains.

 Splits are named by guid and read through the book's tables. Python's
 `ssplit is split` and `ssplit.account == acc` are guid comparisons here.
 Amounts are exact reals; the report's printed lines are left out, only the
 numbers they show are modelled.
 */
module StockReport {
  import opened Outcomes
  import opened Seqs
  import opened Book

  // ---------------------------------------------------------------------
  // Split legs

  /** The split's account has type `k`. */
  predicate HasKind(b: Book, x: Guid, k: string) {
    SplitOr(b, x).account.Some? && AccountOr(b, SplitOr(b, x).account.value).kind == Some(k)
  }

  /** Sum of |value| over the legs of `xs` other than `split` whose account has type `k`. */
  function KindAbsSum(b: Book, split: Guid, xs: seq<Guid>, k: string): real
    decreases |xs|
  {
    if xs == [] then 0.0
    else
      var x := xs[|xs| - 1];
      KindAbsSum(b, split, xs[..|xs| - 1], k)
        + (if x != split && HasKind(b, x, k) then Abs(SplitOr(b, x).value) else 0.0)
  }

  /** Sum of the values of the legs of `xs` other than `split`. */
  function OtherValueSum(b: Book, split: Guid, xs: seq<Guid>): real
    decreases |xs|
  {
    if xs == [] then 0.0
    else
      var x := xs[|xs| - 1];
      OtherValueSum(b, split, xs[..|xs| - 1]) + (if x != split then SplitOr(b, x).value else 0.0)
  }

  /** Sum of the quantities of the splits `xs`. */
  function QuantitySum(b: Book, xs: seq<Guid>): real
    decreases |xs|
  {
    if xs == [] then 0.0 else QuantitySum(b, xs[..|xs| - 1]) + SplitOr(b, xs[|xs| - 1]).quantity
  }

  /** The number of splits in `xs` with a zero quantity: the dividend bookings. */
  function ZeroQuantityCount(b: Book, xs: seq<Guid>): nat
    decreases |xs|
  {
    if xs == [] then 0
    else ZeroQuantityCount(b, xs[..|xs| - 1]) + (if SplitOr(b, xs[|xs| - 1]).quantity == 0.0 then 1 else 0)
  }

  // ---------------------------------------------------------------------
  // calc_dividends

  datatype Income = Income(value: real, fees: real, dividends: real)

  /**
   stockreport.py:33-48: the other legs of a dividend transaction; expense
   legs are fees, bank legs the paid-out value, income legs the dividend, and
   any other account type aborts.
   */
  function DividendParts(b: Book, split: Guid, xs: seq<Guid>): (r: Result<Income>)
    ensures r.Ok? ==> r.value.value >= 0.0 && r.value.fees >= 0.0 && r.value.dividends >= 0.0
    decreases |xs|
  {
    if xs == [] then Ok(Income(0.0, 0.0, 0.0))
    else
      var acc :- DividendParts(b, split, xs[..|xs| - 1]);
      var x := xs[|xs| - 1];
      if x == split then Ok(acc)
      else if SplitOr(b, x).account.None? then Err(MissingAccount)
      else
        var kind := AccountOr(b, SplitOr(b, x).account.value).kind;
        var v := Abs(SplitOr(b, x).value);
        if kind == Some("EXPENSE") then Ok(acc.(fees := acc.fees + v))
        else if kind == Some("BANK") then Ok(acc.(value := acc.value + v))
        else if kind == Some("INCOME") then Ok(acc.(dividends := acc.dividends + v))
        else Err(UnknownAccountType)
  }

  /** Every leg other than `split` is an expense, bank or income leg. */
  predicate DividendLeg(b: Book, x: Guid) {
    HasKind(b, x, "EXPENSE") || HasKind(b, x, "BANK") || HasKind(b, x, "INCOME")
  }

  ghost predicate DividendLegs(b: Book, split: Guid, xs: seq<Guid>) {
    forall x :: x in xs && x != split ==> DividendLeg(b, x)
  }

  /**
   The legs are classified without error exactly when each is an expense,
   bank or income leg, and then the three sums are the per-type sums of |value|.
   */
  lemma {:induction false} DividendPartsSums(b: Book, split: Guid, xs: seq<Guid>)
    ensures DividendParts(b, split, xs).Ok? <==> DividendLegs(b, split, xs)
    ensures DividendParts(b, split, xs).Ok? ==>
              && DividendParts(b, split, xs).value.value == KindAbsSum(b, split, xs, "BANK")
              && DividendParts(b, split, xs).value.fees == KindAbsSum(b, split, xs, "EXPENSE")
              && DividendParts(b, split, xs).value.dividends == KindAbsSum(b, split, xs, "INCOME")
    decreases |xs|
  {
    if xs != [] {
      var init := xs[..|xs| - 1];
      var x := xs[|xs| - 1];
      DividendPartsSums(b, split, init);
      assert xs == init + [x];
      assert DividendLegs(b, split, xs) <==> DividendLegs(b, split, init) && (x == split || DividendLeg(b, x));
    }
  }

  datatype DividendTotals = DividendTotals(count: nat, value: real, fees: real, dividends: real)

  /**
   stockreport.py:26-52: every split of the account is read through its
   transaction; the zero-quantity ones are dividend bookings, whose other
   legs are summed and whose transaction must have a currency (line 54).
   */
  function DividendTotalsOf(b: Book, splits: seq<Guid>): (r: Result<DividendTotals>)
    ensures r.Ok? ==> r.value.value >= 0.0 && r.value.fees >= 0.0 && r.value.dividends >= 0.0
    ensures r.Ok? ==> r.value.count <= |splits|
    decreases |splits|
  {
    if splits == [] then Ok(DividendTotals(0, 0.0, 0.0, 0.0))
    else
      var t :- DividendTotalsOf(b, splits[..|splits| - 1]);
      var s := splits[|splits| - 1];
      var sp := SplitOr(b, s);
      if sp.transaction.None? then Err(MissingTransaction)
      else if sp.quantity != 0.0 then Ok(t)
      else
        var tx := TransactionOr(b, sp.transaction.value);
        var d :- DividendParts(b, s, tx.splits);
        if tx.currency.None? then Err(MissingCurrency)
        else Ok(DividendTotals(t.count + 1, t.value + d.value, t.fees + d.fees, t.dividends + d.dividends))
  }

  /** The dividend count is the number of zero-quantity splits of the account. */
  lemma {:induction false} DividendCountIsZeroQuantityCount(b: Book, splits: seq<Guid>)
    requires DividendTotalsOf(b, splits).Ok?
    ensures DividendTotalsOf(b, splits).value.count == ZeroQuantityCount(b, splits)
    decreases |splits|
  {
    if splits != [] {
      DividendCountIsZeroQuantityCount(b, splits[..|splits| - 1]);
    }
  }

  datatype Dividends = Dividends(count: nat, value: real, fees: real)

  /**
   stockreport.py:20-57: the dividend count, the paid-out value and the fees
   of an account; the dividends must match value plus fees to within 1e-4.
   */
  function CalcDividends(b: Book, acc: Guid): (r: Result<Dividends>)
    ensures r.Ok? ==> r.value.value >= 0.0 && r.value.fees >= 0.0
    ensures r.Ok? ==> r.value.count <= |AccountOr(b, acc).splits|
  {
    var t :- DividendTotalsOf(b, AccountOr(b, acc).splits);
    if Abs(t.value + t.fees - t.dividends) < 0.0001 then Ok(Dividends(t.count, t.value, t.fees))
    else Err(DividendImbalance)
  }

  /**
   A successful dividend calculation counts the account's zero-quantity
   splits and reports amounts whose dividends balance them.
   */
  lemma CalcDividendsCounts(b: Book, acc: Guid)
    requires CalcDividends(b, acc).Ok?
    ensures CalcDividends(b, acc).value.count == ZeroQuantityCount(b, AccountOr(b, acc).splits)
    ensures var t := DividendTotalsOf(b, AccountOr(b, acc).splits).value;
            Abs(CalcDividends(b, acc).value.value + CalcDividends(b, acc).value.fees - t.dividends) < 0.0001
  {
    DividendCountIsZeroQuantityCount(b, AccountOr(b, acc).splits);
  }

  /**
   Sum over the dividend bookings of `splits` (the zero-quantity splits with
   a transaction) of |value| of their transaction's other legs of type `k`.
   */
  function DividendKindSum(b: Book, splits: seq<Guid>, k: string): real
    decreases |splits|
  {
    if splits == [] then 0.0
    else
      var s := splits[|splits| - 1];
      var sp := SplitOr(b, s);
      DividendKindSum(b, splits[..|splits| - 1], k)
        + (if sp.transaction.Some? && sp.quantity == 0.0
           then KindAbsSum(b, s, TransactionOr(b, sp.transaction.value).splits, k) else 0.0)
  }

  /**
   A split the dividend pass reads without error: it has a transaction, and
   when it is a dividend booking, the other legs are expense, bank or income
   legs and the transaction has a currency.
   */
  ghost predicate DividendBookable(b: Book, s: Guid) {
    && SplitOr(b, s).transaction.Some?
    && (SplitOr(b, s).quantity == 0.0 ==>
          var tx := TransactionOr(b, SplitOr(b, s).transaction.value);
          DividendLegs(b, s, tx.splits) && tx.currency.Some?)
  }

  /**
   The dividend pass succeeds exactly when every split is bookable, and then
   value, fees and dividends are the bank, expense and income sums over the
   dividend bookings.
   */
  lemma {:induction false} DividendTotalsSums(b: Book, splits: seq<Guid>)
    ensures DividendTotalsOf(b, splits).Ok? <==> forall s :: s in splits ==> DividendBookable(b, s)
    ensures DividendTotalsOf(b, splits).Ok? ==>
              && DividendTotalsOf(b, splits).value.value == DividendKindSum(b, splits, "BANK")
              && DividendTotalsOf(b, splits).value.fees == DividendKindSum(b, splits, "EXPENSE")
              && DividendTotalsOf(b, splits).value.dividends == DividendKindSum(b, splits, "INCOME")
    decreases |splits|
  {
    if splits != [] {
      var init := splits[..|splits| - 1];
      var s := splits[|splits| - 1];
      DividendTotalsSums(b, init);
      assert splits == init + [s];
      assert (forall x :: x in splits ==> DividendBookable(b, x))
             <==> (forall x :: x in init ==> DividendBookable(b, x)) && DividendBookable(b, s);
      var sp := SplitOr(b, s);
      if sp.transaction.Some? {
        DividendPartsSums(b, s, TransactionOr(b, sp.transaction.value).splits);
      }
    }
  }

  /**
   stockreport.py:20-57 as a whole: the calculation succeeds exactly when
   every split is bookable and the income sum is within 1e-4 of bank plus
   expense sums, and then it reports those two sums.
   */
  lemma CalcDividendsSums(b: Book, acc: Guid)
    ensures var splits := AccountOr(b, acc).splits;
            CalcDividends(b, acc).Ok? <==>
              && (forall s :: s in splits ==> DividendBookable(b, s))
              && Abs(DividendKindSum(b, splits, "BANK") + DividendKindSum(b, splits, "EXPENSE")
                     - DividendKindSum(b, splits, "INCOME")) < 0.0001
    ensures var splits := AccountOr(b, acc).splits;
            CalcDividends(b, acc).Ok? ==>
              && CalcDividends(b, acc).value.value == DividendKindSum(b, splits, "BANK")
              && CalcDividends(b, acc).value.fees == DividendKindSum(b, splits, "EXPENSE")
  {
    DividendTotalsSums(b, AccountOr(b, acc).splits);
  }

  // ---------------------------------------------------------------------
  // calc_buy_sell

  datatype Trade = Trade(costs: real, fees: real)

  /**
   stockreport.py:77-101: the other legs of a buy or sell with a non-zero
   value. Expense legs are fees; bank and asset legs are costs; a stock or
   mutual-fund leg on the same account is a share split and adds nothing; one
   on another account is a depot transfer, booked as costs and only allowed
   while no costs have been booked; any other account type aborts.
   */
  function TradeParts(b: Book, acc: Guid, split: Guid, xs: seq<Guid>): (r: Result<Trade>)
    ensures r.Ok? ==> r.value.fees >= 0.0
    decreases |xs|
  {
    if xs == [] then Ok(Trade(0.0, 0.0))
    else
      var t :- TradeParts(b, acc, split, xs[..|xs| - 1]);
      var x := xs[|xs| - 1];
      var sp := SplitOr(b, x);
      if x == split || sp.value == 0.0 then Ok(t)
      else if sp.account.None? then Err(MissingAccount)
      else
        var kind := AccountOr(b, sp.account.value).kind;
        if kind == Some("EXPENSE") then Ok(t.(fees := t.fees + Abs(sp.value)))
        else if kind == Some("BANK") || kind == Some("ASSET") then Ok(t.(costs := t.costs - sp.value))
        else if kind == Some("STOCK") || kind == Some("MUTUAL") then
          if sp.account.value == acc then Ok(t)
          else if t.costs != 0.0 then Err(TransferAfterCosts)
          else Ok(t.(costs := t.costs - sp.value))
        else Err(UnknownAccountType)
  }

  /** No leg other than `split` is a non-zero leg on the traded account itself. */
  ghost predicate NoShareSplitLegs(b: Book, acc: Guid, split: Guid, xs: seq<Guid>) {
    forall x :: x in xs && x != split && SplitOr(b, x).value != 0.0 ==> SplitOr(b, x).account != Some(acc)
  }

  /** Fees are booked as positive expense amounts. */
  ghost predicate ExpensesNonNegative(b: Book, split: Guid, xs: seq<Guid>) {
    forall x :: x in xs && x != split && HasKind(b, x, "EXPENSE") ==> SplitOr(b, x).value >= 0.0
  }

  /**
   Without share-split legs and with non-negative fee bookings, the costs are
   the fees minus the value of all other legs.
   */
  lemma {:induction false} TradeCostsFromLegs(b: Book, acc: Guid, split: Guid, xs: seq<Guid>)
    requires TradeParts(b, acc, split, xs).Ok?
    requires NoShareSplitLegs(b, acc, split, xs) && ExpensesNonNegative(b, split, xs)
    ensures TradeParts(b, acc, split, xs).value.costs
            == TradeParts(b, acc, split, xs).value.fees - OtherValueSum(b, split, xs)
    decreases |xs|
  {
    if xs != [] {
      var init := xs[..|xs| - 1];
      var x := xs[|xs| - 1];
      assert xs == init + [x];
      assert NoShareSplitLegs(b, acc, split, init) && ExpensesNonNegative(b, split, init);
      TradeCostsFromLegs(b, acc, split, init);
    }
  }

  /** Sum of the values of the occurrences of `split` in `xs`. */
  function OwnValueSum(b: Book, split: Guid, xs: seq<Guid>): real
    decreases |xs|
  {
    if xs == [] then 0.0
    else
      var x := xs[|xs| - 1];
      OwnValueSum(b, split, xs[..|xs| - 1]) + (if x == split then SplitOr(b, x).value else 0.0)
  }

  /** The legs other than `split` and the `split` occurrences make up the whole value. */
  lemma {:induction false} ValueSumSplitsOff(b: Book, split: Guid, xs: seq<Guid>)
    ensures ValueSum(b, xs) == OtherValueSum(b, split, xs) + OwnValueSum(b, split, xs)
    decreases |xs|
  {
    if xs != [] {
      ValueSumSplitsOff(b, split, xs[..|xs| - 1]);
    }
  }

  /** The occurrences of a split listed `n` times add up to `n` times its value. */
  lemma {:induction false} OwnValueSumCount(b: Book, split: Guid, xs: seq<Guid>)
    ensures multiset(xs)[split] == 0 ==> OwnValueSum(b, split, xs) == 0.0
    ensures multiset(xs)[split] == 1 ==> OwnValueSum(b, split, xs) == SplitOr(b, split).value
    decreases |xs|
  {
    if xs != [] {
      var init := xs[..|xs| - 1];
      var x := xs[|xs| - 1];
      assert xs == init + [x];
      assert multiset(xs)[split] == multiset(init)[split] + (if x == split then 1 else 0);
      OwnValueSumCount(b, split, init);
    }
  }

  /**
   In a balanced transaction that lists the traded split once, a trade
   without share-split legs costs its own value plus its fees.
   */
  lemma TradeCostIsValuePlusFees(b: Book, acc: Guid, split: Guid, xs: seq<Guid>)
    requires TradeParts(b, acc, split, xs).Ok?
    requires NoShareSplitLegs(b, acc, split, xs) && ExpensesNonNegative(b, split, xs)
    requires multiset(xs)[split] == 1 && ValueSum(b, xs) == 0.0
    ensures TradeParts(b, acc, split, xs).value.costs
            == SplitOr(b, split).value + TradeParts(b, acc, split, xs).value.fees
  {
    TradeCostsFromLegs(b, acc, split, xs);
    ValueSumSplitsOff(b, split, xs);
    OwnValueSumCount(b, split, xs);
  }

  /** A leg the trade classification accepts: skipped, or on an account of a handled type. */
  predicate TradeLegKnown(b: Book, split: Guid, x: Guid) {
    || x == split || SplitOr(b, x).value == 0.0
    || HasKind(b, x, "EXPENSE") || HasKind(b, x, "BANK") || HasKind(b, x, "ASSET")
    || HasKind(b, x, "STOCK") || HasKind(b, x, "MUTUAL")
  }

  /** A depot transfer: a stock or mutual-fund leg on another account. */
  predicate IsTransfer(b: Book, acc: Guid, split: Guid, x: Guid) {
    Mover(b, split, x) && SplitOr(b, x).account != Some(acc)
  }

  /** A leg that books costs: a bank or asset leg, or a depot transfer. */
  predicate IsCostLeg(b: Book, acc: Guid, split: Guid, x: Guid) {
    || (x != split && SplitOr(b, x).value != 0.0 && (HasKind(b, x, "BANK") || HasKind(b, x, "ASSET")))
    || IsTransfer(b, acc, split, x)
  }

  /** The costs the legs `xs` book: minus the value of each cost leg. */
  function LegCosts(b: Book, acc: Guid, split: Guid, xs: seq<Guid>): real
    decreases |xs|
  {
    if xs == [] then 0.0
    else
      var x := xs[|xs| - 1];
      LegCosts(b, acc, split, xs[..|xs| - 1]) - (if IsCostLeg(b, acc, split, x) then SplitOr(b, x).value else 0.0)
  }

  /**
   The legs of a trade the classification accepts: every leg is known, and
   every depot transfer comes while the legs before it have booked no costs.
   */
  ghost predicate TradeLegsAccepted(b: Book, acc: Guid, split: Guid, xs: seq<Guid>) {
    && (forall i :: 0 <= i < |xs| ==> TradeLegKnown(b, split, xs[i]))
    && (forall i :: 0 <= i < |xs| && IsTransfer(b, acc, split, xs[i]) ==> LegCosts(b, acc, split, xs[..i]) == 0.0)
  }

  /**
   The classification succeeds exactly when its legs are accepted, and then
   the costs are those the cost legs book.
   */
  lemma {:induction false} TradePartsSucceeds(b: Book, acc: Guid, split: Guid, xs: seq<Guid>)
    ensures TradeParts(b, acc, split, xs).Ok? <==> TradeLegsAccepted(b, acc, split, xs)
    ensures TradeParts(b, acc, split, xs).Ok? ==>
              && TradeParts(b, acc, split, xs).value.costs == LegCosts(b, acc, split, xs)
              && TradeParts(b, acc, split, xs).value.fees == KindAbsSum(b, split, xs, "EXPENSE")
    decreases |xs|
  {
    if xs != [] {
      var init := xs[..|xs| - 1];
      var x := xs[|xs| - 1];
      TradePartsSucceeds(b, acc, split, init);
      assert xs == init + [x];
      TradeLegsAcceptedSnoc(b, acc, split, init, x);
    }
  }

  /** The legs with one more leg are accepted when the old ones are and the new one is. */
  lemma TradeLegsAcceptedSnoc(b: Book, acc: Guid, split: Guid, init: seq<Guid>, x: Guid)
    ensures TradeLegsAccepted(b, acc, split, init + [x]) <==>
              && TradeLegsAccepted(b, acc, split, init)
              && TradeLegKnown(b, split, x)
              && (IsTransfer(b, acc, split, x) ==> LegCosts(b, acc, split, init) == 0.0)
  {
    var xs := init + [x];
    forall i | 0 <= i < |init|
      ensures xs[i] == init[i] && xs[..i] == init[..i]
    {
    }
    assert xs[..|init|] == init;
  }

  /** The label printed for a trade (stockreport.py:76, 89, 94). */
  datatype Tag = Buy | Sell | ShareSplit | MoveIn | MoveOut

  /** A non-zero leg other than `split` on a stock or mutual-fund account. */
  predicate Mover(b: Book, split: Guid, x: Guid) {
    x != split && SplitOr(b, x).value != 0.0 && (HasKind(b, x, "STOCK") || HasKind(b, x, "MUTUAL"))
  }

  /**
   stockreport.py:71, 76, 85-95: a trade starts as a buy or a sell by the
   sign of its own quantity; every stock or mutual-fund leg relabels it, as
   a share split when it is on the traded account and as a move in or out
   otherwise, so the last such leg decides.
   */
  function TradeTag(b: Book, acc: Guid, split: Guid, xs: seq<Guid>, isBuy: bool): (r: Tag)
    ensures r == Buy || r == MoveIn ==> isBuy
    ensures r == Sell || r == MoveOut ==> !isBuy
    decreases |xs|
  {
    if xs == [] then (if isBuy then Buy else Sell)
    else
      var x := xs[|xs| - 1];
      if Mover(b, split, x) then
        if SplitOr(b, x).account == Some(acc) then ShareSplit else if isBuy then MoveIn else MoveOut
      else TradeTag(b, acc, split, xs[..|xs| - 1], isBuy)
  }

  /** The stock or mutual-fund legs of a trade, in order. */
  function Movers(b: Book, split: Guid, xs: seq<Guid>): (r: seq<Guid>)
    ensures forall x :: x in r <==> x in xs && Mover(b, split, x)
    decreases |xs|
  {
    if xs == [] then []
    else
      var x := xs[|xs| - 1];
      Movers(b, split, xs[..|xs| - 1]) + (if Mover(b, split, x) then [x] else [])
  }

  /**
   A trade keeps its buy or sell label exactly when it has no stock or
   mutual-fund leg; otherwise the last such leg makes it a share split when
   it is on the traded account and a move otherwise.
   */
  lemma {:induction false} TradeTagOfMovers(b: Book, acc: Guid, split: Guid, xs: seq<Guid>, isBuy: bool)
    ensures var ms := Movers(b, split, xs);
            && (ms == [] <==> TradeTag(b, acc, split, xs, isBuy) == (if isBuy then Buy else Sell))
            && (ms != [] ==> (TradeTag(b, acc, split, xs, isBuy) == ShareSplit
                              <==> SplitOr(b, ms[|ms| - 1]).account == Some(acc)))
    decreases |xs|
  {
    if xs != [] {
      TradeTagOfMovers(b, acc, split, xs[..|xs| - 1], isBuy);
    }
  }

  /** Without legs on the traded account a trade is never labelled a share split. */
  lemma {:induction false} NoShareSplitTag(b: Book, acc: Guid, split: Guid, xs: seq<Guid>, isBuy: bool)
    requires NoShareSplitLegs(b, acc, split, xs)
    ensures TradeTag(b, acc, split, xs, isBuy) != ShareSplit
    decreases |xs|
  {
    if xs != [] {
      var init := xs[..|xs| - 1];
      assert xs == init + [xs[|xs| - 1]];
      assert NoShareSplitLegs(b, acc, split, init);
      NoShareSplitTag(b, acc, split, init, isBuy);
    }
  }

  datatype Holdings = Holdings(costs: real, fees: real, shares: real)

  /**
   stockreport.py:63-108: the non-zero-quantity splits of the account are
   buys and sells; the transaction currency is read first (line 70), then
   the legs are classified; costs, fees and quantities are summed.
   */
  function TradeTotalsOf(b: Book, acc: Guid, splits: seq<Guid>): (r: Result<Holdings>)
    ensures r.Ok? ==> r.value.fees >= 0.0
    decreases |splits|
  {
    if splits == [] then Ok(Holdings(0.0, 0.0, 0.0))
    else
      var h :- TradeTotalsOf(b, acc, splits[..|splits| - 1]);
      var s := splits[|splits| - 1];
      var sp := SplitOr(b, s);
      if sp.transaction.None? then Err(MissingTransaction)
      else if sp.quantity == 0.0 then Ok(h)
      else
        var tx := TransactionOr(b, sp.transaction.value);
        if tx.currency.None? then Err(MissingCurrency)
        else
          var t :- TradeParts(b, acc, s, tx.splits);
          Ok(Holdings(h.costs + t.costs, h.fees + t.fees, h.shares + sp.quantity))
  }

  /** The share count is the sum of all quantities booked on the account. */
  lemma {:induction false} SharesAreQuantitySum(b: Book, acc: Guid, splits: seq<Guid>)
    requires TradeTotalsOf(b, acc, splits).Ok?
    ensures TradeTotalsOf(b, acc, splits).value.shares == QuantitySum(b, splits)
    decreases |splits|
  {
    if splits != [] {
      SharesAreQuantitySum(b, acc, splits[..|splits| - 1]);
    }
  }

  /** stockreport.py:59-109: costs, fees and share count of an account. */
  function CalcBuySell(b: Book, acc: Guid): (r: Result<Holdings>)
    ensures r.Ok? ==> r.value.fees >= 0.0
  {
    TradeTotalsOf(b, acc, AccountOr(b, acc).splits)
  }

  /**
   Sum over the trades of `splits` (the non-zero-quantity splits with a
   transaction) of the costs, or of the expense fees, their other legs book.
   */
  function TradeSum(b: Book, acc: Guid, splits: seq<Guid>, fees: bool): real
    decreases |splits|
  {
    if splits == [] then 0.0
    else
      var s := splits[|splits| - 1];
      var sp := SplitOr(b, s);
      TradeSum(b, acc, splits[..|splits| - 1], fees)
        + (if sp.transaction.None? || sp.quantity == 0.0 then 0.0
           else
             var xs := TransactionOr(b, sp.transaction.value).splits;
             if fees then KindAbsSum(b, s, xs, "EXPENSE") else LegCosts(b, acc, s, xs))
  }

  /** A successful pass books the costs and fees of the account's trades. */
  lemma {:induction false} TradeTotalsSums(b: Book, acc: Guid, splits: seq<Guid>)
    requires TradeTotalsOf(b, acc, splits).Ok?
    ensures TradeTotalsOf(b, acc, splits).value.costs == TradeSum(b, acc, splits, false)
    ensures TradeTotalsOf(b, acc, splits).value.fees == TradeSum(b, acc, splits, true)
    decreases |splits|
  {
    if splits != [] {
      var s := splits[|splits| - 1];
      var sp := SplitOr(b, s);
      TradeTotalsSums(b, acc, splits[..|splits| - 1]);
      if sp.transaction.Some? && sp.quantity != 0.0 {
        TradePartsSucceeds(b, acc, s, TransactionOr(b, sp.transaction.value).splits);
      }
    }
  }

  // ---------------------------------------------------------------------
  // get_latest_share_value

  datatype Valuation = Valuation(value: real, date: Date)

  /**
   stockreport.py:111-118: the shares valued at the last price of the
   account's commodity; no valuation (the source's NaN) when it has no prices.
   */
  function LatestShareValue(b: Book, acc: Guid, shares: real): (r: Result<Option<Valuation>>)
    ensures r.Ok? <==> AccountOr(b, acc).commodity.Some?
    ensures r.Ok? ==> (r.value.None? <==> CommodityOr(b, AccountOr(b, acc).commodity.value).prices == [])
    ensures r.Ok? && r.value.Some? ==>
              var prices := CommodityOr(b, AccountOr(b, acc).commodity.value).prices;
              var last := PriceOr(b, prices[|prices| - 1]);
              r.value.value == Valuation(shares * last.value, last.date)
  {
    match AccountOr(b, acc).commodity
    case None => Err(MissingCommodity)
    case Some(c) =>
      var prices := CommodityOr(b, c).prices;
      if |prices| == 0 then Ok(None)
      else
        var last := PriceOr(b, prices[|prices| - 1]);
        Ok(Some(Valuation(shares * last.value, last.date)))
  }

  /**
   With price lists sorted by date, as the loader leaves them, the valuation
   is the share count times the value of a price of the commodity, dated as
   that price, and no other price of the commodity is newer.
   */
  lemma LatestShareValueIsNewest(b: Book, acc: Guid, shares: real)
    requires PricesSorted(b)
    requires AccountOr(b, acc).commodity.Some? && AccountOr(b, acc).commodity.value in b.commodities.items
    requires LatestShareValue(b, acc, shares).Ok? && LatestShareValue(b, acc, shares).value.Some?
    ensures var v := LatestShareValue(b, acc, shares).value.value;
            var prices := CommodityOr(b, AccountOr(b, acc).commodity.value).prices;
            exists p :: p in prices && v == Valuation(shares * PriceOr(b, p).value, PriceOr(b, p).date)
    ensures var v := LatestShareValue(b, acc, shares).value.value;
            forall p :: p in CommodityOr(b, AccountOr(b, acc).commodity.value).prices ==> PriceOr(b, p).date <= v.date
  {
    var c := AccountOr(b, acc).commodity.value;
    var prices := CommodityOr(b, c).prices;
    assert SortedBy(prices, PriceDateKey(b.prices));
    assert LatestShareValue(b, acc, shares).value.value.date == PriceOr(b, prices[|prices| - 1]).date;
    NewestLast(b, prices);
  }

  /** In a date-sorted price list the last price is the newest. */
  lemma NewestLast(b: Book, prices: seq<Guid>)
    requires prices != [] && SortedBy(prices, PriceDateKey(b.prices))
    ensures forall p :: p in prices ==> PriceOr(b, p).date <= PriceOr(b, prices[|prices| - 1]).date
  {
    var key := PriceDateKey(b.prices);
    forall p | p in prices
      ensures PriceOr(b, p).date <= PriceOr(b, prices[|prices| - 1]).date
    {
      var i :| 0 <= i < |prices| && prices[i] == p;
      if i < |prices| - 1 {
        assert key(prices[i]) <= key(prices[|prices| - 1]);
      }
    }
  }

  // ---------------------------------------------------------------------
  // The report

  /** The account types the report covers (line 128). */
  predicate IsInvestment(b: Book, a: Guid) {
    AccountOr(b, a).kind == Some("STOCK") || AccountOr(b, a).kind == Some("MUTUAL")
  }

  datatype Totals = Totals(
    divValue: real, divFees: real, divCount: nat,
    realized: real, unrealized: real, fees: real)

  /**
   stockreport.py:127-151: per investment account, in table order, the
   dividends and the trades are summed; a closed position (zero shares)
   turns its costs into realized gain, an open one adds its valuation minus
   its costs to the unrealized gain. An open position without prices aborts
   when the NaN is unpacked at line 148.
   */
  function ReportOver(b: Book, accs: seq<Guid>): (r: Result<Totals>)
    ensures r.Ok? ==> r.value.divFees >= 0.0 && r.value.fees >= 0.0 && r.value.divValue >= 0.0
    decreases |accs|
  {
    if accs == [] then Ok(Totals(0.0, 0.0, 0, 0.0, 0.0, 0.0))
    else
      var t :- ReportOver(b, accs[..|accs| - 1]);
      AccountReport(b, t, accs[|accs| - 1])
  }

  /** The totals after account `a` (one iteration of the loop at lines 127-151). */
  function AccountReport(b: Book, t: Totals, a: Guid): (r: Result<Totals>)
    requires t.divFees >= 0.0 && t.fees >= 0.0 && t.divValue >= 0.0
    ensures r.Ok? ==> r.value.divFees >= 0.0 && r.value.fees >= 0.0 && r.value.divValue >= 0.0
    ensures !IsInvestment(b, a) ==> r == Ok(t)
  {
    if !IsInvestment(b, a) then Ok(t)
    else
      var d :- CalcDividends(b, a);
      var h :- CalcBuySell(b, a);
      var t1 := t.(divValue := t.divValue + d.value, divCount := t.divCount + d.count,
                   divFees := t.divFees + d.fees, fees := t.fees + h.fees);
      if h.shares == 0.0 then Ok(t1.(realized := t1.realized - h.costs))
      else
        var v :- LatestShareValue(b, a, h.shares);
        if v.None? then Err(NoPrice)
        else Ok(t1.(unrealized := t1.unrealized - h.costs + v.value.value))
  }

  /** The investment accounts of `accs`, in order. */
  function Investments(b: Book, accs: seq<Guid>): (r: seq<Guid>)
    ensures forall a :: a in r <==> a in accs && IsInvestment(b, a)
    decreases |accs|
  {
    if accs == [] then []
    else
      var a := accs[|accs| - 1];
      Investments(b, accs[..|accs| - 1]) + (if IsInvestment(b, a) then [a] else [])
  }

  /** Other accounts do not change the report. */
  lemma {:induction false} ReportOnlyInvestments(b: Book, accs: seq<Guid>)
    ensures ReportOver(b, accs) == ReportOver(b, Investments(b, accs))
    decreases |accs|
  {
    if accs != [] {
      var init := accs[..|accs| - 1];
      var a := accs[|accs| - 1];
      ReportOnlyInvestments(b, init);
      if IsInvestment(b, a) {
        var inv := Investments(b, init) + [a];
        assert Investments(b, accs) == inv;
        assert inv[..|inv| - 1] == Investments(b, init) && inv[|inv| - 1] == a;
      } else {
        assert Investments(b, accs) == Investments(b, init) + [] == Investments(b, init);
        assert ReportOver(b, accs) == ReportOver(b, init);
      }
    }
  }

  /** The number of zero-quantity splits over the investment accounts of `accs`. */
  function DividendBookings(b: Book, accs: seq<Guid>): nat
    decreases |accs|
  {
    if accs == [] then 0
    else
      var a := accs[|accs| - 1];
      DividendBookings(b, accs[..|accs| - 1])
        + (if IsInvestment(b, a) then ZeroQuantityCount(b, AccountOr(b, a).splits) else 0)
  }

  /** The report's dividend count is the number of dividend bookings on investment accounts. */
  lemma {:induction false} ReportCountsDividends(b: Book, accs: seq<Guid>)
    requires ReportOver(b, accs).Ok?
    ensures ReportOver(b, accs).value.divCount == DividendBookings(b, accs)
    decreases |accs|
  {
    if accs != [] {
      var a := accs[|accs| - 1];
      ReportCountsDividends(b, accs[..|accs| - 1]);
      if IsInvestment(b, a) {
        CalcDividendsCounts(b, a);
      }
    }
  }

  /** The gain a closed investment position realizes: minus its costs. */
  function RealizedGain(b: Book, a: Guid): real {
    var h := CalcBuySell(b, a);
    if IsInvestment(b, a) && h.Ok? && h.value.shares == 0.0 then -h.value.costs else 0.0
  }

  /** The gain an open investment position holds: its valuation minus its costs. */
  function UnrealizedGain(b: Book, a: Guid): real {
    var h := CalcBuySell(b, a);
    if IsInvestment(b, a) && h.Ok? && h.value.shares != 0.0 then
      var v := LatestShareValue(b, a, h.value.shares);
      if v.Ok? && v.value.Some? then v.value.value.value - h.value.costs else 0.0
    else 0.0
  }

  /** Dividend and trade fees of an investment account. */
  function AccountFees(b: Book, a: Guid): real {
    var d := CalcDividends(b, a);
    var h := CalcBuySell(b, a);
    if IsInvestment(b, a) && d.Ok? && h.Ok? then d.value.fees + h.value.fees else 0.0
  }

  /** Dividends paid out to an investment account. */
  function AccountDividends(b: Book, a: Guid): real {
    var d := CalcDividends(b, a);
    if IsInvestment(b, a) && d.Ok? then d.value.value else 0.0
  }

  datatype Figure = Realized | Unrealized | Fees | Paid

  /** One of the per-account figures above, chosen by `which`. */
  function AccountFigure(b: Book, a: Guid, which: Figure): real {
    match which
    case Realized => RealizedGain(b, a)
    case Unrealized => UnrealizedGain(b, a)
    case Fees => AccountFees(b, a)
    case Paid => AccountDividends(b, a)
  }

  /** The sum of a per-account figure over `accs`. */
  function FigureSum(b: Book, accs: seq<Guid>, which: Figure): real
    decreases |accs|
  {
    if accs == [] then 0.0
    else FigureSum(b, accs[..|accs| - 1], which) + AccountFigure(b, accs[|accs| - 1], which)
  }

  /**
   The report's totals are the per-account sums: realized gains of the
   closed positions, unrealized gains of the open ones, dividend plus trade
   fees, and dividends.
   */
  lemma {:induction false} ReportSumsAccounts(b: Book, accs: seq<Guid>)
    requires ReportOver(b, accs).Ok?
    ensures ReportOver(b, accs).value.realized == FigureSum(b, accs, Realized)
    ensures ReportOver(b, accs).value.unrealized == FigureSum(b, accs, Unrealized)
    ensures ReportOver(b, accs).value.divFees + ReportOver(b, accs).value.fees == FigureSum(b, accs, Fees)
    ensures ReportOver(b, accs).value.divValue == FigureSum(b, accs, Paid)
    decreases |accs|
  {
    if accs != [] {
      ReportSumsAccounts(b, accs[..|accs| - 1]);
    }
  }

  /**
   An investment account whose dividends and trades are computed without
   error, and whose commodity is set when the position is open.
   */
  ghost predicate Computable(b: Book, a: Guid) {
    IsInvestment(b, a) ==>
      && CalcDividends(b, a).Ok? && CalcBuySell(b, a).Ok?
      && (CalcBuySell(b, a).value.shares != 0.0 ==> AccountOr(b, a).commodity.Some?)
  }

  /** An open investment position whose commodity has no price. */
  ghost predicate OpenWithoutPrice(b: Book, a: Guid) {
    && IsInvestment(b, a) && CalcBuySell(b, a).Ok? && CalcBuySell(b, a).value.shares != 0.0
    && AccountOr(b, a).commodity.Some?
    && CommodityOr(b, AccountOr(b, a).commodity.value).prices == []
  }

  /**
   Once every account is computable, the report fails exactly when an open
   position has no price, and then with `NoPrice` (the NaN unpacked at line 148).
   */
  lemma {:induction false} ReportNoPrice(b: Book, accs: seq<Guid>)
    requires forall a :: a in accs ==> Computable(b, a)
    ensures ReportOver(b, accs).Ok? <==> forall a :: a in accs ==> !OpenWithoutPrice(b, a)
    ensures ReportOver(b, accs).Err? ==> ReportOver(b, accs).error == NoPrice
    decreases |accs|
  {
    if accs != [] {
      var init := accs[..|accs| - 1];
      var a := accs[|accs| - 1];
      assert accs == init + [a];
      ReportNoPrice(b, init);
      assert (forall x :: x in accs ==> !OpenWithoutPrice(b, x))
             <==> (forall x :: x in init ==> !OpenWithoutPrice(b, x)) && !OpenWithoutPrice(b, a);
      if ReportOver(b, init).Ok? {
        AccountReportNoPrice(b, ReportOver(b, init).value, a);
      }
    }
  }

  /** One account of a computable book fails exactly when it is open without a price. */
  lemma AccountReportNoPrice(b: Book, t: Totals, a: Guid)
    requires t.divFees >= 0.0 && t.fees >= 0.0 && t.divValue >= 0.0
    requires Computable(b, a)
    ensures AccountReport(b, t, a).Ok? <==> !OpenWithoutPrice(b, a)
    ensures AccountReport(b, t, a).Err? ==> AccountReport(b, t, a).error == NoPrice
  {
    if IsInvestment(b, a) && CalcBuySell(b, a).value.shares != 0.0 {
      var v := LatestShareValue(b, a, CalcBuySell(b, a).value.shares);
      assert v.Ok?;
    }
  }

  datatype Summary = Summary(
    fees: real, realized: real, unrealized: real, dividends: real, complete: real, dividendCount: nat)

  /**
   stockreport.py:121-158: the report over the accounts in table order; the
   total fees join dividend and trade fees, the complete gain joins realized
   and unrealized gains and dividends.
   */
  function Report(b: Book): (r: Result<Summary>)
    ensures r.Ok? ==> r.value.fees >= 0.0 && r.value.dividends >= 0.0
    ensures r.Ok? ==> r.value.complete == r.value.realized + r.value.unrealized + r.value.dividends
  {
    var t :- ReportOver(b, b.accounts.order);
    Ok(Summary(t.divFees + t.fees, t.realized, t.unrealized, t.divValue,
               t.realized + t.unrealized + t.divValue, t.divCount))
  }

  /** The report counts exactly the dividend bookings of the book's investment accounts. */
  lemma ReportDividendCount(b: Book)
    requires Report(b).Ok?
    ensures Report(b).value.dividendCount == DividendBookings(b, b.accounts.order)
  {
    ReportCountsDividends(b, b.accounts.order);
  }

  /**
   The summary lines of the report (lines 153-158): total fees, realized
   and unrealized gains and dividends are the per-account sums over the
   book's accounts.
   */
  lemma ReportTotals(b: Book)
    requires Report(b).Ok?
    ensures var accs := b.accounts.order;
            && Report(b).value.fees == FigureSum(b, accs, Fees)
            && Report(b).value.realized == FigureSum(b, accs, Realized)
            && Report(b).value.unrealized == FigureSum(b, accs, Unrealized)
            && Report(b).value.dividends == FigureSum(b, accs, Paid)
  {
    ReportSumsAccounts(b, b.accounts.order);
  }

  // ---------------------------------------------------------------------
  // The loop as written

  /**
   stockreport.py:127-137 as written: after the dividends of an investment
   account are computed, they are stored as attributes `div_value`,
   `div_count` and `div_fees` of the account, which the slotted `Account`
   dataclass of gnucash/__init__.py:30-39 does not declare, so the first
   investment account aborts the report.
   */
  function ReportOverAsWritten(b: Book, accs: seq<Guid>): (r: Result<Totals>)
    decreases |accs|
  {
    if accs == [] then Ok(Totals(0.0, 0.0, 0, 0.0, 0.0, 0.0))
    else
      var t :- ReportOverAsWritten(b, accs[..|accs| - 1]);
      var a := accs[|accs| - 1];
      if !IsInvestment(b, a) then Ok(t)
      else
        var d :- CalcDividends(b, a);
        Err(NoSuchAttribute)
  }

  /** As written, the report succeeds exactly when the book has no investment account. */
  lemma {:induction false} ReportAsWrittenFails(b: Book, accs: seq<Guid>)
    ensures ReportOverAsWritten(b, accs).Ok? <==> Investments(b, accs) == []
    decreases |accs|
  {
    if accs != [] {
      var init := accs[..|accs| - 1];
      ReportAsWrittenFails(b, init);
      if ReportOverAsWritten(b, init).Ok? {
        assert Investments(b, accs) == [] <==> Investments(b, init) == [] && !IsInvestment(b, accs[|accs| - 1]);
      } else {
        assert Investments(b, init) != [];
        assert Investments(b, accs)[..|Investments(b, init)|] == Investments(b, init);
      }
    }
  }

  /** A book with one stock account, without splits. */
  function OneStockBook(a: Guid): Book {
    EmptyBook().(accounts := Table([a], map[a := NewAccount(a).(kind := Some("STOCK"))]))
  }

  /**
   The as-written loop aborts on a book whose one stock account has no
   bookings, which the corrected loop reports with all totals zero.
   */
  lemma ReportAsWrittenRejectsStock(a: Guid)
    ensures ReportOverAsWritten(OneStockBook(a), [a]) == Err(NoSuchAttribute)
    ensures Report(OneStockBook(a)) == Ok(Summary(0.0, 0.0, 0.0, 0.0, 0.0, 0))
  {
    var b := OneStockBook(a);
    assert IsInvestment(b, a);
    assert AccountOr(b, a).splits == [];
    assert CalcDividends(b, a) == Ok(Dividends(0, 0.0, 0.0));
    assert CalcBuySell(b, a) == Ok(Holdings(0.0, 0.0, 0.0));
    assert ReportOver(b, [a]) == AccountReport(b, Totals(0.0, 0.0, 0, 0.0, 0.0, 0.0), a);
  }
}
